=== FILE: README.md ===
# markify rendering core in Dafny

This project models the rendering core of markify. markify is a service that renders
markdown documents (typed in or fetched from a URL) to HTML pages behind short signed
links. The model covers:

- the shortcode inline parser (`{{ keyword arg* }}`) and the used-shortcode and
  TOC-node bookkeeping it does in the parser context;
- the table of contents: the heading tree built by `addChild`, the transform that
  fills it from the document's headings and hands it to every `{{ toc }}` node, the
  HTML it renders to, and the `{{ toc lo hi }}` level range;
- text flattening of a subtree (`extractTextFromNode`) and the title/preview
  extractor that records the first heading and first paragraph;
- the engine's decisions: `textToTitle`, the empty-render test, the error order of
  `renderDocument` and `createDocument`, and `parseURL`;
- relative image rewriting against a base URL, with Go's lexical `path.Clean`,
  `path.Dir` and `path.Join`;
- the oEmbed and template embed renderers and the three configured services;
- the glue around goldmark: option-to-context setup, result mapping, syntax dispatch
  and the plain-text converter with its HTML escaping;
- `Base58UID` and the signed identifier generator;
- the `DocProjection` flag constants of the document store.

Bytes are `seq<Byte>` with `Byte` a `char` below 256, so literals read as in Go.
Library code the core calls becomes a function parameter, and the contracts hold
for every such function:

- goldmark's `Convert`;
- `url.Parse`, `url.ParseRequestURI` and `URL.String`;
- the HTTP fetch and the oEmbed lookup;
- `html/template` execution;
- the SHA-224 digest and the HMAC state.

The parser context is one record with an `Option` slot per context key
(`RenderContext.Context`). A goldmark tree is a kind plus ordered children
(`Ast.Node`).

Modules, one per source concern:

| module | file | models |
|---|---|---|
| Common | common.dfy | `bytes` helpers |
| Ast | ast.dfy | the tree |
| NetUrl, RenderContext | context.dfy | URL and parser context |
| Shortcode | shortcode.dfy | the shortcode parser |
| Toc | toc.dfy | the heading tree |
| TocHtml | tochtml.dfy | TOC rendering |
| TocTransform | toctransform.dfy | the TOC transform |
| TextExtract | textextract.dfy | text flattening |
| TitleExtract | titleextract.dfy | the title extractor |
| Engine | engine.dfy | engine decisions |
| GoPath | gopath.dfy | `path` |
| ImgRel | imgrel.dfy | image rewriting |
| Embeds | embeds.dfy | embed renderers |
| Pipeline | pipeline.dfy | converter glue |
| Hash | hash.dfy | identifiers |
| Schema | schema.dfy | projections |

Notes on the code as written:

- A shortcode met while shortcodes are switched off is not recorded as used, because
  `Parse` returns before touching the used set (mdrender/shortcode.go:59-61).
- The title extractor never truncates: its `maxTitleLen` of 120 is declared and not
  used. Only the engine cuts a title taken from body text, and it cuts to 50 bytes
  (app/engine/engine.go:18, 162).
- An image destination that does not parse does not fail the render. It stops the
  rewrite walk, whose error the transform drops, so later images stay as written.

## Model

| member | source | states |
|---|---|---|
| Common.TrimSpace | mdrender/shortcode.go:71 | `bytes.TrimSpace`: the result is empty or starts and ends with a non-whitespace byte |
| Common.TrimSpaceParts | app/engine/engine.go:118 | trimming removes only whitespace: the input is a run of whitespace, the trimmed text, and another run of whitespace |
| Common.Index | mdrender/shortcode.go:67 | `bytes.Index`: the first occurrence of the pattern, or -1 exactly when there is none |
| Common.SplitJoin | mdrender/shortcode.go:74 | `bytes.Split` loses nothing: joining the pieces with the separator gives the input back |
| Common.SplitUnique | mdrender/shortcode.go:74 | splitting is the only decomposition into separator-free pieces, so `Split` inverts `Join` |
| Shortcode.KindOf | mdrender/shortcode.go:21-26 | exactly the four keywords tweet, gist, instagram and toc have a node kind |
| Shortcode.MarkUsed | mdrender/shortcode.go:89-94 | the used set gains the keyword, is created on first use, and no other context key changes |
| Shortcode.RecordNode | mdrender/shortcode.go:108-114 | the node is appended after the nodes recorded before it; an unset key counts as an empty list |
| Shortcode.Accept | mdrender/shortcode.go:89-114 | the keyword is marked used; the node is refused exactly when a positive minimum is not met; an accepted node consumes through the closing braces and is recorded when the parser has a context key |
| Shortcode.Parse | mdrender/shortcode.go:58-116 | switched off means no node and no context change; an accepted line opens with "{{", consumes up to and including its first "}}", and yields the parser's kind with enough arguments; a rejection consumes nothing |
| Shortcode.ParseBody | mdrender/shortcode.go:89-116 | once the body's words are scanned, a refusal consumes nothing, an acceptance is a recognised shortcode, and only the used set may change |
| Shortcode.ClosingAfterOpening | mdrender/shortcode.go:64-71 | on a line starting with "{{" the first "}}" is never before position 2, so the body slice is in bounds |
| Shortcode.ScanWordsAfterKeyword | mdrender/shortcode.go:74-87 | after the keyword, every non-empty word becomes a parameter, in order |
| Shortcode.ScanWordsFromStart | mdrender/shortcode.go:74-87 | empty words are skipped and the first real word must be the keyword; a body with no words is accepted with no parameters |
| Shortcode.ParseAccepts | mdrender/shortcode.go:58-116 | a node comes back exactly when shortcodes are on, "{{" opens the line, "}}" follows, the first word is the keyword or there are none, and the minimum is met; its parameters are the remaining words |
| Shortcode.ParseByWords | mdrender/shortcode.go:71-116 | on an enabled, delimited line the outcome depends only on the words of the body |
| Shortcode.MismatchLeavesContext | mdrender/shortcode.go:82-86 | a wrong first word rejects before the context is touched |
| Shortcode.KeywordRecordedBeforeArgCheck | mdrender/shortcode.go:89-98 | a matched keyword is recorded as used even when the argument count then refuses the node |
| Shortcode.AcceptedTocIsRecorded | mdrender/shortcode.go:108-114 | every accepted TOC node ends up last in the recorded list |
| Shortcode.TweetExample | mdrender/mdrender_test.go:68 | "{{ tweet  42 }} ok?" gives one parameter "42" and consumes 15 bytes, so runs of spaces are harmless |
| Shortcode.SingleBraceExample | mdrender/mdrender_test.go:81 | "{ tweet ... }}" is never a shortcode |
| Shortcode.EmptyBodyExample | mdrender/shortcode.go:74-87 | "{{ }}" is accepted with no parameters |
| Toc.NewTocTree | render/markdown/table_of_contents.go:31-38 | a fresh node has the level, no id, no title and no children |
| Toc.AppendAt | render/markdown/table_of_contents.go:55-58 | appending on the rightmost path makes the new node the end of that path and keeps the root |
| Toc.AddChild | render/markdown/table_of_contents.go:46-64 | a heading of level at least 1 becomes the node at depth equal to its level on the rightmost path, and the next insertion point; a level below 1 is dropped at the root |
| Toc.AddChildEntries | render/markdown/table_of_contents.go:46-64 | one insertion appends placeholders for the skipped levels and then the heading to the pre-order, and changes nothing else |
| Toc.BuildToc | render/markdown/table_of_contents.go:127-148 | through any sequence of insertions the current root stays on the rightmost spine of the tree, where `addChild` can reach it |
| Toc.BuildTocEntries | render/markdown/table_of_contents.go:127-148 | the tree's pre-order is the reference sequence: headings in document order, each preceded by its placeholders |
| Toc.AddChildLeveled | render/markdown/table_of_contents.go:47-63 | insertion keeps every child exactly one level below its parent |
| Toc.BuildTocLeveled | render/markdown/table_of_contents.go:127-148 | a whole sequence of insertions keeps the tree well levelled |
| Toc.LeadingH2Example | render/markdown/table_of_contents.go:60-63 | a document that starts with an H2 gets the root, then a level-1 placeholder, then the H2 |
| TocTransform.WalkIsBuild | render/markdown/table_of_contents.go:127-149 | the walk inserts exactly the headings before the first one whose text extraction fails, in document order, and stops exactly when one fails |
| TocTransform.WalkNode | render/markdown/table_of_contents.go:129-149 | the walk keeps the current root on the rightmost spine of the tree being built |
| TocTransform.TocTreeOfHeadings | render/markdown/table_of_contents.go:121-149 | the document's tree lists its headings up to the first failing one, with placeholders, and is well levelled |
| TocTransform.Transform | render/markdown/table_of_contents.go:121-156 | switched off, or with no TOC nodes, nothing changes; otherwise every recorded TOC node holds the same tree and no other context key changes |
| TocTransform.EveryTocNodeGetsTheTree | render/markdown/table_of_contents.go:151-155 | after the transform every TOC node in the document holds the tree and every other node is unchanged |
| TocHtml.ToHTMLIsTokens | render/markdown/table_of_contents.go:66-114 | the bytes `toHTML` writes are the serialised token stream of the tree |
| TocHtml.TocBalanced | render/markdown/table_of_contents.go:79-114 | every tag the TOC opens is closed in nesting order, and the root's output is one nav block |
| TocHtml.AnchorsAreVisibleEntries | render/markdown/table_of_contents.go:66-77 | anchors appear exactly for in-range nodes with a title, in pre-order, with `href` exactly when the heading has an id |
| TocHtml.ParseFormatInt | render/markdown/table_of_contents.go:180-181 | `ParseInt` with bit size 32 reads back every 32-bit integer written in decimal and refuses every other value |
| TocHtml.ParseInt32 | render/markdown/table_of_contents.go:180-181 | a parsed value lies in the 32-bit range, and only text ending in a digit parses |
| TocHtml.TocRange | render/markdown/table_of_contents.go:178-185 | the range is 1..6 unless there are two parameters that both parse, and then it is the first to the second |
| TocHtml.TocRangeExamples | render/markdown/table_of_contents.go:178-185 | "2 3 9" selects 2..3; "2 x" and a single "2" keep 1..6 |
| TocHtml.RenderTableOfContents | render/markdown/table_of_contents.go:172-190 | entering writes the attached tree over the node's range as a balanced token stream; leaving writes nothing |
| TextExtract.Write | mdrender/util.go:20 | a write succeeds exactly when the writer is not used up, and then appends the bytes |
| TextExtract.ExtractNode | mdrender/util.go:16-36 | the walk only appends to what the writer holds, and with a writer that never refuses it never reports a write error |
| TextExtract.ExtractToBuffer | mdrender/util.go:16-36 | into a buffer the walk never fails on a write; it finishes exactly when no text leaf is empty, and has then written all the flattened text; otherwise it wrote a prefix of it |
| TextExtract.ExtractStopReasons | render/markdown/util.go:13-33 | the stop sentinel means an empty text leaf was met; a write error means the writer was used up |
| TextExtract.ExtractWriteError | mdrender/util.go:27-31 | a writer that refuses every write stops the walk at the first text leaf with the writer's error, having written nothing |
| TextExtract.NonTextContributesNothing | mdrender/util.go:18 | a node that is not text adds only what its children add |
| TextExtract.SoftBreakExample | mdrender/util.go:21-26 | "text 123", a soft break, then "456" reads as "text 123 456" |
| TitleExtract.Step | mdrender/title_extractor.go:40-48 | a title or body, once non-empty, is never overwritten |
| TitleExtract.WalkNode | mdrender/title_extractor.go:32-56 | a field of the record, once set, is never overwritten, and the walk is stopped only once both fields are set |
| TitleExtract.Transform | mdrender/title_extractor.go:25-31 | a record already in the context is left alone; otherwise only the record key is set, to the text of the first heading and of the first paragraph that have text |
| TitleExtract.EarlyStopIsFullWalk | mdrender/title_extractor.go:32-56 | stopping once both fields are set gives the record a walk over every node would give |
| TitleExtract.FoldFindsFirst | mdrender/title_extractor.go:40-48 | starting from an empty record, the title is the first non-empty heading text and the body is the first non-empty paragraph text, independently |
| TitleExtract.PreviewIsFirstHeadingAndParagraph | mdrender/title_extractor.go:25-57 | the stored record holds the first heading with text (any level, anywhere) and the first paragraph with text, each empty when there is none |
| TitleExtract.FirstTextIsEarliest | mdrender/title_extractor.go:40-48 | the chosen text is empty exactly when no candidate has text, and otherwise belongs to a candidate with no earlier candidate with text |
| TitleExtract.TransformIdempotent | mdrender/title_extractor.go:26-28 | running the transform again changes nothing |
| TitleExtract.HeadingsOnlyExample | mdrender/mdrender_test.go:241-251 | three headings and no paragraph give title "text 11" and an empty body |
| Engine.DropReSpace | app/engine/engine.go:124-125 | only a leading run of `\s` bytes is removed |
| Engine.Collapse | app/engine/engine.go:124-125 | collapsing never lengthens, and empties only the empty text |
| Engine.CollapseCollapsed | app/engine/engine.go:124-125 | after the replacement every whitespace byte is a single space |
| Engine.CollapseVisible | app/engine/engine.go:124-125 | the replacement loses, adds and reorders no visible byte |
| Engine.CollapseRun | app/engine/engine.go:124-125 | every maximal whitespace run, of any length and any mix of whitespace bytes, becomes exactly one space between the visible text before it and the collapsed rest |
| Engine.CollapseIdempotent | app/engine/engine.go:124-125 | collapsing twice is collapsing once |
| Engine.Normalize | app/engine/engine.go:123-125 | the text to cut is collapsed, no longer than the input, and has visible ends |
| Engine.NormalizeIdempotent | app/engine/engine.go:123-125 | normalising a normalised text changes nothing |
| Engine.CutPoint | app/engine/engine.go:130-136 | the kept length obeys the cut rule: a cut inside a word backs off to the last space before it when that gives back at most a fifth, and otherwise the cut is hard |
| Engine.CutPointUnique | app/engine/engine.go:130-136 | the cut rule admits exactly one length for every text and bound, so the contracts of the cut determine its result |
| Engine.CutTitle | app/engine/engine.go:126-140 | a text that fits is returned as is; a longer one becomes the prefix the cut rule allows, followed by the ellipsis |
| Engine.CutTitleAsWritten | app/engine/engine.go:137-139 | as written, the cut keeps the same prefix as the corrected cut but appends the seven bytes of "â€¦" |
| Engine.WrittenTitleMissesEllipsis | app/engine/engine_test.go:100-107 | as written, no cut title ends with U+2026, which the engine test expects; the corrected cut always does |
| Engine.TextToTitle | app/engine/engine.go:121-141 | a text that fits once trimmed and collapsed is returned as that text, and no title is longer than the bound plus the corrected three-byte ellipsis (see the engine.go:138 finding) |
| Engine.TitleAsWritten | app/engine/engine.go:121-141 | the program's own title has the same kept prefix followed by the seven written bytes: four bytes longer than the model's when cut, at most the bound plus seven |
| Engine.TitleOfNormalized | app/engine/engine.go:121-141 | the title depends only on the trimmed, collapsed text |
| Engine.TitleExample | app/engine/engine_test.go:94-97 | "Page\ntitle" becomes the one-line title "Page title" |
| Engine.BackOffExample | app/engine/engine.go:130-136 | "abcdefgh ijk" cut at 10 keeps "abcdefgh" |
| Engine.HardCutExample | app/engine/engine.go:130-136 | "aaaa bbbbbb" cut at 10 keeps all ten bytes |
| Engine.EmptyRenderIff | app/engine/engine.go:113-119 | a render is empty exactly when it is nothing, or the raw-HTML placeholder with only whitespace around it |
| Engine.TrimIffPadded | app/engine/engine.go:118 | trimming yields a word with visible ends exactly when the text is that word padded with whitespace |
| Engine.ChooseTitle | app/engine/engine.go:159-163 | a heading's title is kept verbatim; otherwise the title is the body cut to 50 bytes plus at most the corrected ellipsis |
| Engine.RenderDocument | app/engine/engine.go:143-166 | a render error, an empty render and a missing title record fail in that order; success keeps the HTML and the chosen title |
| Engine.EmptyBeforeTitle | app/engine/engine.go:151-158 | an empty render is reported as the user's mistake even when the title record is also missing |
| Engine.RenderSeesSwitch | app/engine/engine.go:144 | the renderer sees shortcodes on exactly when the document enables them, and no base URL |
| Engine.CreateDocument | app/engine/engine.go:68-111 | empty data fails first; a URL input must parse and fetch, and its fetched text is rendered with its printed URL kept; the rendered output is `renderDocument`'s; once the text is in hand, a `renderDocument` error is returned unchanged and a successful render always gives a document |
| Engine.CreatedFromWebURL | app/engine/engine.go:77-85 | every document created from a URL came from an accepted http or https URL |
| Engine.ParseURL | app/engine/util.go:11-24 | a URL without a scheme is parsed again as "http://" plus the input; only http and https succeed; the result is one of the two parses |
| Engine.ParseURLRetryOnlySchemeless | app/engine/util.go:11-15 | the request-URI parser is consulted only when the first parse succeeded with an empty scheme |
| Engine.ParseURLOkIff | app/app.go:198-211 | the input is accepted exactly when it parses with http or https, or parses with no scheme and then, behind "http://", parses as a request URI with http or https |
| GoPath.Clean | render/md/imgrel.go:49 | `path.Clean` is never empty and keeps a path rooted exactly when it was |
| GoPath.CleanIdempotent | render/md/imgrel.go:49 | cleaning a cleaned path changes nothing |
| GoPath.JoinPath | render/md/imgrel.go:49 | `path.Join` is empty exactly when both arguments are |
| GoPath.JoinLeadingSlash | render/md/imgrel.go:49 | a leading slash on the second argument does not make it absolute |
| ImgRel.Rebase | render/md/imgrel.go:46-50 | a destination with a host is kept; one without takes the base's scheme and host and a path joined to the base's directory; user info, query and fragment are its own |
| ImgRel.Transform | render/md/imgrel.go:33-55 | without a base URL the document is untouched; in any case only image destinations change, and with a base URL they are rewritten in document order up to the first that does not parse |
| ImgRel.RewriteNodeDests | render/md/imgrel.go:38-54 | destinations are rewritten in document order up to the first that does not parse, which and after which nothing changes; the walk fails exactly then |
| ImgRel.RewriteKeepsShape | render/md/imgrel.go:38-54 | nothing but image destinations changes |
| ImgRel.RebaseIdempotent | render/md/imgrel.go:46-50 | with a base that has a host, a rewritten destination is never rewritten again |
| ImgRel.LeadingSlashStaysUnderBase | render/md/imgrel.go:49 | a destination path with a leading slash still lands under the base document's directory |
| ImgRel.SiblingImage | mdrender/mdrender_test.go:31-42 | a relative image next to "/foo/bar.md" resolves to "/foo/" plus its path, on the base's scheme and host |
| ImgRel.DirExample | render/md/imgrel.go:49 | the directory of "/foo/bar.md" is "/foo" |
| Embeds.Fill | render/md/oembed.go:68 | for a format with exactly one `%s` the argument replaces that verb and nothing else changes |
| Embeds.RenderOembed | render/md/oembed.go:49-78 | leaving writes the closing centre tag when centred; entering writes the opening tag and then the body |
| Embeds.OembedBalanced | render/md/oembed.go:49-78 | entering and leaving together write the body between balanced centre tags when centred |
| Embeds.OnlyFirstParamMatters | render/md/oembed.go:61-68 | parameters after the first are ignored |
| Embeds.OembedLookupFrame | render/md/oembed.go:61-75 | no lookup is made for a missing or malformed id, and otherwise the lookup is made only at the template URL with the id in place of the verb |
| Embeds.IdStaysInParameter | render/md/oembed.go:22 | an accepted id has no byte that could end the query parameter it is placed in |
| Embeds.RenderTemplateEmbed | render/md/template_embed.go:28-52 | leaving writes only the closing centre tag; entering starts with the opening one when centred |
| Embeds.TemplateBalanced | render/md/template_embed.go:28-52 | a failed template run writes only "Unable to display" and the name; a successful one writes its whole output |
| Embeds.OembedFor | render/md/oembed.go:95-99 | oEmbed renderers always centre |
| Embeds.TemplateFor | render/md/template_embed.go:69-73 | template renderers never centre |
| Embeds.ServiceTemplates | render/md/embed_services.go:6-15 | both lookup URLs have exactly one `%s`, and the id lands between the fixed head and tail |
| Embeds.GistTemplate | render/md/embed_services.go:17-20 | the gist template fails exactly when there are fewer than two parameters |
| Embeds.GistExtraParamsIgnored | render/md/embed_services.go:17-20 | four or more parameters render as the first two alone |
| Embeds.GistFileInserted | render/md/embed_services.go:19 | three parameters render as two, with `?file=` and the escaped third parameter inserted before the closing of the tag |
| Embeds.GistTwoParamsExample | mdrender/mdrender_test.go:135-138 | "gist spf13 7896402" produces a script tag for spf13/7896402.js |
| Embeds.GistOneParamExample | mdrender/mdrender_test.go:144-147 | a gist with one parameter renders "Unable to display gist" |
| Embeds.InstagramArgumentErrors | mdrender/mdrender_test.go:127-131 | no parameter, and "x;//sdfs", are both argument errors |
| Embeds.TweetLookupFailureExample | mdrender/mdrender_test.go:95-104 | a failed lookup for "000" writes "Unable to load tweet 000" |
| Pipeline.FillParserCtx | mdrender/mdrender.go:19-24 | the base URL is set only when given; the shortcode switch is always set to the negated option; nothing else changes |
| Pipeline.ShortcodeSwitch | mdrender/mdrender.go:19-24 | shortcodes are on exactly when there are no options or the options do not disable them; a base URL is present exactly when given |
| Pipeline.RenderHTML | render/md/mdrender.go:53-66 | fails exactly when the conversion fails |
| Pipeline.RenderHTMLIsRenderWithContext | render/md/mdrender.go:53-66 | the `render/md` render is the `mdrender` render without the context |
| Pipeline.ConvertMarkdown | render/markdown/mdrender.go:54-71 | fails exactly when the conversion fails; the body is the whole HTML |
| Pipeline.ConvertMarkdownTitle | render/markdown/mdrender.go:62-69 | title and preview come from the stored record, and are empty without one |
| Pipeline.MarkdownShortcodesOn | render/markdown/mdrender.go:55 | a context with no key set counts as shortcodes on |
| Pipeline.SupportSyntax | render/render.go:28-33 | exactly "markdown" and the empty syntax are supported |
| Pipeline.ConvertDoc | render/render.go:35-52 | only "markdown" goes to the markdown converter; everything else is plain text |
| Pipeline.EmptySyntaxIsPlain | render/render.go:28-51 | the empty syntax is accepted, yet rendered as plain text |
| Pipeline.ConvertPlain | render/code.go:12-21 | a read error fails; otherwise there is no title and no preview; the body is stated by Pipeline.PlainBodyIsSafe |
| Pipeline.PlainBodyIsSafe | render/code.go:18-20 | the body is the escaped text inside `<pre><code>` … `</code></pre>`; the escaped part unescapes back to the text read and holds no markup byte |
| Pipeline.EscapeRoundTrip | render/code.go:19 | escaping loses nothing: unescaping the five entities gives the text back |
| Pipeline.EscapedIsSafe | render/code.go:19 | no byte that could open a tag or end an attribute survives escaping |
| Pipeline.PlainBytesPassThrough | render/code.go:19 | text without the five special bytes is copied unchanged |
| Pipeline.PlainTextExample | render/code.go:19 | "a<b" becomes "<pre><code>a&lt;b</code></pre>" |
| Hash.AlphabetDistinct | util/hash.go:16-17 | the alphabet has 58 distinct symbols and no separator |
| Hash.SymbolOf | util/hash.go:33 | a digest byte is written as the symbol at its value modulo 58, never the separator |
| Hash.Base58UID | util/hash.go:20-40 | the identifier has min(n, 28) symbols, the i-th encoding the i-th digest byte, and no separator |
| Hash.Base64 | util/hash.go:64 | the encoding has four digits per started group of three bytes and no separator |
| Hash.GroupRoundTrip | util/hash.go:64 | each group of four digits decodes to the three bytes it encodes |
| Hash.Signature | util/hash.go:63-64 | as written, the signature is 8 digits and is the encoding of the first six bytes of the identifier followed by the fixed digest |
| Hash.Sign | util/hash.go:65 | the signed identifier is the identifier, the separator, then the signature |
| Hash.GetUID | util/hash.go:61-67 | the result holds min(n, 28) symbols, the separator, and the signer's value for those symbols; it always validates |
| Hash.SplitAtSep | util/hash.go:70-73 | splitting at the first separator fails exactly when there is none; the head holds no separator |
| Hash.Validate | util/hash.go:69-77 | input without a separator is never valid, and a valid input is a separator-free identifier, the separator, and that identifier's signature |
| Hash.ValidateIff | util/hash.go:69-77 | the valid inputs are exactly the signed identifiers whose identifier has no separator |
| Hash.SignThenValidate | util/hash.go:61-77 | every generated identifier validates |
| Hash.NoSepInvalid | util/hash.go:71-73 | input without a separator never validates |
| Hash.SignatureIgnoresSecret | util/hash.go:63 | as written, two secrets give the same signature and anyone can forge a valid token |
| Hash.KeyedSignature | util/hash.go:64 | the intended signature is 8 digits with no separator |
| Hash.KeyedSignatureBinds | util/hash.go:63-64 | the intended signature of two keyed digests agrees exactly when their first six bytes agree |
| Schema.Projection | store/docstore/schema.go:11-15 | as declared, the third flag and every later one is zero |
| Schema.DeclaredRenderIsLost | store/docstore/schema.go:9-18 | as declared, asking for metadata plus rendered HTML is asking for metadata alone, and "all" has only two bits |
| Schema.Flag | store/docstore/schema.go:11 | an intended flag is a single bit |
| Schema.FlagsDistinct | store/docstore/schema.go:9-18 | distinct intended flags share no bit, and each part of a combination is still requested |
| Schema.RenderRequestKeepsBoth | app/engine/engine.go:55 | with intended flags, the engine's load request asks for metadata and HTML but not text, and "all" asks for each part |

## Left out

- Parsing markdown itself, HTML rendering of everything but the custom nodes, and
  goldmark's walk machinery. Conversion enters as a parameter, and trees are given
  as data.
- I/O: reading request bodies, HTTP fetching, the oEmbed HTTP lookup and JSON decoding,
  logging, clocks (`time.Now`), the Bolt document store and the web handlers. Failures
  of these enter as `None` results of parameters.
- `url.Parse`, `url.ParseRequestURI` and `URL.String` are parameters. The model states
  what holds for every parser rather than for Go's.
- `html/template` execution and its contextual escaping are parameters
  (`escPath`, `escQuery`).
- SHA-224, HMAC and xid are not modelled: the digest of a fresh xid and the
  hasher's fixed digest enter as parameters.
- Whitespace is ASCII: `bytes.TrimSpace` also trims Unicode spaces (U+0085, U+00A0 and
  multi-byte ones), which the model does not.
- The priorities and registration of extensions (`Extend`, `RegisterFuncs`) and their
  panics on unknown keywords are left out; `Shortcode.Parse` requires a registered
  keyword instead of panicking.
- Hash.Base58UID: `n` is a natural number, because a negative `n` makes `make` panic.
- Hash.GetUID, Hash.Validate: the signer is a parameter; the as-written signer is
  `uid => Hash.Signature(uid, mac)`.
- TocHtml.RenderTableOfContents: requires a tree attached on entering, since the
  source's unchecked type assertion panics without one;
  TocTransform.EveryTocNodeGetsTheTree shows that the transform attaches one to
  every TOC node when shortcodes are enabled and the parser recorded its list.
- Pipeline.SupportSyntax: the error message quotes the syntax without Go's `%q`
  escaping.
- Embeds.Fill: describes `fmt.Sprintf` only for formats with exactly one `%s`, the
  only ones the source uses.
- Engine.TextToTitle: its contract states only the two bounds; the cut itself is
  stated on CutTitle and Normalize and in Engine.TitleOfNormalized. It and the
  members built on it (Engine.ChooseTitle, Engine.RenderDocument and
  Engine.CreateDocument) use the corrected three-byte ellipsis of the
  engine.go:138 finding, so a cut title is at most the bound plus three bytes.
  As written, the suffix is WrittenEllipsis and the bound is the bound plus
  seven; Engine.TitleAsWritten relates the two titles.
- TocTransform.Transform: the tree is set on every TOC node of the document as
  well as on the parser's recorded list. This assumes that list holds exactly
  the document's TOC nodes, as it does when the TOC parser records each node
  it creates and nothing else uses its key; a list that missed a node or held
  a foreign one is not modelled. The promise for the document's nodes
  (TocTransform.EveryTocNodeGetsTheTree) holds only when shortcodes are
  enabled and a list was recorded; otherwise nothing is attached.
- The title extractor's `maxTitleLen` (120) is declared but never used, so it is not
  modelled.
- Examples with literal inputs take them as parameters fixed by a precondition.

## Findings

| source | as written | input that shows it | evidently intended | confidence | as-written member | corrected member |
|---|---|---|---|---|---|---|
| store/docstore/schema.go:11 | the projection flags are `2 >> iota`, giving 2, 1, 0, so ProjRender is 0 and the engine's request for metadata and HTML equals the request for metadata alone | the bitwise or of ProjMeta and ProjRender is 2, which does not contain ProjRender's bit (there is none) | `1 << iota`: one bit per part | high (not executed) | Schema.DeclaredRenderIsLost | Schema.RenderRequestKeepsBoth |
| app/engine/engine.go:138 | the ellipsis literal holds the seven bytes of "â€¦" (U+2026 read as Windows-1252 and encoded again) instead of the three bytes of U+2026 | any body text that normalises to more than 50 bytes, such as the paragraph of engine_test.go:100-107, whose expected title must end in "…" | the three bytes E2 80 A6 of U+2026 | high (not executed) | Engine.WrittenTitleMissesEllipsis | Engine.CutTitle |
| util/hash.go:63 | `hasher.Sum(uid)` appends the HMAC of nothing to `uid` instead of MACing `uid`, so the 8-digit signature is the base64 of the identifier's first six bytes and does not depend on the secret | any identifier `u` of six or more bytes without "_": the token `u + "_" + base64(u[:6])` validates under every secret | write `uid` to the hasher and sign its digest | high (not executed) | Hash.SignatureIgnoresSecret | Hash.KeyedSignatureBinds |

=== FILE: ast.dfy ===
/** The parsed document tree and the custom nodes the extension layer adds to
    it.

    A goldmark node is a kind plus an ordered list of children; the model
    keeps exactly that shape. Only the kinds the extension layer inspects are
    distinguished; every other kind (document, list, emphasis, link, ...) is
    `Other`. */
module Ast {
  import opened Common

  /** The node kinds registered for shortcodes (`ShortCodeNodeKinds`). */
  datatype NodeKind = EmbedTweet | EmbedGist | EmbedInstagram | TOCShortcode

  /** The heading tree built for `{{ toc }}`. The source keeps a parent
      pointer in every node; the model does without it (the insertion point
      is a depth along the rightmost spine, see module Toc). */
  datatype TocTree = TocTree(headingID: Option<Bytes>, title: Bytes, level: int, children: seq<TocTree>)

  /** An extension node: its kind, its arguments, and the per-node payload a
      transform may attach later (only the TOC transform does). */
  datatype ShortCodeNode = ShortCodeNode(kind: NodeKind, params: seq<Bytes>, context: Option<TocTree>)

  datatype Kind =
    | Heading(level: int, id: Option<Bytes>)
    | Paragraph
    | Text(content: Bytes, soft: bool, hard: bool)
    | Image(dest: Bytes)
    | Shortcode(sc: ShortCodeNode)
    | Other

  datatype Node = Node(kind: Kind, children: seq<Node>)

  /** Every node of the tree, in the order `ast.Walk` enters them. */
  function PreOrder(n: Node): (r: seq<Node>)
    ensures |r| >= 1 && r[0] == n
  {
    [n] + PreOrderList(n.children)
  }

  function PreOrderList(cs: seq<Node>): seq<Node>
  {
    if cs == [] then [] else PreOrder(cs[0]) + PreOrderList(cs[1..])
  }
}

=== FILE: common.dfy ===
/** Shared vocabulary: optional values, results, and the byte-string helpers of
    Go's `bytes` and `strings` packages that the renderer relies on.

    Go strings and byte slices are modelled as sequences of bytes. A byte is a
    `char` below 256, so that byte-string literals can be written as ordinary
    string literals. Whitespace is ASCII whitespace. */
module Common {

  datatype Option<+T> = None | Some(value: T)

  datatype Result<+T, +E> = Ok(value: T) | Err(error: E)

  type Byte = c: char | c as int < 256

  type Bytes = seq<Byte>

  /** Go's `unicode.IsSpace` restricted to ASCII: the set that
      `bytes.TrimSpace` and `strings.TrimSpace` remove. */
  predicate IsSpace(c: Byte)
  {
    c == ' ' || c == '\t' || c == '\n' || c == '\r' || c as int == 0x0B || c as int == 0x0C
  }

  predicate HasPrefix(s: Bytes, p: Bytes)
  {
    |p| <= |s| && s[..|p|] == p
  }

  predicate OccursAt(s: Bytes, pat: Bytes, i: int)
  {
    0 <= i && i + |pat| <= |s| && s[i..i + |pat|] == pat
  }

  /** `bytes.Index`: the first position where `pat` occurs in `s`, or -1. */
  function Index(s: Bytes, pat: Bytes): (r: int)
    ensures -1 <= r <= |s|
    ensures r >= 0 ==> OccursAt(s, pat, r)
    ensures forall j :: 0 <= j < r || (r == -1 && 0 <= j <= |s|) ==> !OccursAt(s, pat, j)
  {
    IndexFrom(s, pat, 0)
  }

  function IndexFrom(s: Bytes, pat: Bytes, from: nat): (r: int)
    requires from <= |s|
    ensures r == -1 || from <= r <= |s|
    ensures r >= 0 ==> OccursAt(s, pat, r)
    ensures forall j :: from <= j < r || (r == -1 && from <= j <= |s|) ==> !OccursAt(s, pat, j)
    decreases |s| - from
  {
    if OccursAt(s, pat, from) then from
    else if from == |s| then -1
    else IndexFrom(s, pat, from + 1)
  }

  /** `strings.LastIndexByte`: the last position of `c` in `s`, or -1. */
  function LastIndexOf(s: Bytes, c: Byte): (r: int)
    ensures -1 <= r < |s|
    ensures r >= 0 ==> s[r] == c
    ensures forall j :: r < j < |s| ==> s[j] != c
  {
    if s == [] then -1
    else if s[|s| - 1] == c then |s| - 1
    else LastIndexOf(s[..|s| - 1], c)
  }

  /** Leading whitespace removed. */
  function TrimLeft(s: Bytes): (r: Bytes)
    ensures |r| <= |s| && r == s[|s| - |r|..]
    ensures forall i :: 0 <= i < |s| - |r| ==> IsSpace(s[i])
    ensures r == [] || !IsSpace(r[0])
  {
    if s != [] && IsSpace(s[0]) then TrimLeft(s[1..]) else s
  }

  /** Trailing whitespace removed. */
  function TrimRight(s: Bytes): (r: Bytes)
    ensures |r| <= |s| && r == s[..|r|]
    ensures forall i :: |r| <= i < |s| ==> IsSpace(s[i])
    ensures r == [] || !IsSpace(r[|r| - 1])
  {
    if s != [] && IsSpace(s[|s| - 1]) then TrimRight(s[..|s| - 1]) else s
  }

  /** `bytes.TrimSpace` / `strings.TrimSpace`: `s` without its leading and
      trailing whitespace. The result is a contiguous infix of `s`. */
  function TrimSpace(s: Bytes): (r: Bytes)
    ensures r == [] || (!IsSpace(r[0]) && !IsSpace(r[|r| - 1]))
  {
    var l := TrimLeft(s);
    TrimRightKeepsHead(l);
    TrimRight(l)
  }

  /** What `TrimSpace` removes is whitespace on either side: the result is
      an infix of the input, between the returned runs of spaces. */
  lemma TrimSpaceParts(s: Bytes) returns (p: Bytes, q: Bytes)
    ensures s == p + TrimSpace(s) + q && AllSpace(p) && AllSpace(q)
  {
    var l := TrimLeft(s);
    var r := TrimRight(l);
    LeftTrimmedSpace(s);
    RightTrimmedSpace(l);
    InfixParts(s, l, r);
    p, q := s[..|s| - |l|], l[|r|..];
  }

  lemma TrimRightKeepsHead(l: Bytes)
    requires l == [] || !IsSpace(l[0])
    ensures var r := TrimRight(l); r == [] || (!IsSpace(r[0]) && !IsSpace(r[|r| - 1]))
  {
    var r := TrimRight(l);
    if r != [] {
      assert r[0] == l[..|r|][0] == l[0];
    }
  }

  lemma TrimSpaceShorter(s: Bytes)
    ensures |TrimSpace(s)| <= |s|
  {
    var p, q := TrimSpaceParts(s);
  }

  lemma LeftTrimmedSpace(s: Bytes)
    ensures AllSpace(s[..|s| - |TrimLeft(s)|])
  {
    var p := s[..|s| - |TrimLeft(s)|];
    forall i | 0 <= i < |p| ensures IsSpace(p[i]) {
      assert p[i] == s[i];
    }
  }

  lemma RightTrimmedSpace(l: Bytes)
    ensures AllSpace(l[|TrimRight(l)|..])
  {
    var r := TrimRight(l);
    var q := l[|r|..];
    forall i | 0 <= i < |q| ensures IsSpace(q[i]) {
      assert q[i] == l[|r| + i];
    }
  }

  /** A suffix of a prefix splits the whole into three pieces. */
  lemma InfixParts(s: Bytes, l: Bytes, r: Bytes)
    requires |l| <= |s| && l == s[|s| - |l|..]
    requires |r| <= |l| && r == l[..|r|]
    ensures s == s[..|s| - |l|] + r + l[|r|..]
  {
    var p, q := s[..|s| - |l|], l[|r|..];
    assert l == r + q;
    assert s == p + l;
    assert p + (r + q) == p + r + q;
  }

  /** `TrimSpace` of a string whose non-space core is `s[a..b]`. */
  lemma TrimSpaceCore(s: Bytes, a: nat, b: nat)
    requires a < b <= |s|
    requires forall i :: 0 <= i < a ==> IsSpace(s[i])
    requires forall i :: b <= i < |s| ==> IsSpace(s[i])
    requires !IsSpace(s[a]) && !IsSpace(s[b - 1])
    ensures TrimSpace(s) == s[a..b]
  {
    TrimLeftAt(s, a);
    TrimRightAt(s, a, b);
  }

  /** `TrimLeft` stops at the first non-space byte. */
  lemma TrimLeftAt(s: Bytes, a: nat)
    requires a < |s| && !IsSpace(s[a])
    requires forall i :: 0 <= i < a ==> IsSpace(s[i])
    ensures TrimLeft(s) == s[a..]
  {
    var l := TrimLeft(s);
    assert |s| - |l| == a;
  }

  /** `TrimRight` of the suffix `s[a..]` stops at the last non-space byte. */
  lemma TrimRightAt(s: Bytes, a: nat, b: nat)
    requires a < b <= |s| && !IsSpace(s[b - 1])
    requires forall i :: b <= i < |s| ==> IsSpace(s[i])
    ensures TrimRight(s[a..]) == s[a..b]
  {
    var l := s[a..];
    var r := TrimRight(l);
    assert |r| == b - a;
  }

  lemma TrimSpaceAllSpace(s: Bytes)
    requires AllSpace(s)
    ensures TrimSpace(s) == []
  {
    assert TrimLeft(s) == [];
  }

  predicate AllSpace(s: Bytes)
  {
    forall i :: 0 <= i < |s| ==> IsSpace(s[i])
  }

  /** `bytes.Split(s, []byte{sep})`: the pieces of `s` between occurrences of
      `sep`; there is always one more piece than there are separators. */
  function Split(s: Bytes, sep: Byte): (r: seq<Bytes>)
    ensures |r| >= 1
    ensures forall i :: 0 <= i < |r| ==> Free(r[i], sep)
  {
    var k := LastIndexOf(s, sep);
    if k < 0 then [s] else Split(s[..k], sep) + [s[k + 1..]]
  }

  /** A piece holds no separator. */
  predicate Free(p: Bytes, sep: Byte)
  {
    forall j :: 0 <= j < |p| ==> p[j] != sep
  }

  /** `bytes.Join`, the inverse of `Split`. */
  function Join(ps: seq<Bytes>, sep: Byte): Bytes
  {
    if ps == [] then []
    else if |ps| == 1 then ps[0]
    else Join(ps[..|ps| - 1], sep) + [sep] + ps[|ps| - 1]
  }

  /** Joining the pieces back with the separator gives the input again. */
  lemma {:induction false} SplitJoin(s: Bytes, sep: Byte)
    ensures Join(Split(s, sep), sep) == s
    decreases |s|
  {
    var k := LastIndexOf(s, sep);
    if k >= 0 {
      SplitJoin(s[..k], sep);
      var ps := Split(s[..k], sep);
      assert Split(s, sep) == ps + [s[k + 1..]];
      assert (ps + [s[k + 1..]])[..|ps|] == ps;
      assert s == s[..k] + [sep] + s[k + 1..];
    }
  }

  /** The empty string is one empty piece. */
  lemma SplitEmpty(sep: Byte)
    ensures Split([], sep) == [[]]
  {
    var ps: seq<Bytes> := [[]];
    assert Join(ps, sep) == [];
    SplitUnique(ps, [], sep);
  }

  /** The pieces are determined by the input: any separator-free pieces that
      join to `s` are exactly `Split(s, sep)`. */
  lemma {:induction false} SplitUnique(ps: seq<Bytes>, s: Bytes, sep: Byte)
    requires |ps| >= 1
    requires forall i, j :: 0 <= i < |ps| && 0 <= j < |ps[i]| ==> ps[i][j] != sep
    requires Join(ps, sep) == s
    ensures ps == Split(s, sep)
    decreases |ps|
  {
    var last := ps[|ps| - 1];
    if |ps| == 1 {
      assert s == last;
      assert forall j :: 0 <= j < |s| ==> s[j] != sep;
    } else {
      var front := ps[..|ps| - 1];
      var pre := Join(front, sep);
      assert s == pre + [sep] + last;
      var k := |pre|;
      assert s[k] == sep;
      assert forall j :: k < j < |s| ==> s[j] == last[j - k - 1];
      assert forall j :: k < j < |s| ==> s[j] != sep;
      assert s[..k] == pre;
      assert s[k + 1..] == last;
      SplitUnique(front, pre, sep);
      assert ps == front + [last];
    }
  }

  /** Keeps the non-empty pieces, in order. */
  function NonEmpty(ps: seq<Bytes>): (r: seq<Bytes>)
    ensures |r| <= |ps|
    ensures forall i :: 0 <= i < |r| ==> r[i] != []
    ensures forall i :: 0 <= i < |r| ==> r[i] in ps
  {
    if ps == [] then []
    else if ps[0] == [] then NonEmpty(ps[1..])
    else [ps[0]] + NonEmpty(ps[1..])
  }

  function Concat(ps: seq<Bytes>): Bytes
  {
    if ps == [] then [] else ps[0] + Concat(ps[1..])
  }

  /** `Index` on an input whose first byte of the pattern first appears
      where the pattern occurs. */
  lemma IndexIsFirst(s: Bytes, pat: Bytes, k: nat)
    requires pat != [] && OccursAt(s, pat, k)
    requires forall j :: 0 <= j < k ==> s[j] != pat[0]
    ensures Index(s, pat) == k
  {
    forall j | 0 <= j < k ensures !OccursAt(s, pat, j) {
      assert j + |pat| <= |s| ==> s[j..j + |pat|][0] == s[j];
    }
  }
}

=== FILE: context.dfy ===
/** A URL as net/url represents it. Parsing and serialising are library code
    and enter the model as parameters wherever they are used. */
module NetUrl {
  import opened Common

  /** The fields of `url.URL` that the renderer reads or writes; `user`
      stands for everything else (user info, opaque part, raw path). */
  datatype URL = URL(scheme: Bytes, user: Bytes, host: Bytes, path: Bytes, rawQuery: Bytes, fragment: Bytes)
}

/** The per-document parser context (`parser.Context`), as one record with a
    slot per context key the extension layer uses. `None` means the key was
    never set. */
module RenderContext {
  import opened Common
  import opened Ast
  import opened NetUrl

  /** The record the title extractor stores. The `mdrender` package names
      the second field `Body`, the `render/markdown` package `Preview`. */
  datatype PagePreviewText = PagePreviewText(title: Bytes, body: Bytes)

  datatype Context = Context(
    baseURL: Option<URL>,                  // LinkBaseURL
    enableShortcodes: Option<bool>,        // EnableShortcodes
    usedShortcodes: Option<set<Bytes>>,    // UsedShortcodesKey
    tocNodes: Option<seq<ShortCodeNode>>,  // tocResultKey
    preview: Option<PagePreviewText>)      // MdTitleKey / titleParserCtxKey

  /** `parser.NewContext()`: no key set. */
  const NewContext := Context(None, None, None, None, None)

  /** The test every reader of EnableShortcodes performs
      (`enabled, ok := ...; ok && !enabled` means off): only an explicit
      `false` switches shortcodes off. */
  predicate ShortcodesEnabled(ctx: Context)
  {
    ctx.enableShortcodes != Some(false)
  }
}

=== FILE: embeds.dfy ===
/** The renderers for the embed shortcodes (`render/md/oembed.go`,
    `render/md/template_embed.go`) and the services they are configured with
    (`render/md/embed_services.go`).

    A renderer is called twice per shortcode node, once entering and once
    leaving it, and returns what it writes; it never reports an error and
    always lets the walk continue, so the model returns only the bytes.
    The oEmbed HTTP lookup (`getOembedData`) and the execution of an
    `html/template` enter as parameters. */
module Embeds {
  import opened Common

  // ---- fmt.Sprintf with one %s ----

  predicate PercentFree(s: Bytes)
  {
    forall i :: 0 <= i < |s| ==> s[i] != '%'
  }

  /** A format string with exactly one verb, and that verb `%s`. */
  predicate OneVerb(t: Bytes)
  {
    exists i :: 0 <= i <= |t| && OccursAt(t, "%s", i) && PercentFree(t[..i]) && PercentFree(t[i + 2..])
  }

  /** `fmt.Sprintf(t, arg)`: the argument replaces the first `%s`. For a
      one-verb format this is exactly what `Sprintf` does; the model does
      not describe `Sprintf`'s output for other formats, which the source
      never uses. */
  function Fill(t: Bytes, arg: Bytes): (r: Bytes)
    ensures OneVerb(t) ==>
      (exists i :: 0 <= i && i + 2 <= |t| && t == t[..i] + "%s" + t[i + 2..] && PercentFree(t[..i])
         && r == t[..i] + arg + t[i + 2..])
  {
    var i := Index(t, "%s");
    if i < 0 then t
    else
      assert t == t[..i] + t[i..i + 2] + t[i + 2..];
      assert OneVerb(t) ==> PercentFree(t[..i]) by {
        if OneVerb(t) {
          var k :| OccursAt(t, "%s", k) && PercentFree(t[..k]) && PercentFree(t[k + 2..]);
          OneVerbUnique(t, k, i);
        }
      }
      t[..i] + arg + t[i + 2..]
  }

  /** In a one-verb format every `%s` is the same one. */
  lemma OneVerbUnique(t: Bytes, k: int, i: int)
    requires OccursAt(t, "%s", k) && PercentFree(t[..k]) && PercentFree(t[k + 2..])
    requires OccursAt(t, "%s", i)
    ensures i == k
  {
    assert t[i] == t[i..i + 2][0] == '%';
    assert t[k + 1] == t[k..k + 2][1] == 's';
    assert forall j :: 0 <= j < k ==> t[j] == t[..k][j] != '%';
    assert forall j :: k + 2 <= j < |t| ==> t[j] == t[k + 2..][j - k - 2] != '%';
  }

  lemma PercentFreeAppend(a: Bytes, b: Bytes)
    requires PercentFree(a) && PercentFree(b)
    ensures PercentFree(a + b)
  {
    assert forall i :: |a| <= i < |a + b| ==> (a + b)[i] == b[i - |a|];
  }

  /** The renderer's output for one shortcode node, entering and leaving,
      when the centre flag is set: the body between balanced tags. */
  function Wrap(center: bool, body: Bytes): Bytes
  {
    if center then "<center>" + body + "</center>" else body
  }

  // ---- oEmbed ----

  /** `resourceIDPattern`, `^[A-Za-z0-9_\-]+$`. */
  predicate IdByte(c: Byte)
  {
    ('A' <= c <= 'Z') || ('a' <= c <= 'z') || ('0' <= c <= '9') || c == '_' || c == '-'
  }

  predicate IsResourceID(s: Bytes)
  {
    s != [] && forall i :: 0 <= i < |s| ==> IdByte(s[i])
  }

  /** `oembedHTMLRenderer`: the shortcode name, whether to centre, and the
      lookup URL with one `%s` for the resource id. */
  datatype OembedRenderer = OembedRenderer(name: Bytes, center: bool, urlTemplate: Bytes)

  function WrongArguments(name: Bytes): Bytes
  {
    "Wrong arguments for " + name + "!"
  }

  function UnableToLoad(name: Bytes, id: Bytes): Bytes
  {
    "Unable to load " + name + " " + id + "!"
  }

  /** What is written between the tags: a missing or malformed first
      parameter is reported without a lookup; otherwise the lookup's HTML,
      or a message naming the id when the lookup fails. `lookup` is
      `getOembedData`: the `html` field of the JSON at a URL, `None` on any
      error. */
  function OembedBody(r: OembedRenderer, params: seq<Bytes>, lookup: Bytes -> Option<Bytes>): (out: Bytes)
  {
    if |params| == 0 || !IsResourceID(params[0]) then WrongArguments(r.name)
    else
      var id := params[0];
      match lookup(Fill(r.urlTemplate, id))
      case None => UnableToLoad(r.name, id)
      case Some(html) => html
  }

  /** `renderOembed`: what one call writes. */
  function RenderOembed(r: OembedRenderer, params: seq<Bytes>, entering: bool, lookup: Bytes -> Option<Bytes>): (out: Bytes)
    ensures !entering ==> out == (if r.center then "</center>" else [])
    ensures entering && r.center ==> HasPrefix(out, "<center>")
    ensures entering ==> out == (if r.center then "<center>" else []) + OembedBody(r, params, lookup)
  {
    if !entering then (if r.center then "</center>" else [])
    else (if r.center then "<center>" else []) + OembedBody(r, params, lookup)
  }

  // ---- html/template embeds ----

  /** `templateEmbedHTMLRenderer`; the template itself is the `exec`
      parameter of the render function. */
  datatype TemplateRenderer = TemplateRenderer(name: Bytes, center: bool)

  function UnableToDisplay(name: Bytes): Bytes
  {
    "Unable to display " + name
  }

  /** `renderTemplateEmbed`: the template runs on the parameters, in order,
      into a scratch buffer (`exec`, `None` on an execution error); a failed
      run writes only a message, a successful one the whole buffer
      (`TemplateBalanced` states the two calls together). */
  function RenderTemplateEmbed(r: TemplateRenderer, params: seq<Bytes>, entering: bool, exec: seq<Bytes> -> Option<Bytes>): (out: Bytes)
    ensures !entering ==> out == (if r.center then "</center>" else [])
    ensures entering ==> HasPrefix(out, if r.center then "<center>" else [])
    ensures entering ==> out == (if r.center then "<center>" else []) + TemplateBody(r, params, exec)
  {
    if !entering then (if r.center then "</center>" else [])
    else (if r.center then "<center>" else []) + TemplateBody(r, params, exec)
  }

  /** What is written between the tags: the template's output, or the
      failure message when it does not run. */
  function TemplateBody(r: TemplateRenderer, params: seq<Bytes>, exec: seq<Bytes> -> Option<Bytes>): Bytes
  {
    match exec(params)
    case None => UnableToDisplay(r.name)
    case Some(b) => b
  }

  // ---- the configured services ----

  /** The lookup URLs, written as the text before and after the `%s`. */
  const TweetURLHead: Bytes := "https://api.twitter.com" + "/1/statuses/oembed.json?id="
  const TweetURLTail: Bytes := "&omit_script=true"
  const TweetURLTemplate: Bytes := TweetURLHead + "%s" + TweetURLTail
  const InstagramURLHead: Bytes := "https://api.instagram.com" + "/oembed/?url=" + "https://www.instagram.com/p/"
  const InstagramURLTail: Bytes := "/&amp;maxwidth=420" + "&amp;omitscript=true"
  const InstagramURLTemplate: Bytes := InstagramURLHead + "%s" + InstagramURLTail

  /** `gistTemplateStr` up to the first action. */
  const GistHead: Bytes := "<script type=\"application/javascript\" " + "src=\"https://gist.github.com/"

  /** `oembedExtender.Extend` always centres; `tplEmbedExtender.Extend` never
      does. */
  function OembedFor(name: Bytes, urlTemplate: Bytes): (r: OembedRenderer)
    ensures r.center && r.name == name && r.urlTemplate == urlTemplate
  {
    OembedRenderer(name, true, urlTemplate)
  }

  function TemplateFor(name: Bytes): (r: TemplateRenderer)
    ensures !r.center && r.name == name
  {
    TemplateRenderer(name, false)
  }

  /** `gistTemplateStr` executed on the parameters. `index . 0` and
      `index . 1` fail on a shorter list, so fewer than two parameters is an
      execution error. `escPath` and `escQuery` are the contextual escapers
      `html/template` applies inside the `src` attribute. */
  function GistTemplate(ps: seq<Bytes>, escPath: Bytes -> Bytes, escQuery: Bytes -> Bytes): (r: Option<Bytes>)
    ensures r.None? <==> |ps| < 2
  {
    if |ps| < 2 then None
    else
      var out: Bytes := GistHead + escPath(ps[0]) + "/" + escPath(ps[1]) + ".js"
        + (if |ps| == 3 then "?file=" + escQuery(ps[2]) else [])
        + ScriptClose;
      Some(out)
  }

  // ---- properties ----

  /** Entering and leaving together write the body between balanced
      `<center>` tags when the flag is set, and the bare body otherwise. */
  lemma OembedBalanced(r: OembedRenderer, params: seq<Bytes>, lookup: Bytes -> Option<Bytes>)
    ensures RenderOembed(r, params, true, lookup) + RenderOembed(r, params, false, lookup)
      == Wrap(r.center, OembedBody(r, params, lookup))
  {
  }

  lemma TemplateBalanced(r: TemplateRenderer, params: seq<Bytes>, exec: seq<Bytes> -> Option<Bytes>)
    ensures RenderTemplateEmbed(r, params, true, exec) + RenderTemplateEmbed(r, params, false, exec)
      == Wrap(r.center, TemplateBody(r, params, exec))
  {
  }

  /** The lookup is consulted only for a well-formed id, and only at the
      template's URL with the id in place of the verb: two lookups that
      agree there give the same body. */
  lemma OembedLookupFrame(r: OembedRenderer, params: seq<Bytes>, l1: Bytes -> Option<Bytes>, l2: Bytes -> Option<Bytes>)
    requires |params| == 0 || !IsResourceID(params[0]) || l1(Fill(r.urlTemplate, params[0])) == l2(Fill(r.urlTemplate, params[0]))
    ensures OembedBody(r, params, l1) == OembedBody(r, params, l2)
  {
  }

  /** Only the first parameter matters. */
  lemma OnlyFirstParamMatters(r: OembedRenderer, ps: seq<Bytes>, qs: seq<Bytes>, lookup: Bytes -> Option<Bytes>)
    requires |ps| > 0 && |qs| > 0 && ps[0] == qs[0]
    ensures OembedBody(r, ps, lookup) == OembedBody(r, qs, lookup)
  {
  }

  /** An accepted id holds no byte that could end the query parameter it is
      placed in, so the service sees exactly this id. */
  lemma IdStaysInParameter(id: Bytes)
    requires IsResourceID(id)
    ensures forall i :: 0 <= i < |id| ==> id[i] !in "&#?/%=; "
  {
    forall i | 0 <= i < |id| ensures id[i] !in "&#?/%=; " {
      assert IdByte(id[i]);
    }
  }

  /** Both configured lookup URLs have exactly one `%s`, where the id goes. */
  lemma ServiceTemplates()
    ensures OneVerb(TweetURLTemplate) && OneVerb(InstagramURLTemplate)
    ensures forall id :: Fill(TweetURLTemplate, id) == TweetURLHead + id + TweetURLTail
    ensures forall id :: Fill(InstagramURLTemplate, id) == InstagramURLHead + id + InstagramURLTail
  {
    ServiceTextsPercentFree();
    TemplateVerb(TweetURLHead, TweetURLTail);
    TemplateVerb(InstagramURLHead, InstagramURLTail);
  }

  lemma ServiceTextsPercentFree()
    ensures PercentFree(TweetURLHead) && PercentFree(TweetURLTail)
    ensures PercentFree(InstagramURLHead) && PercentFree(InstagramURLTail)
  {
    TweetTextsPercentFree();
    InstagramHeadPercentFree();
    InstagramTailPercentFree();
  }

  lemma TweetTextsPercentFree()
    ensures PercentFree(TweetURLHead) && PercentFree(TweetURLTail)
  {
    var a1: Bytes, a2: Bytes := "https://api.twitter.com", "/1/statuses/oembed.json?id=";
    assert PercentFree(a1) && PercentFree(a2);
    PercentFreeAppend(a1, a2);
  }

  lemma InstagramHeadPercentFree()
    ensures PercentFree(InstagramURLHead)
  {
    var b1: Bytes, b2: Bytes, b3: Bytes := "https://api.instagram.com", "/oembed/?url=", "https://www.instagram.com/p/";
    assert PercentFree(b1) && PercentFree(b2) && PercentFree(b3);
    PercentFreeAppend(b1, b2);
    PercentFreeAppend(b1 + b2, b3);
  }

  lemma InstagramTailPercentFree()
    ensures PercentFree(InstagramURLTail)
  {
    var c1: Bytes, c2: Bytes := "/&amp;maxwidth=420", "&amp;omitscript=true";
    assert PercentFree(c1) && PercentFree(c2);
    PercentFreeAppend(c1, c2);
  }

  lemma TemplateVerb(head: Bytes, tail: Bytes)
    requires PercentFree(head) && PercentFree(tail)
    ensures OneVerb(head + "%s" + tail)
    ensures forall id :: Fill(head + "%s" + tail, id) == head + id + tail
  {
    var t := head + "%s" + tail;
    var k := |head|;
    assert t[..k] == head && t[k..k + 2] == "%s" && t[k + 2..] == tail;
    assert OccursAt(t, "%s", k);
    OneVerbAt(t, k);
  }

  /** The verb of a one-verb format is at its only `%`. */
  lemma OneVerbAt(t: Bytes, k: nat)
    requires OccursAt(t, "%s", k) && PercentFree(t[..k]) && PercentFree(t[k + 2..])
    ensures OneVerb(t)
    ensures forall arg :: Fill(t, arg) == t[..k] + arg + t[k + 2..]
  {
    var i := Index(t, "%s");
    OneVerbUnique(t, k, i);
  }

  /** The closing of the gist script tag. */
  const ScriptClose: Bytes := "\"></script>"

  /** Parameters past the third are ignored, and with four or more even the
      third is: the output is that of the first two alone. */
  lemma GistExtraParamsIgnored(ps: seq<Bytes>, escPath: Bytes -> Bytes, escQuery: Bytes -> Bytes)
    requires |ps| >= 4
    ensures GistTemplate(ps, escPath, escQuery) == GistTemplate(ps[..2], escPath, escQuery)
  {
    assert ps[..2][0] == ps[0] && ps[..2][1] == ps[1];
  }

  /** With exactly three parameters the output is the two-parameter output
      with `?file=` and the escaped third parameter inserted before the
      closing of the tag. */
  lemma GistFileInserted(ps: seq<Bytes>, escPath: Bytes -> Bytes, escQuery: Bytes -> Bytes)
    requires |ps| == 3
    ensures var two := GistTemplate(ps[..2], escPath, escQuery).value;
      var k := |two| - |ScriptClose|;
      && 0 <= k && two[k..] == ScriptClose
      && GistTemplate(ps, escPath, escQuery).value == two[..k] + "?file=" + escQuery(ps[2]) + ScriptClose
  {
    var head := GistHead + escPath(ps[0]) + "/" + escPath(ps[1]) + ".js";
    var empty: Bytes := [];
    assert ps[..2][0] == ps[0] && ps[..2][1] == ps[1];
    var two := GistTemplate(ps[..2], escPath, escQuery).value;
    assert two == head + empty + ScriptClose;
    assert two == head + ScriptClose;
    assert two[..|head|] == head && two[|head|..] == ScriptClose;
  }

  /** "{{ gist spf13 7896402 }}": the script source is the gist's `.js`
      URL, with no file suffix (escaping leaves these words alone). */
  lemma GistTwoParamsExample(escPath: Bytes -> Bytes, escQuery: Bytes -> Bytes)
    requires escPath("spf13") == "spf13" && escPath("7896402") == "7896402"
    ensures GistTemplate(["spf13", "7896402"], escPath, escQuery) == Some(GistHead + "spf13/7896402.js" + "\"></script>")
  {
    var ps: seq<Bytes> := ["spf13", "7896402"];
    var mid := escPath(ps[0]) + "/" + escPath(ps[1]) + ".js";
    assert mid == "spf13/7896402.js";
    var empty: Bytes := [];
    assert GistTemplate(ps, escPath, escQuery).value == GistHead + escPath(ps[0]) + "/" + escPath(ps[1]) + ".js" + empty + "\"></script>";
    assert GistHead + escPath(ps[0]) + "/" + escPath(ps[1]) + ".js" + empty + "\"></script>" == GistHead + mid + "\"></script>";
  }

  /** "{{ gist spf13 }}" renders the failure message and no script. */
  lemma GistOneParamExample(p: Bytes, escPath: Bytes -> Bytes, escQuery: Bytes -> Bytes)
    ensures RenderTemplateEmbed(TemplateFor("gist"), [p], true, ps => GistTemplate(ps, escPath, escQuery))
      == "Unable to display gist"
  {
  }

  /** "{{ instagram }}" and "{{ instagram x;//sdfs }}" are both argument
      errors, inside the centring tags, whatever the lookup URL. */
  lemma InstagramArgumentErrors(urlTemplate: Bytes, lookup: Bytes -> Option<Bytes>)
    ensures var r := OembedFor("instagram", urlTemplate);
      && RenderOembed(r, [], true, lookup) == "<center>" + WrongArguments("instagram")
      && RenderOembed(r, ["x;//sdfs"], true, lookup) == "<center>" + WrongArguments("instagram")
  {
    var bad: Bytes := "x;//sdfs";
    assert !IdByte(bad[1]);
  }

  /** "{{ tweet 000 }}" with a failing lookup writes a message naming the
      id. */
  lemma TweetLookupFailureExample(urlTemplate: Bytes, lookup: Bytes -> Option<Bytes>)
    requires forall u :: lookup(u).None?
    ensures RenderOembed(OembedFor("tweet", urlTemplate), ["000"], true, lookup)
      == "<center>" + UnableToLoad("tweet", "000")
  {
    var id: Bytes := "000";
    assert IsResourceID(id) by {
      assert forall i :: 0 <= i < |id| ==> id[i] == '0';
    }
  }
}

=== FILE: engine.dfy ===
/** The document engine's pure decisions (`app/engine/engine.go`,
    `app/engine/util.go`, and the duplicate `parseURL` of `app/app.go`):
    deriving a title from body text, recognising an empty render, the error
    order of `createDocument` and `renderDocument`, and URL acceptance.

    The markdown renderer enters as goldmark's `convert` (see `Pipeline`),
    `url.Parse` and `url.ParseRequestURI` as `parse` and `parseRequestURI`,
    fetching a URL as `fetch` and `URL.String` as `show`. Clocks and the
    document store are not part of this model. */
module Engine {
  import opened Common
  import opened NetUrl
  import opened RenderContext
  import opened Pipeline

  /** `maxTitleLen`: the length a body-derived title is cut to. */
  const MaxTitleLen: nat := 50

  /** U+2026 HORIZONTAL ELLIPSIS in UTF-8, the suffix a cut title is meant
      to end with. */
  const Ellipsis: Bytes := [0xE2 as char, 0x80 as char, 0xA6 as char]

  /** The suffix as `textToTitle` spells it: the three bytes of U+2026 read
      as Windows-1252 ("â€¦") and encoded in UTF-8 again. */
  const WrittenEllipsis: Bytes :=
    [0xC3 as char, 0xA2 as char, 0xE2 as char, 0x82 as char, 0xAC as char, 0xC2 as char, 0xA6 as char]

  /** What goldmark prints for a document that is only raw HTML. */
  const RawHTMLOmitted: Bytes := "<!-- raw HTML omitted -->"

  // ---- whitespace ----

  /** RE2's `\s`: tab, newline, form feed, carriage return and space. Unlike
      `IsSpace` it does not include the vertical tab. */
  predicate IsReSpace(c: Byte)
  {
    c == ' ' || c == '\t' || c == '\n' || c as int == 0x0C || c == '\r'
  }

  /** Position `i` holds no whitespace, or a plain space that the next byte
      does not continue. */
  predicate SingleSpaceAt(s: Bytes, i: nat)
    requires i < |s|
  {
    IsReSpace(s[i]) ==> s[i] == ' ' && (i + 1 < |s| ==> !IsReSpace(s[i + 1]))
  }

  /** Every whitespace byte is a plain space and none follows another. */
  predicate Collapsed(s: Bytes)
  {
    forall i :: 0 <= i < |s| ==> SingleSpaceAt(s, i)
  }

  /** The bytes of `s` that are not whitespace, in order. */
  function Visible(s: Bytes): Bytes
  {
    if s == [] then [] else (if IsReSpace(s[0]) then [] else [s[0]]) + Visible(s[1..])
  }

  /** `s` without its leading run of whitespace. */
  function DropReSpace(s: Bytes): (r: Bytes)
    ensures |r| <= |s| && r == s[|s| - |r|..]
    ensures forall i :: 0 <= i < |s| - |r| ==> IsReSpace(s[i])
    ensures r == [] || !IsReSpace(r[0])
  {
    if s != [] && IsReSpace(s[0]) then
      var r := DropReSpace(s[1..]);
      assert s[1..][|s| - 1 - |r|..] == s[|s| - |r|..];
      assert forall i :: 1 <= i < |s| - |r| ==> s[i] == s[1..][i - 1];
      r
    else s
  }

  lemma {:induction false} VisibleDrop(s: Bytes)
    ensures Visible(DropReSpace(s)) == Visible(s)
    decreases |s|
  {
    if s != [] && IsReSpace(s[0]) {
      VisibleDrop(s[1..]);
    }
  }

  /** `regexp.MustCompile("\\s+").ReplaceAllLiteralString(s, " ")`: every
      maximal run of whitespace becomes one space. */
  function Collapse(s: Bytes): (r: Bytes)
    ensures |r| <= |s|
    ensures r == [] <==> s == []
    decreases |s|
  {
    if s == [] then []
    else if IsReSpace(s[0]) then " " + Collapse(DropReSpace(s[1..]))
    else [s[0]] + Collapse(s[1..])
  }

  /** A byte put in front of a collapsed string keeps it collapsed unless
      two whitespace bytes meet. */
  lemma ConsCollapsed(c: Byte, t: Bytes)
    requires Collapsed(t)
    requires IsReSpace(c) ==> c == ' ' && (t == [] || !IsReSpace(t[0]))
    ensures Collapsed([c] + t)
  {
    var u := [c] + t;
    forall i | 0 <= i < |u|
      ensures SingleSpaceAt(u, i)
    {
      if i > 0 {
        assert SingleSpaceAt(t, i - 1);
        assert u[i] == t[i - 1];
        assert i + 1 < |u| ==> u[i + 1] == t[i];
      }
    }
  }

  /** The result has no whitespace other than single spaces. */
  lemma {:induction false} CollapseCollapsed(s: Bytes)
    ensures Collapsed(Collapse(s))
    decreases |s|
  {
    if s != [] {
      if IsReSpace(s[0]) {
        var d := DropReSpace(s[1..]);
        CollapseCollapsed(d);
        ConsCollapsed(' ', Collapse(d));
      } else {
        CollapseCollapsed(s[1..]);
        ConsCollapsed(s[0], Collapse(s[1..]));
      }
    }
  }

  /** No visible byte is lost, added or moved. */
  lemma {:induction false} CollapseVisible(s: Bytes)
    ensures Visible(Collapse(s)) == Visible(s)
    decreases |s|
  {
    if s != [] {
      if IsReSpace(s[0]) {
        var d := DropReSpace(s[1..]);
        CollapseVisible(d);
        VisibleDrop(s[1..]);
        assert Visible(" " + Collapse(d)) == Visible(Collapse(d)) by {
          assert (" " + Collapse(d))[1..] == Collapse(d);
        }
      } else {
        CollapseVisible(s[1..]);
        assert ([s[0]] + Collapse(s[1..]))[1..] == Collapse(s[1..]);
      }
    }
  }

  /** A visible first or last byte stays where it was. */
  lemma {:induction false} CollapseEnds(s: Bytes)
    ensures s != [] && !IsReSpace(s[0]) ==> Collapse(s)[0] == s[0]
    ensures s != [] && !IsReSpace(s[|s| - 1]) ==> Collapse(s)[|Collapse(s)| - 1] == s[|s| - 1]
    decreases |s|
  {
    if s != [] {
      if IsReSpace(s[0]) {
        var d := DropReSpace(s[1..]);
        CollapseEnds(d);
        if d == [] && |s| > 1 {
          assert IsReSpace(s[1..][|s| - 2]);
        }
      } else {
        CollapseEnds(s[1..]);
      }
    }
  }

  /** A string already in collapsed form is left alone. */
  lemma {:induction false} CollapseFixed(s: Bytes)
    requires Collapsed(s)
    ensures Collapse(s) == s
    decreases |s|
  {
    if s != [] {
      var t := s[1..];
      assert Collapsed(t) by {
        forall i | 0 <= i < |t|
          ensures SingleSpaceAt(t, i)
        {
          assert SingleSpaceAt(s, i + 1);
          assert t[i] == s[i + 1];
          assert i + 1 < |t| ==> t[i + 1] == s[i + 2];
        }
      }
      CollapseFixed(t);
      if IsReSpace(s[0]) {
        assert SingleSpaceAt(s, 0);
        assert t != [] ==> t[0] == s[1] && !IsReSpace(t[0]);
        assert DropReSpace(t) == t;
        assert s == " " + t;
      } else {
        assert s == [s[0]] + t;
      }
    }
  }

  lemma CollapseIdempotent(s: Bytes)
    ensures Collapse(Collapse(s)) == Collapse(s)
  {
    CollapseCollapsed(s);
    CollapseFixed(Collapse(s));
  }

  /** A run of bytes all of which are whitespace. */
  predicate AllReSpace(w: Bytes)
  {
    forall i :: 0 <= i < |w| ==> IsReSpace(w[i])
  }

  lemma AllReSpaceTail(w: Bytes)
    requires w != [] && AllReSpace(w)
    ensures AllReSpace(w[1..]) && IsReSpace(w[0])
  {
    forall i | 0 <= i < |w[1..]| ensures IsReSpace(w[1..][i]) {
      assert w[1..][i] == w[i + 1];
    }
  }

  /** A whitespace run followed by a visible byte (or nothing) is dropped
      whole. */
  lemma {:induction false} DropRun(w: Bytes, q: Bytes)
    requires AllReSpace(w)
    requires q == [] || !IsReSpace(q[0])
    ensures DropReSpace(w + q) == q
    decreases |w|
  {
    if w == [] {
      assert w + q == q;
    } else {
      assert (w + q)[0] == w[0];
      assert (w + q)[1..] == w[1..] + q;
      AllReSpaceTail(w);
      DropRun(w[1..], q);
    }
  }

  /** A leading whitespace run becomes one space. */
  lemma CollapseLeadingRun(w: Bytes, q: Bytes)
    requires w != [] && AllReSpace(w)
    requires q == [] || !IsReSpace(q[0])
    ensures Collapse(w + q) == " " + Collapse(q)
  {
    var s := w + q;
    assert s[0] == w[0] && s[1..] == w[1..] + q;
    AllReSpaceTail(w);
    DropRun(w[1..], q);
  }

  /** Every maximal whitespace run, of any length and any mix of whitespace
      bytes, becomes exactly one space: the visible text before it is kept
      and collapsing goes on after it. */
  lemma CollapseRun(p: Bytes, w: Bytes, q: Bytes)
    requires Solid(p)
    requires w != [] && AllReSpace(w)
    requires q == [] || !IsReSpace(q[0])
    ensures Collapse(p + w + q) == p + " " + Collapse(q)
  {
    assert p + w + q == p + (w + q);
    CollapsePrefix(p, w + q);
    CollapseLeadingRun(w, q);
  }

  /** The text a title is cut from: trimmed, then collapsed. */
  function Normalize(s: Bytes): (r: Bytes)
    ensures Collapsed(r) && |r| <= |s|
    ensures r == [] || (!IsSpace(r[0]) && !IsSpace(r[|r| - 1]))
  {
    var t := TrimSpace(s);
    TrimSpaceShorter(s);
    CollapseCollapsed(t);
    CollapseKeepsEnds(t);
    Collapse(t)
  }

  /** Collapsing a text with visible ends keeps them visible. */
  lemma CollapseKeepsEnds(t: Bytes)
    requires t == [] || (!IsSpace(t[0]) && !IsSpace(t[|t| - 1]))
    ensures var r := Collapse(t); r == [] || (!IsSpace(r[0]) && !IsSpace(r[|r| - 1]))
  {
    CollapseEnds(t);
  }

  /** Normalising twice changes nothing, so the title of a title-shaped text
      is computed from the text as it stands. */
  lemma NormalizeIdempotent(s: Bytes)
    ensures Normalize(Normalize(s)) == Normalize(s)
  {
    var n := Normalize(s);
    if n != [] {
      TrimSpaceCore(n, 0, |n|);
      assert n[0..|n|] == n;
    }
    CollapseFixed(n);
  }

  // ---- textToTitle ----

  /** The cut rule for a collapsed text `c` longer than `n`, keeping `k`
      bytes: at most a fifth of `n` is given back; a cut that gives bytes
      back stops at the last space before position `n`, and only when the
      byte at `n` is inside a word; a cut that gives nothing back has the
      word end at `n`, or no space within a fifth of it. */
  predicate GoodCut(c: Bytes, n: nat, k: nat)
    requires n < |c|
  {
    && k <= n && n - k <= n / 5
    && (k < n ==> c[n] != ' ' && c[k] == ' ' && forall j :: k < j < n ==> c[j] != ' ')
    && (k == n ==> c[n] == ' ' || forall j :: 0 <= j < n && n - j <= n / 5 ==> c[j] != ' ')
  }

  /** How much of the collapsed text `c` survives a cut at `n`: all `n`
      bytes, or up to the last space when the cut falls inside a word and
      that space is within `n/5` bytes of it. */
  function CutPoint(c: Bytes, n: nat): (k: nat)
    requires n < |c|
    ensures GoodCut(c, n, k)
  {
    var t := c[..n];
    var last := LastIndexOf(t, ' ');
    assert forall j :: 0 <= j < n ==> t[j] == c[j];
    if c[n] != ' ' && n - last <= n / 5 then last else n
  }

  /** The rule leaves no choice: `CutPoint` is the only good cut. */
  lemma CutPointUnique(c: Bytes, n: nat, k: nat)
    requires n < |c|
    ensures GoodCut(c, n, k) <==> k == CutPoint(c, n)
  {
    var m := CutPoint(c, n);
    if GoodCut(c, n, k) {
      assert !(k < m);
      assert !(m < k);
    }
  }

  /** The cut applied to an already normalised text `c`: `c` itself when it
      fits in `n` bytes, otherwise the good cut of its first `n` bytes
      followed by the ellipsis. */
  function CutTitle(c: Bytes, n: nat): (r: Bytes)
    ensures |c| <= n ==> r == c
    ensures |c| > n ==>
      var k := |r| - |Ellipsis|;
      && 0 <= k && GoodCut(c, n, k)
      && r[k..] == Ellipsis && r[..k] == c[..k]
    ensures |r| <= n + |Ellipsis|
  {
    if |c| <= n then c
    else
      var k := CutPoint(c, n);
      c[..k] + Ellipsis
  }

  /** The cut as written: the same prefix, with the mis-encoded suffix in
      place of the ellipsis. */
  function CutTitleAsWritten(c: Bytes, n: nat): (r: Bytes)
    ensures |c| <= n ==> r == c
    ensures |c| > n ==> r == CutTitle(c, n)[..|CutTitle(c, n)| - |Ellipsis|] + WrittenEllipsis
  {
    if |c| <= n then c
    else c[..CutPoint(c, n)] + WrittenEllipsis
  }

  /** As written, no cut title ends with the ellipsis, while the corrected
      cut always does. */
  lemma WrittenTitleMissesEllipsis(c: Bytes, n: nat)
    requires |c| > n
    ensures var r := CutTitleAsWritten(c, n);
      |r| >= |Ellipsis| && r[|r| - |Ellipsis|..] != Ellipsis
    ensures var r := CutTitle(c, n);
      |r| >= |Ellipsis| && r[|r| - |Ellipsis|..] == Ellipsis
  {
    var r := CutTitleAsWritten(c, n);
    assert r[|r| - 3] == WrittenEllipsis[4];
  }

  /** `textToTitle(s, n)`: trim, collapse whitespace, then cut to `n` bytes. */
  function TextToTitle(s: Bytes, n: nat): (r: Bytes)
    ensures |Normalize(s)| <= n ==> r == Normalize(s)
    ensures |r| <= n + |Ellipsis|
  {
    CutTitle(Normalize(s), n)
  }

  /** As written, `textToTitle` differs from the model's title only in the
      suffix of a cut title: the same kept prefix is followed by the seven
      mis-encoded bytes, so the title can reach the bound plus seven. */
  lemma TitleAsWritten(s: Bytes, n: nat)
    ensures var c := Normalize(s); var t := TextToTitle(s, n); var w := CutTitleAsWritten(c, n);
      && (|c| <= n ==> w == t)
      && (|c| > n ==> |t| >= |Ellipsis| && w == t[..|t| - |Ellipsis|] + WrittenEllipsis && |w| == |t| + 4)
      && |w| <= n + |WrittenEllipsis|
  {
    var c := Normalize(s);
    if |c| > n {
      var k := CutPoint(c, n);
      assert k <= n;
    }
  }

  /** The title depends only on the normalised text. */
  lemma TitleOfNormalized(s: Bytes, n: nat)
    ensures TextToTitle(Normalize(s), n) == TextToTitle(s, n)
  {
    NormalizeIdempotent(s);
  }

  // ---- empty renders ----

  /** `isEmptyHTMLRendered`: nothing at all, or the raw-HTML placeholder with
      only whitespace around it. */
  function IsEmptyHTMLRendered(html: Bytes): (r: bool)
  {
    html == [] || TrimSpace(html) == RawHTMLOmitted
  }

  /** The placeholder, padded with whitespace on both sides. */
  predicate PaddedPlaceholder(html: Bytes)
  {
    exists i :: 0 <= i <= |html| && OccursAt(html, RawHTMLOmitted, i)
      && AllSpace(html[..i]) && AllSpace(html[i + |RawHTMLOmitted|..])
  }

  /** Trimming a padded infix with visible ends yields the infix. */
  lemma TrimPadded(html: Bytes, m: Bytes, i: nat)
    requires m != [] && !IsSpace(m[0]) && !IsSpace(m[|m| - 1])
    requires OccursAt(html, m, i) && AllSpace(html[..i]) && AllSpace(html[i + |m|..])
    ensures TrimSpace(html) == m
  {
    assert html[i] == m[0] && html[i + |m| - 1] == m[|m| - 1];
    assert forall j :: 0 <= j < i ==> IsSpace(html[j]) by {
      forall j | 0 <= j < i ensures IsSpace(html[j]) {
        assert html[..i][j] == html[j];
      }
    }
    assert forall j :: i + |m| <= j < |html| ==> IsSpace(html[j]) by {
      forall j | i + |m| <= j < |html| ensures IsSpace(html[j]) {
        assert html[i + |m|..][j - i - |m|] == html[j];
      }
    }
    TrimSpaceCore(html, i, i + |m|);
    assert html[i..i + |m|] == m;
  }

  /** What trimming leaves sits between two runs of whitespace. */
  lemma TrimmedIsPadded(html: Bytes, m: Bytes)
    requires TrimSpace(html) == m
    ensures exists i :: 0 <= i <= |html| && OccursAt(html, m, i) && AllSpace(html[..i]) && AllSpace(html[i + |m|..])
  {
    var p, q := TrimSpaceParts(html);
    assert html[..|p|] == p && html[|p| + |m|..] == q;
    assert html[|p|..|p| + |m|] == m;
    assert OccursAt(html, m, |p|);
  }

  lemma PlaceholderEnds()
    ensures |RawHTMLOmitted| == 25 && RawHTMLOmitted[0] == '<' && RawHTMLOmitted[24] == '>'
  {
  }

  /** A render counts as empty exactly when it is nothing, or the raw-HTML
      placeholder with whitespace around it. */
  lemma EmptyRenderIff(html: Bytes)
    ensures IsEmptyHTMLRendered(html) <==> html == [] || PaddedPlaceholder(html)
  {
    PlaceholderEnds();
    TrimIffPadded(html, RawHTMLOmitted);
  }

  /** Trimming yields a word with visible ends exactly when the text is that
      word padded with whitespace. */
  lemma TrimIffPadded(html: Bytes, m: Bytes)
    requires m != [] && !IsSpace(m[0]) && !IsSpace(m[|m| - 1])
    ensures TrimSpace(html) == m <==>
      exists i :: 0 <= i <= |html| && OccursAt(html, m, i) && AllSpace(html[..i]) && AllSpace(html[i + |m|..])
  {
    if TrimSpace(html) == m {
      TrimmedIsPadded(html, m);
    }
    if exists i :: 0 <= i <= |html| && OccursAt(html, m, i) && AllSpace(html[..i]) && AllSpace(html[i + |m|..]) {
      var i :| 0 <= i <= |html| && OccursAt(html, m, i) && AllSpace(html[..i]) && AllSpace(html[i + |m|..]);
      TrimPadded(html, m, i);
    }
  }

  // ---- renderDocument / createDocument ----

  /** The failures of the engine; `IsUserError` tells apart those reported
      to the user as their own mistake. */
  datatype EngineError =
    | EmptyData        // "Data in empty. Type something"
    | BadURL(cause: UrlError)
    | FetchFailed      // "Cannot retrieve data from URL"
    | RenderFailed     // "page render error"
    | EmptyContent     // "Empty content!"
    | NoTitle          // "Cannot get page title"

  predicate IsUserError(e: EngineError)
  {
    e.EmptyData? || e.BadURL? || e.FetchFailed? || e.EmptyContent?
  }

  /** The rendered part of a document. */
  datatype Rendered = Rendered(html: Bytes, title: Bytes)

  /** The options `renderDocument` passes: no base URL, and shortcodes as
      the document asks. */
  function RenderOptions(enableShortcodes: bool): Options
  {
    Options(None, !enableShortcodes)
  }

  /** The title rule: a heading's text verbatim, otherwise the body text
      cut to `MaxTitleLen`. */
  function ChooseTitle(p: PagePreviewText): (r: Bytes)
    ensures p.title != [] ==> r == p.title
    ensures p.title == [] ==> r == TextToTitle(p.body, MaxTitleLen) && |r| <= MaxTitleLen + |Ellipsis|
  {
    if p.title != [] then p.title else TextToTitle(p.body, MaxTitleLen)
  }

  /** `renderDocument`: a render error, then an empty render, then a missing
      title record are failures, checked in that order. */
  function RenderDocument(text: Bytes, enableShortcodes: bool, convert: (Bytes, Context) -> Option<(Bytes, Context)>): (r: Result<Rendered, EngineError>)
    ensures var out := RenderWithContext(text, Some(RenderOptions(enableShortcodes)), convert);
      && (out.None? <==> r == Err(RenderFailed))
      && (out.Some? && IsEmptyHTMLRendered(out.value.0) <==> r == Err(EmptyContent))
      && (r.Ok? <==> out.Some? && !IsEmptyHTMLRendered(out.value.0) && out.value.1.preview.Some?)
      && (r.Ok? ==> r.value.html == out.value.0 && r.value.title == ChooseTitle(out.value.1.preview.value))
  {
    match RenderWithContext(text, Some(RenderOptions(enableShortcodes)), convert)
    case None => Err(RenderFailed)
    case Some((html, ctx)) =>
      if IsEmptyHTMLRendered(html) then Err(EmptyContent)
      else if ctx.preview.None? then Err(NoTitle)
      else Ok(Rendered(html, ChooseTitle(ctx.preview.value)))
  }

  /** The stored document, without its timestamps. */
  datatype MdDocument = MdDocument(text: Bytes, srcURL: Option<Bytes>, enableShortcodes: bool, html: Bytes, title: Bytes)

  /** `createDocument`: empty input is refused before anything else; a URL
      input is parsed and fetched, and its text is what gets rendered. */
  function CreateDocument(
    data: Bytes, isURL: bool, enableShortcodes: bool,
    parse: Bytes -> Result<URL, Bytes>, parseRequestURI: Bytes -> Result<URL, Bytes>,
    fetch: URL -> Option<Bytes>, show: URL -> Bytes,
    convert: (Bytes, Context) -> Option<(Bytes, Context)>): (r: Result<MdDocument, EngineError>)
    ensures data == [] ==> r == Err(EmptyData)
    ensures data != [] && isURL && ParseURL(data, parse, parseRequestURI).Err? ==> r == Err(BadURL(ParseURL(data, parse, parseRequestURI).error))
    ensures data != [] && isURL && ParseURL(data, parse, parseRequestURI).Ok? && fetch(ParseURL(data, parse, parseRequestURI).value).None? ==> r == Err(FetchFailed)
    ensures r.Ok? && !isURL ==> r.value.text == data && r.value.srcURL.None?
    ensures r.Ok? && isURL ==> var u := ParseURL(data, parse, parseRequestURI).value;
      r.value.text == fetch(u).value && r.value.srcURL == Some(show(u))
    ensures r.Ok? ==> (r.value.enableShortcodes == enableShortcodes
      && RenderDocument(r.value.text, enableShortcodes, convert) == Ok(Rendered(r.value.html, r.value.title)))
    ensures data != [] && !isURL ==>
      var rd := RenderDocument(data, enableShortcodes, convert);
      (r.Ok? <==> rd.Ok?) && (r.Err? ==> r.error == rd.error)
    ensures data != [] && isURL && ParseURL(data, parse, parseRequestURI).Ok? && fetch(ParseURL(data, parse, parseRequestURI).value).Some? ==>
      var rd := RenderDocument(fetch(ParseURL(data, parse, parseRequestURI).value).value, enableShortcodes, convert);
      (r.Ok? <==> rd.Ok?) && (r.Err? ==> r.error == rd.error)
  {
    if data == [] then Err(EmptyData)
    else
      var src: Result<(Bytes, Option<Bytes>), EngineError> :=
        if !isURL then Ok((data, None))
        else match ParseURL(data, parse, parseRequestURI)
          case Err(e) => Err(BadURL(e))
          case Ok(u) =>
            match fetch(u)
            case None => Err(FetchFailed)
            case Some(t) => Ok((t, Some(show(u))));
      match src
      case Err(e) => Err(e)
      case Ok((text, srcURL)) =>
        match RenderDocument(text, enableShortcodes, convert)
        case Err(e) => Err(e)
        case Ok(rd) => Ok(MdDocument(text, srcURL, enableShortcodes, rd.html, rd.title))
  }

  // ---- parseURL ----

  datatype UrlError = ParseFailed(msg: Bytes) | UnsupportedScheme

  predicate WebScheme(scheme: Bytes)
  {
    scheme == "http" || scheme == "https"
  }

  /** The scheme check applied to whichever parse was kept. */
  function CheckScheme(p: Result<URL, Bytes>): Result<URL, UrlError>
  {
    match p
    case Err(e) => Err(ParseFailed(e))
    case Ok(u) => if WebScheme(u.scheme) then Ok(u) else Err(UnsupportedScheme)
  }

  /** `parseURL`: parse; a URL without a scheme is parsed again as a request
      URI with "http://" in front; only http and https are accepted. */
  function ParseURL(raw: Bytes, parse: Bytes -> Result<URL, Bytes>, parseRequestURI: Bytes -> Result<URL, Bytes>): (r: Result<URL, UrlError>)
    ensures r.Ok? ==> WebScheme(r.value.scheme)
    ensures parse(raw).Err? ==> r == Err(ParseFailed(parse(raw).error))
    ensures parse(raw).Ok? && WebScheme(parse(raw).value.scheme) ==> r == Ok(parse(raw).value)
    ensures parse(raw).Ok? && parse(raw).value.scheme != [] && !WebScheme(parse(raw).value.scheme) ==> r == Err(UnsupportedScheme)
    ensures parse(raw).Ok? && parse(raw).value.scheme == [] ==> r == CheckScheme(parseRequestURI("http://" + raw))
    ensures r.Ok? ==> r.value == parse(raw).value || r.value == parseRequestURI("http://" + raw).value
  {
    var first := parse(raw);
    if first.Ok? && first.value.scheme == [] then CheckScheme(parseRequestURI("http://" + raw))
    else CheckScheme(first)
  }

  // ---- properties ----

  /** An empty render is reported as the user's mistake even when the title
      record is missing too. */
  lemma EmptyBeforeTitle(text: Bytes, enableShortcodes: bool, convert: (Bytes, Context) -> Option<(Bytes, Context)>)
    requires convert(text, StartContext(Some(RenderOptions(enableShortcodes)))).Some?
    requires IsEmptyHTMLRendered(convert(text, StartContext(Some(RenderOptions(enableShortcodes)))).value.0)
    ensures RenderDocument(text, enableShortcodes, convert) == Err(EmptyContent)
    ensures IsUserError(EmptyContent)
  {
  }

  /** The renderer sees shortcodes on exactly when the document enables
      them, and never a base URL. */
  lemma RenderSeesSwitch(enableShortcodes: bool)
    ensures var ctx := StartContext(Some(RenderOptions(enableShortcodes)));
      ShortcodesEnabled(ctx) == enableShortcodes && ctx.baseURL.None?
  {
  }

  /** Every URL that a document is created from has a web scheme. */
  lemma CreatedFromWebURL(
    data: Bytes, enableShortcodes: bool,
    parse: Bytes -> Result<URL, Bytes>, parseRequestURI: Bytes -> Result<URL, Bytes>,
    fetch: URL -> Option<Bytes>, show: URL -> Bytes,
    convert: (Bytes, Context) -> Option<(Bytes, Context)>)
    requires CreateDocument(data, true, enableShortcodes, parse, parseRequestURI, fetch, show, convert).Ok?
    ensures ParseURL(data, parse, parseRequestURI).Ok?
    ensures WebScheme(ParseURL(data, parse, parseRequestURI).value.scheme)
  {
  }

  /** `url.ParseRequestURI` is consulted only for input that parsed with no
      scheme: otherwise the outcome does not depend on it. */
  lemma ParseURLRetryOnlySchemeless(raw: Bytes, parse: Bytes -> Result<URL, Bytes>, pr1: Bytes -> Result<URL, Bytes>, pr2: Bytes -> Result<URL, Bytes>)
    requires parse(raw).Err? || parse(raw).value.scheme != []
    ensures ParseURL(raw, parse, pr1) == ParseURL(raw, parse, pr2)
  {
  }

  /** The input is accepted exactly when it parses with a web scheme, or
      parses with no scheme and then, behind "http://", as a request URI with
      a web scheme. */
  lemma ParseURLOkIff(raw: Bytes, parse: Bytes -> Result<URL, Bytes>, parseRequestURI: Bytes -> Result<URL, Bytes>)
    ensures ParseURL(raw, parse, parseRequestURI).Ok? <==>
      || (parse(raw).Ok? && WebScheme(parse(raw).value.scheme))
      || (parse(raw).Ok? && parse(raw).value.scheme == []
          && parseRequestURI("http://" + raw).Ok? && WebScheme(parseRequestURI("http://" + raw).value.scheme))
  {
  }

  /** Two words with one whitespace byte between them are joined by a
      space. */
  lemma CollapseTwoWords(p: Bytes, c: Byte, w: Bytes)
    requires Solid(p) && Solid(w)
    requires IsReSpace(c)
    ensures Collapse(p + [c] + w) == p + ([' '] + w)
  {
    var cw := [c] + w;
    assert p + [c] + w == p + cw;
    CollapsePrefix(p, cw);
    assert cw[1..] == w && cw[0] == c;
    assert DropReSpace(w) == w;
    assert Collapsed(w);
    CollapseFixed(w);
    assert Collapse(cw) == [' '] + w;
  }

  /** A two-line paragraph becomes a one-line title: "Page\ntitle" gives
      "Page title". */
  lemma TitleExample(p: Bytes, w: Bytes, s: Bytes)
    requires p == "Page" && w == "title" && s == p + "\n" + w
    ensures TextToTitle(s, MaxTitleLen) == p + ([' '] + w)
  {
    NormalizeTwoWords(p, '\n', w);
  }

  /** Two non-empty words with one whitespace byte between them normalise
      to the words joined by a space. */
  lemma NormalizeTwoWords(p: Bytes, c: Byte, w: Bytes)
    requires p != [] && w != []
    requires forall i :: 0 <= i < |p| ==> !IsSpace(p[i])
    requires forall i :: 0 <= i < |w| ==> !IsSpace(w[i])
    requires IsReSpace(c)
    ensures Normalize(p + [c] + w) == p + ([' '] + w)
  {
    var s := p + [c] + w;
    assert s[0] == p[0] && s[|s| - 1] == w[|w| - 1];
    TrimSpaceCore(s, 0, |s|);
    assert s[0..|s|] == s;
    CollapseTwoWords(p, c, w);
  }

  /** A run of bytes none of which is whitespace. */
  predicate Solid(p: Bytes)
  {
    forall i :: 0 <= i < |p| ==> !IsReSpace(p[i])
  }

  /** Collapsing a text that starts with non-space bytes keeps them. */
  lemma {:induction false} CollapsePrefix(p: Bytes, x: Bytes)
    requires Solid(p)
    ensures Collapse(p + x) == p + Collapse(x)
    decreases |p|
  {
    if p == [] {
      assert p + x == x;
    } else {
      var q := p[1..];
      SolidTail(p);
      CollapsePrefix(q, x);
      assert p + x == [p[0]] + (q + x);
      CollapseVisibleHead(p[0], q + x);
      assert p == [p[0]] + q;
    }
  }

  lemma SolidTail(p: Bytes)
    requires Solid(p) && p != []
    ensures Solid(p[1..]) && !IsReSpace(p[0])
  {
    var q := p[1..];
    forall i | 0 <= i < |q| ensures !IsReSpace(q[i]) {
      assert q[i] == p[i + 1];
    }
  }

  lemma CollapseVisibleHead(c: Byte, t: Bytes)
    requires !IsReSpace(c)
    ensures Collapse([c] + t) == [c] + Collapse(t)
  {
    var s := [c] + t;
    assert s[0] == c && s[1..] == t;
  }

  /** A cut inside a word backs off to the space a fifth of the way back:
      "abcdefgh ijk" cut at 10 keeps "abcdefgh". */
  lemma BackOffExample(c: Bytes)
    requires c == "abcdefgh ijk"
    ensures Collapsed(c)
    ensures CutPoint(c, 10) == 8
  {
    assert forall i :: 0 <= i < |c| ==> (IsReSpace(c[i]) <==> i == 8);
    assert c[10] == 'j' && c[8] == ' ' && c[9] == 'i';
    var k := CutPoint(c, 10);
    assert k != 10;
  }

  /** With no space near the cut the word is cut hard: "aaaa bbbbbb" cut at
      10 keeps all ten bytes. */
  lemma HardCutExample(c: Bytes)
    requires c == "aaaa bbbbbb"
    ensures CutPoint(c, 10) == 10
  {
    assert c[8] == 'b' && c[9] == 'b';
  }
}

=== FILE: gopath.dfy ===
/** Go's `path` package (slash-separated paths, purely lexical): `Clean`,
    `Dir` and the two-element `Join` the image rewriter uses. */
module GoPath {
  import opened Common

  /** A path element that survives cleaning: non-empty, not ".", no slash. */
  predicate IsElement(s: Bytes)
  {
    s != [] && s != "." && forall i :: 0 <= i < |s| ==> s[i] != '/'
  }

  predicate Rooted(p: Bytes)
  {
    p != [] && p[0] == '/'
  }

  /** The pieces between slashes, without the empty and "." ones. */
  function DropTrivial(ps: seq<Bytes>): (r: seq<Bytes>)
    ensures |r| <= |ps|
  {
    if ps == [] then []
    else if ps[0] == [] || ps[0] == "." then DropTrivial(ps[1..])
    else [ps[0]] + DropTrivial(ps[1..])
  }

  function Elements(p: Bytes): seq<Bytes>
  {
    DropTrivial(Split(p, '/'))
  }

  /** A cleaned list of elements: ".." only at the front, and none at all
      in a rooted path. */
  predicate Normal(stack: seq<Bytes>, rooted: bool)
  {
    && (forall i :: 0 <= i < |stack| ==> IsElement(stack[i]))
    && (rooted ==> forall i :: 0 <= i < |stack| ==> stack[i] != "..")
    && (forall i, j :: 0 <= i < j < |stack| && stack[j] == ".." ==> stack[i] == "..")
  }

  /** Processes elements left to right: ".." removes the element before it
      when there is one to remove, is dropped at the root of a rooted path,
      and is kept otherwise. */
  function Reduce(stack: seq<Bytes>, segs: seq<Bytes>, rooted: bool): seq<Bytes>
    decreases |segs|
  {
    if segs == [] then stack
    else if segs[0] == ".." then
      if |stack| > 0 && stack[|stack| - 1] != ".." then Reduce(stack[..|stack| - 1], segs[1..], rooted)
      else if rooted then Reduce(stack, segs[1..], rooted)
      else Reduce(stack + [".."], segs[1..], rooted)
    else Reduce(stack + [segs[0]], segs[1..], rooted)
  }

  /** `path.Clean`: the shortest lexically equivalent path. */
  function Clean(p: Bytes): (r: Bytes)
    ensures r != []
    ensures Rooted(r) <==> Rooted(p)
  {
    var rooted := Rooted(p);
    var stack := Reduce([], Elements(p), rooted);
    ElementsNormal(p);
    ReduceNormal([], Elements(p), rooted);
    var body := Join(stack, '/');
    JoinFirst(stack, '/');
    if rooted then "/" + body
    else if body == [] then "."
    else body
  }

  /** `path.Dir`: everything up to the last slash, cleaned. */
  function Dir(p: Bytes): (r: Bytes)
    ensures r != []
  {
    Clean(p[..LastIndexOf(p, '/') + 1])
  }

  /** `path.Join(a, b)`: the non-empty arguments joined with a slash and
      cleaned; "" when both are empty. */
  function JoinPath(a: Bytes, b: Bytes): (r: Bytes)
    ensures r == [] <==> (a == [] && b == [])
  {
    if a == [] && b == [] then []
    else if a == [] then Clean(b)
    else Clean(a + "/" + b)
  }

  // ---- proofs ----

  lemma ElementsNormal(p: Bytes)
    ensures forall i :: 0 <= i < |Elements(p)| ==> IsElement(Elements(p)[i])
  {
    DropTrivialElements(Split(p, '/'));
  }

  lemma {:induction false} DropTrivialElements(ps: seq<Bytes>)
    requires forall i, j :: 0 <= i < |ps| && 0 <= j < |ps[i]| ==> ps[i][j] != '/'
    ensures forall i :: 0 <= i < |DropTrivial(ps)| ==> IsElement(DropTrivial(ps)[i])
  {
    if ps != [] {
      DropTrivialElements(ps[1..]);
    }
  }

  lemma {:induction false} DropTrivialKeeps(ps: seq<Bytes>)
    requires forall i :: 0 <= i < |ps| ==> IsElement(ps[i])
    ensures DropTrivial(ps) == ps
  {
    if ps != [] {
      DropTrivialKeeps(ps[1..]);
    }
  }

  /** Reducing well-formed elements onto a cleaned list gives a cleaned list. */
  lemma {:induction false} ReduceNormal(stack: seq<Bytes>, segs: seq<Bytes>, rooted: bool)
    requires Normal(stack, rooted)
    requires forall i :: 0 <= i < |segs| ==> IsElement(segs[i])
    ensures Normal(Reduce(stack, segs, rooted), rooted)
    decreases |segs|
  {
    if segs != [] {
      if segs[0] == ".." {
        if |stack| > 0 && stack[|stack| - 1] != ".." {
          ReduceNormal(stack[..|stack| - 1], segs[1..], rooted);
        } else if rooted {
          ReduceNormal(stack, segs[1..], rooted);
        } else {
          assert forall i :: 0 <= i < |stack| ==> stack[i] == "..";
          ReduceNormal(stack + [".."], segs[1..], rooted);
        }
      } else {
        ReduceNormal(stack + [segs[0]], segs[1..], rooted);
      }
    }
  }

  /** A cleaned list is a fixed point of reduction. */
  lemma {:induction false} ReduceFixed(a: seq<Bytes>, b: seq<Bytes>, rooted: bool)
    requires Normal(a + b, rooted)
    ensures Reduce(a, b, rooted) == a + b
    decreases |b|
  {
    if b != [] {
      var ab := a + b;
      assert ab[|a|] == b[0];
      if b[0] == ".." {
        assert forall i :: 0 <= i < |a| ==> ab[i] == "..";
        assert !rooted;
        if |a| > 0 {
          assert a[|a| - 1] == ab[|a| - 1];
        }
      }
      assert a + [b[0]] + b[1..] == ab;
      ReduceFixed(a + [b[0]], b[1..], rooted);
    }
  }

  lemma {:induction false} JoinCons(x: Bytes, ps: seq<Bytes>, sep: Byte)
    requires |ps| >= 1
    ensures Join([x] + ps, sep) == x + [sep] + Join(ps, sep)
    decreases |ps|
  {
    var xs := [x] + ps;
    if |ps| == 1 {
      assert xs[..1] == [x];
    } else {
      var front := ps[..|ps| - 1];
      assert xs[..|xs| - 1] == [x] + front;
      JoinCons(x, front, sep);
    }
  }

  lemma {:induction false} JoinFirst(ps: seq<Bytes>, sep: Byte)
    ensures |ps| >= 1 && ps[0] != [] ==> Join(ps, sep) != [] && Join(ps, sep)[0] == ps[0][0]
  {
    if |ps| > 1 && ps[0] != [] {
      assert ps == [ps[0]] + ps[1..];
      JoinCons(ps[0], ps[1..], sep);
    }
  }

  /** Cleaning is idempotent: the cleaned path has exactly the elements it was
      built from, and those are already reduced. */
  lemma CleanIdempotent(p: Bytes)
    ensures Clean(Clean(p)) == Clean(p)
  {
    var rooted := Rooted(p);
    var stack := Reduce([], Elements(p), rooted);
    ElementsNormal(p);
    ReduceNormal([], Elements(p), rooted);
    var c := Clean(p);
    assert Rooted(c) == rooted;
    CleanedElements(stack, rooted);
    assert Elements(c) == stack;
    assert stack == [] + stack;
    ReduceFixed([], stack, rooted);
  }

  /** The elements of a path built from a cleaned list are that list. */
  lemma CleanedElements(stack: seq<Bytes>, rooted: bool)
    requires Normal(stack, rooted)
    ensures var body := Join(stack, '/');
      Elements(if rooted then "/" + body else if body == [] then "." else body) == stack
  {
    if stack == [] {
      if rooted {
        RootElements();
      } else {
        DotElements();
      }
    } else if rooted {
      RootedElements(stack);
    } else {
      RelativeElements(stack);
    }
  }

  lemma RootElements()
    ensures Elements("/") == []
  {
    var sep: Byte := '/';
    var e: Bytes := [];
    assert "/" == e + [sep] + e;
    SplitAppend(e, e, sep);
    SplitEmpty(sep);
    var ps: seq<Bytes> := [e, e];
    assert ps[1..] == [e];
    assert DropTrivial(ps) == [];
  }

  lemma DotElements()
    ensures Elements(".") == []
  {
    assert LastIndexOf(".", '/') == -1;
  }

  lemma RelativeElements(stack: seq<Bytes>)
    requires stack != [] && Normal(stack, false)
    ensures Elements(Join(stack, '/')) == stack
  {
    JoinFirst(stack, '/');
    SplitUnique(stack, Join(stack, '/'), '/');
    DropTrivialKeeps(stack);
  }

  lemma RootedElements(stack: seq<Bytes>)
    requires stack != [] && Normal(stack, true)
    ensures Elements("/" + Join(stack, '/')) == stack
  {
    var body := Join(stack, '/');
    var ps := [[]] + stack;
    assert Split("/" + body, '/') == ps by {
      JoinCons([], stack, '/');
      assert forall i, j :: 0 <= i < |ps| && 0 <= j < |ps[i]| ==> ps[i][j] != '/' by {
        forall i, j | 0 <= i < |ps| && 0 <= j < |ps[i]| ensures ps[i][j] != '/' {
          assert i >= 1 && ps[i] == stack[i - 1];
        }
      }
      SplitUnique(ps, "/" + body, '/');
    }
    assert DropTrivial(ps) == stack by {
      assert ps[1..] == stack;
      DropTrivialKeeps(stack);
    }
  }

  lemma {:induction false} JoinAppend(xs: seq<Bytes>, ys: seq<Bytes>, sep: Byte)
    requires |xs| >= 1 && |ys| >= 1
    ensures Join(xs + ys, sep) == Join(xs, sep) + [sep] + Join(ys, sep)
    decreases |ys|
  {
    var zs := xs + ys;
    if |ys| == 1 {
      assert zs[..|zs| - 1] == xs;
    } else {
      var front := ys[..|ys| - 1];
      assert zs[..|zs| - 1] == xs + front;
      JoinAppend(xs, front, sep);
    }
  }

  /** Splitting at a separator splits the two sides independently. */
  lemma SplitAppend(x: Bytes, y: Bytes, sep: Byte)
    ensures Split(x + [sep] + y, sep) == Split(x, sep) + Split(y, sep)
  {
    var ps := Split(x, sep) + Split(y, sep);
    SplitJoin(x, sep);
    SplitJoin(y, sep);
    JoinAppend(Split(x, sep), Split(y, sep), sep);
    forall i, j | 0 <= i < |ps| && 0 <= j < |ps[i]| ensures ps[i][j] != sep {
      if i >= |Split(x, sep)| {
        assert ps[i] == Split(y, sep)[i - |Split(x, sep)|];
      }
    }
    SplitUnique(ps, x + [sep] + y, sep);
  }

  lemma {:induction false} DropTrivialAppend(a: seq<Bytes>, b: seq<Bytes>)
    ensures DropTrivial(a + b) == DropTrivial(a) + DropTrivial(b)
    decreases |a|
  {
    if a == [] {
      assert a + b == b;
    } else {
      assert (a + b)[1..] == a[1..] + b;
      DropTrivialAppend(a[1..], b);
    }
  }

  /** An empty piece between two separators is dropped. */
  lemma ElementsDoubleSlash(a: Bytes, b: Bytes)
    ensures Elements(a + ['/'] + ['/'] + b) == Elements(a + ['/'] + b)
  {
    var sep: Byte := '/';
    var sa, sb := Split(a, sep), Split(b, sep);
    SplitDoubleSep(a, b, sep);
    SplitAppend(a, b, sep);
    DropEmptyPiece(sa, sb);
  }

  /** Two adjacent separators leave one empty piece between the sides. */
  lemma SplitDoubleSep(a: Bytes, b: Bytes, sep: Byte)
    ensures Split(a + [sep] + [sep] + b, sep) == Split(a, sep) + [[]] + Split(b, sep)
  {
    SplitAppend(a + [sep], b, sep);
    assert a + [sep] + [] == a + [sep];
    SplitAppend(a, [], sep);
    SplitEmpty(sep);
  }

  lemma DropEmptyPiece(sa: seq<Bytes>, sb: seq<Bytes>)
    ensures DropTrivial(sa + [[]] + sb) == DropTrivial(sa + sb)
  {
    var e: seq<Bytes> := [[]];
    DropTrivialAppend(sa + e, sb);
    DropTrivialAppend(sa, e);
    DropTrivialAppend(sa, sb);
    assert DropTrivial(e) == [];
  }

  /** `path.Join(a, "/" + b)` is `path.Join(a, b)` for a non-empty `a`: a
      leading slash on the second argument does not make it absolute. */
  lemma JoinLeadingSlash(a: Bytes, b: Bytes)
    requires a != []
    ensures JoinPath(a, "/" + b) == JoinPath(a, b)
  {
    var x := a + "/" + ("/" + b);
    var y := a + "/" + b;
    assert Elements(x) == Elements(y) by {
      assert x == a + ['/'] + ['/'] + b;
      assert y == a + ['/'] + b;
      ElementsDoubleSlash(a, b);
    }
    assert Rooted(x) == Rooted(y) by {
      assert x[0] == a[0] == y[0];
    }
  }
}

=== FILE: hash.dfy ===
/** Short identifiers and signed identifiers (`util/hash.go`).

    The SHA-224 digest of a fresh xid enters `Base58UID` as the parameter
    `digest`. The HMAC hasher of a `SignedUIDGenerator` is never written to,
    so its `Sum(b)` is always `b` followed by one fixed 28-byte digest; that
    digest enters `Signature` as the parameter `mac`. `GetUID` and `Validate`
    take the signer as a function, so that the signature as written and the
    keyed signature evidently intended can both be plugged in. */
module Hash {
  import opened Common

  /** `sha256.Size224`. */
  const DigestSize: nat := 28

  /** `hashAlphabet`: the digits and letters without `0`, `O`, `I` and `l`. */
  const HashAlphabet: Bytes := "abcdefghijkmnopqrstuvwxyz" + "ABCDEFGHJKLMNPQRSTUVWXYZ" + "123456789"

  /** The separator between an identifier and its signature. */
  const Sep: Byte := '_'

  /** `signLen`. */
  const SignLen: nat := 8

  // ---- the alphabet ----

  /** The `i`-th symbol of the alphabet, by arithmetic on the three runs
      of lower-case letters (no `l`), upper-case letters (no `I`, `O`)
      and digits (no `0`). */
  function Symbol(i: nat): Byte
    requires i < 58
  {
    if i < 11 then ('a' as int + i) as char
    else if i < 25 then ('a' as int + i + 1) as char
    else if i < 33 then ('A' as int + i - 25) as char
    else if i < 38 then ('A' as int + i - 24) as char
    else if i < 49 then ('A' as int + i - 23) as char
    else ('1' as int + i - 49) as char
  }

  lemma AlphabetBySymbol()
    ensures |HashAlphabet| == 58
    ensures forall i :: 0 <= i < 58 ==> HashAlphabet[i] == Symbol(i)
  {
    var lower: Bytes := "abcdefghijkmnopqrstuvwxyz";
    var upper: Bytes := "ABCDEFGHJKLMNPQRSTUVWXYZ";
    var digits: Bytes := "123456789";
    assert HashAlphabet == lower + upper + digits;
    LowerRun(lower);
    UpperRun(upper);
    DigitRun(digits);
    forall i | 0 <= i < 58 ensures HashAlphabet[i] == Symbol(i) {
      if i < 25 {
        assert HashAlphabet[i] == lower[i];
      } else if i < 49 {
        assert HashAlphabet[i] == upper[i - 25];
      } else {
        assert HashAlphabet[i] == digits[i - 49];
      }
    }
  }

  lemma LowerRun(lower: Bytes)
    requires lower == "abcdefghijkmnopqrstuvwxyz"
    ensures forall i :: 0 <= i < 25 ==> lower[i] == Symbol(i)
  {
  }

  lemma UpperRun(upper: Bytes)
    requires upper == "ABCDEFGHJKLMNPQRSTUVWXYZ"
    ensures forall i :: 0 <= i < 24 ==> upper[i] == Symbol(i + 25)
  {
  }

  lemma DigitRun(digits: Bytes)
    requires digits == "123456789"
    ensures forall i :: 0 <= i < 9 ==> digits[i] == Symbol(i + 49)
  {
  }

  /** The alphabet has 58 symbols, no two alike, and no separator among
      them. */
  lemma AlphabetDistinct()
    ensures |HashAlphabet| == 58
    ensures forall i, j :: 0 <= i < j < 58 ==> HashAlphabet[i] != HashAlphabet[j]
    ensures Sep !in HashAlphabet
  {
    AlphabetBySymbol();
    forall i, j | 0 <= i < j < 58
      ensures HashAlphabet[i] != HashAlphabet[j]
    {
      SymbolIncreasingInRun(i, j);
    }
    forall i | 0 <= i < 58 ensures HashAlphabet[i] != Sep {
      assert Symbol(i) != '_';
    }
  }

  /** Symbols of the same run are ordered like their indices; the runs
      themselves are disjoint ranges of bytes. */
  lemma SymbolIncreasingInRun(i: nat, j: nat)
    requires i < j < 58
    ensures Symbol(i) != Symbol(j)
  {
    var a, b := Symbol(i) as int, Symbol(j) as int;
    assert i < 25 ==> 'a' as int <= a <= 'z' as int;
    assert 25 <= i < 49 ==> 'A' as int <= a <= 'Z' as int;
    assert 49 <= i ==> '1' as int <= a <= '9' as int;
    assert j < 25 ==> 'a' as int <= b <= 'z' as int && a < b;
    assert 25 <= j < 49 ==> 'A' as int <= b <= 'Z' as int && (25 <= i ==> a < b);
    assert 49 <= j ==> '1' as int <= b <= '9' as int && (49 <= i ==> a < b);
  }

  // ---- Base58UID ----

  /** The symbol a digest byte is written as: `hashAlphabet[b % 58]`. */
  function SymbolOf(b: Byte): (r: Byte)
    ensures r == Symbol(b as int % 58) && r != Sep
  {
    AlphabetBySymbol();
    HashAlphabet[b as int % 58]
  }

  /** `Base58UID(n)`: the first `min(n, 28)` bytes of the digest, each written
      as one alphabet symbol. A negative `n` makes Go's `make` panic, so `n`
      is a natural number here. */
  method Base58UID(n: nat, digest: Bytes) returns (res: Bytes)
    requires |digest| == DigestSize
    ensures |res| == if n > DigestSize then DigestSize else n
    ensures forall i :: 0 <= i < |res| ==> res[i] == SymbolOf(digest[i])
    ensures Sep !in res
  {
    var m := if n > DigestSize then DigestSize else n;
    res := [];
    var i := 0;
    while i < m
      invariant 0 <= i <= m
      invariant |res| == i
      invariant forall j :: 0 <= j < i ==> res[j] == SymbolOf(digest[j])
    {
      res := res + [SymbolOf(digest[i])];
      i := i + 1;
    }
  }

  // ---- base64 (section 4 of RFC 4648, with padding) ----

  const Pad: Byte := '='

  /** The base64 digit of a six-bit value: `A`-`Z`, `a`-`z`, `0`-`9`, `+`,
      `/`. */
  function Digit(v: int): (r: Byte)
    requires 0 <= v < 64
    ensures r != Sep && r != Pad
  {
    if v < 26 then ('A' as int + v) as char
    else if v < 52 then ('a' as int + v - 26) as char
    else if v < 62 then ('0' as int + v - 52) as char
    else if v == 62 then '+'
    else '/'
  }

  /** Three bytes as four digits. */
  function Group(a: Byte, b: Byte, c: Byte): (r: Bytes)
    ensures |r| == 4
  {
    var x, y, z := a as int, b as int, c as int;
    [Digit(x / 4), Digit(x % 4 * 16 + y / 16), Digit(y % 16 * 4 + z / 64), Digit(z % 64)]
  }

  /** `base64.StdEncoding.EncodeToString`. */
  function Base64(s: Bytes): (r: Bytes)
    ensures |r| == 4 * ((|s| + 2) / 3)
    ensures Sep !in r
    decreases |s|
  {
    if |s| >= 3 then Group(s[0], s[1], s[2]) + Base64(s[3..])
    else if |s| == 2 then
      var x, y := s[0] as int, s[1] as int;
      [Digit(x / 4), Digit(x % 4 * 16 + y / 16), Digit(y % 16 * 4), Pad]
    else if |s| == 1 then
      var x := s[0] as int;
      [Digit(x / 4), Digit(x % 4 * 16), Pad, Pad]
    else []
  }

  /** The first eight digits depend on the first six bytes only. */
  lemma Base64Prefix(s: Bytes)
    requires |s| >= 6
    ensures Base64(s)[..8] == Group(s[0], s[1], s[2]) + Group(s[3], s[4], s[5])
  {
    var t := s[3..];
    var g1, g2 := Group(s[0], s[1], s[2]), Group(t[0], t[1], t[2]);
    assert Base64(s) == g1 + Base64(t);
    assert Base64(t) == g2 + Base64(t[3..]);
    assert (g1 + (g2 + Base64(t[3..])))[..8] == g1 + g2;
  }

  /** Decoding of one group, the inverse of `Group`. */
  function Ungroup(g: Bytes): Option<(Byte, Byte, Byte)>
  {
    if |g| != 4 then None
    else
      var d0, d1, d2, d3 := DigitValue(g[0]), DigitValue(g[1]), DigitValue(g[2]), DigitValue(g[3]);
      if d0 < 0 || d1 < 0 || d2 < 0 || d3 < 0 then None
      else
        var n := d0 * 262144 + d1 * 4096 + d2 * 64 + d3;
        Some(((n / 65536 % 256) as char, (n / 256 % 256) as char, (n % 256) as char))
  }

  /** The value of a base64 digit, or -1. */
  function DigitValue(c: Byte): (v: int)
    ensures -1 <= v < 64
    ensures v >= 0 ==> Digit(v) == c
  {
    if 'A' <= c <= 'Z' then c as int - 'A' as int
    else if 'a' <= c <= 'z' then c as int - 'a' as int + 26
    else if '0' <= c <= '9' then c as int - '0' as int + 52
    else if c == '+' then 62
    else if c == '/' then 63
    else -1
  }

  lemma DigitRoundTrip(v: int)
    requires 0 <= v < 64
    ensures DigitValue(Digit(v)) == v
  {
  }

  /** A group decodes to the three bytes it encodes. */
  lemma GroupRoundTrip(a: Byte, b: Byte, c: Byte)
    ensures Ungroup(Group(a, b, c)) == Some((a, b, c))
  {
    var x, y, z := a as int, b as int, c as int;
    var g := Group(a, b, c);
    DigitRoundTrip(x / 4);
    DigitRoundTrip(x % 4 * 16 + y / 16);
    DigitRoundTrip(y % 16 * 4 + z / 64);
    DigitRoundTrip(z % 64);
    Recombine(x, y, z);
  }

  /** Four six-bit digits put back together give the three bytes. */
  lemma Recombine(x: int, y: int, z: int)
    requires 0 <= x < 256 && 0 <= y < 256 && 0 <= z < 256
    ensures var n := (x / 4) * 262144 + (x % 4 * 16 + y / 16) * 4096 + (y % 16 * 4 + z / 64) * 64 + z % 64;
      n / 65536 % 256 == x && n / 256 % 256 == y && n % 256 == z
  {
    var n := (x / 4) * 262144 + (x % 4 * 16 + y / 16) * 4096 + (y % 16 * 4 + z / 64) * 64 + z % 64;
    assert x == x / 4 * 4 + x % 4 && y == y / 16 * 16 + y % 16 && z == z / 64 * 64 + z % 64;
    assert n == x * 65536 + y * 256 + z;
    assert 0 <= y * 256 + z < 65536;
    assert n / 65536 == x;
    assert n / 65536 % 256 == x;
    assert n / 256 == x * 256 + y;
    assert n % 256 == z;
  }

  // ---- signed identifiers ----

  /** The signature as written: the first eight base64 digits of
      `hasher.Sum(uid)`. The HMAC hasher is never written to, so `Sum(uid)`
      is `uid` followed by one fixed digest `mac`, not a MAC of `uid`. */
  function Signature(uid: Bytes, mac: Bytes): (r: Bytes)
    requires |mac| == DigestSize
    ensures |r| == SignLen && Sep !in r
    ensures r == Base64((uid + mac)[..6])
  {
    var s := uid + mac;
    Base64Prefix(s);
    var t := s[..6];
    assert t[..3] == s[..3] && t[3..] == s[3..6];
    assert Base64(t) == Group(s[0], s[1], s[2]) + Base64(t[3..]);
    assert Base64(t[3..]) == Group(s[3], s[4], s[5]) + Base64(t[3..][3..]);
    Base64(s)[..SignLen]
  }

  /** The signature evidently intended: the first eight base64 digits of
      the keyed digest `tag` of the identifier (`HMAC-SHA224(secret, uid)`). */
  function KeyedSignature(tag: Bytes): (r: Bytes)
    requires |tag| == DigestSize
    ensures |r| == SignLen && Sep !in r
  {
    Base64Prefix(tag);
    Base64(tag)[..SignLen]
  }

  /** `GetUID` after `Base58UID`: the identifier, the separator, the
      signature `sign` computes for it. */
  function Sign(uid: Bytes, sign: Bytes -> Bytes): (r: Bytes)
    ensures |r| == |uid| + 1 + |sign(uid)|
    ensures r[..|uid|] == uid && r[|uid|] == Sep && r[|uid| + 1..] == sign(uid)
  {
    uid + [Sep] + sign(uid)
  }

  /** `GetUID(n)` with the digest of a fresh xid and a signer: as written
      the signer is `uid => Signature(uid, mac)`. */
  method GetUID(n: nat, digest: Bytes, sign: Bytes -> Bytes) returns (r: Bytes)
    requires |digest| == DigestSize
    ensures var m := if n > DigestSize then DigestSize else n;
      && |r| > m && r[m] == Sep
      && (forall i :: 0 <= i < m ==> r[i] == SymbolOf(digest[i]))
      && r[m + 1..] == sign(r[..m])
    ensures Validate(r, sign)
  {
    var uid := Base58UID(n, digest);
    r := Sign(uid, sign);
    SignThenValidate(uid, sign);
  }

  /** `strings.SplitN(data, "_", 2)`: the text before the first separator
      and the rest, or `None` when there is no separator. */
  function SplitAtSep(data: Bytes): (r: Option<(Bytes, Bytes)>)
    ensures r.None? <==> Sep !in data
    ensures r.Some? ==> Sep !in r.value.0 && data == r.value.0 + [Sep] + r.value.1
  {
    var k := Index(data, [Sep]);
    if k < 0 then
      assert forall j :: 0 <= j < |data| ==> data[j] != Sep by {
        forall j | 0 <= j < |data| ensures data[j] != Sep {
          assert !OccursAt(data, [Sep], j);
          assert data[j..j + 1] == [data[j]];
        }
      }
      None
    else
      assert data[k..k + 1] == [Sep];
      assert forall j :: 0 <= j < k ==> data[j] != Sep by {
        forall j | 0 <= j < k ensures data[j] != Sep {
          assert !OccursAt(data, [Sep], j);
          assert data[j..j + 1] == [data[j]];
        }
      }
      assert data == data[..k] + [Sep] + data[k + 1..];
      Some((data[..k], data[k + 1..]))
  }

  /** `Validate`: the text after the first separator must be the signature
      of the text before it. */
  function Validate(data: Bytes, sign: Bytes -> Bytes): (r: bool)
    ensures Sep !in data ==> !r
    ensures r ==> var uid := SplitAtSep(data).value.0;
      Sep !in uid && data == Sign(uid, sign)
  {
    match SplitAtSep(data)
    case None => false
    case Some((uid, s)) => sign(uid) == s
  }

  /** The split at the first separator is the only one whose head holds
      no separator. */
  lemma SplitAtSepUnique(uid: Bytes, rest: Bytes)
    requires Sep !in uid
    ensures SplitAtSep(uid + [Sep] + rest) == Some((uid, rest))
  {
    var data := uid + [Sep] + rest;
    var r := SplitAtSep(data);
    var (u, v) := r.value;
    assert forall j :: 0 <= j < |uid| ==> data[j] == uid[j] != Sep;
    assert forall j :: 0 <= j < |u| ==> data[j] == u[j] != Sep;
    assert data[|u|] == Sep && data[|uid|] == Sep;
    assert |u| == |uid|;
    assert u == data[..|uid|] == uid;
    assert v == data[|uid| + 1..] == rest;
  }

  /** Every signed identifier whose identifier part holds no separator is
      valid; `Base58UID` never produces a separator. */
  lemma SignThenValidate(uid: Bytes, sign: Bytes -> Bytes)
    requires Sep !in uid
    ensures Validate(Sign(uid, sign), sign)
  {
    SplitAtSepUnique(uid, sign(uid));
  }

  /** The valid inputs are exactly the signed identifiers. */
  lemma ValidateIff(data: Bytes, sign: Bytes -> Bytes)
    ensures Validate(data, sign) <==> exists uid :: Sep !in uid && data == Sign(uid, sign)
  {
    if Validate(data, sign) {
      var (uid, s) := SplitAtSep(data).value;
      assert data == Sign(uid, sign);
    }
    if exists uid :: Sep !in uid && data == Sign(uid, sign) {
      var uid :| Sep !in uid && data == Sign(uid, sign);
      SignThenValidate(uid, sign);
    }
  }

  /** Input without a separator is never valid. */
  lemma NoSepInvalid(data: Bytes, sign: Bytes -> Bytes)
    requires Sep !in data
    ensures !Validate(data, sign)
  {
  }

  // ---- the signature as written ignores the secret ----

  /** As written, an identifier of six bytes or more is signed by its own
      first six bytes: two generators with different secrets give the same
      signature, and anyone can produce a token that validates. */
  lemma SignatureIgnoresSecret(uid: Bytes, mac1: Bytes, mac2: Bytes)
    requires |uid| >= 6 && |mac1| == DigestSize && |mac2| == DigestSize
    ensures Signature(uid, mac1) == Signature(uid, mac2) == Base64(uid[..6])
    ensures Sep !in uid ==> Validate(uid + [Sep] + Base64(uid[..6]), u => Signature(u, mac1))
  {
    assert (uid + mac1)[..6] == uid[..6] == (uid + mac2)[..6];
    if Sep !in uid {
      SignThenValidate(uid, u => Signature(u, mac1));
    }
  }

  /** The intended signature binds the keyed digest: two digests give the
      same signature exactly when their first six bytes agree. */
  lemma KeyedSignatureBinds(t1: Bytes, t2: Bytes)
    requires |t1| == DigestSize && |t2| == DigestSize
    ensures KeyedSignature(t1) == KeyedSignature(t2) <==> t1[..6] == t2[..6]
  {
    Base64Prefix(t1);
    Base64Prefix(t2);
    var g1, h1 := Group(t1[0], t1[1], t1[2]), Group(t1[3], t1[4], t1[5]);
    var g2, h2 := Group(t2[0], t2[1], t2[2]), Group(t2[3], t2[4], t2[5]);
    if KeyedSignature(t1) == KeyedSignature(t2) {
      assert g1 == (g1 + h1)[..4] && g2 == (g2 + h2)[..4];
      assert h1 == (g1 + h1)[4..] && h2 == (g2 + h2)[4..];
      GroupInjective(t1[0], t1[1], t1[2], t2[0], t2[1], t2[2]);
      GroupInjective(t1[3], t1[4], t1[5], t2[3], t2[4], t2[5]);
      SixBytes(t1);
      SixBytes(t2);
    }
    if t1[..6] == t2[..6] {
      assert t1[0] == t2[0] && t1[1] == t2[1] && t1[2] == t2[2];
      assert t1[3] == t2[3] && t1[4] == t2[4] && t1[5] == t2[5];
    }
  }

  /** Different byte triples give different groups. */
  lemma GroupInjective(a: Byte, b: Byte, c: Byte, x: Byte, y: Byte, z: Byte)
    requires Group(a, b, c) == Group(x, y, z)
    ensures a == x && b == y && c == z
  {
    GroupRoundTrip(a, b, c);
    GroupRoundTrip(x, y, z);
  }

  lemma SixBytes(t: Bytes)
    requires |t| >= 6
    ensures t[..6] == [t[0], t[1], t[2], t[3], t[4], t[5]]
  {
  }
}

=== FILE: imgrel.dfy ===
/** `imgRelativeLink.Transform` (`render/md/imgrel.go`): with a base URL in
    the context, every image destination is parsed and, when it names no
    host, given the base URL's scheme and host and a path resolved against
    the base URL's directory.

    `url.Parse` and `URL.String` are library code and enter as the
    parameters `parse` (`None` is a parse error) and `write`. */
module ImgRel {
  import opened Common
  import opened Ast
  import opened NetUrl
  import opened RenderContext
  import opened GoPath

  /** The destination rewrite for one parsed URL: a URL with a host is kept;
      one without takes the base's scheme and host, and its path is joined
      to the directory of the base path. Nothing else is assigned, so user
      info, query and fragment are the destination's own. */
  function Rebase(base: URL, u: URL): (r: URL)
    ensures r.user == u.user && r.rawQuery == u.rawQuery && r.fragment == u.fragment
    ensures u.host != [] ==> r == u
    ensures u.host == [] ==> r.scheme == base.scheme && r.host == base.host
    ensures u.host == [] ==> r.path == JoinPath(Dir(base.path), u.path)
  {
    if u.host == [] then u.(host := base.host, scheme := base.scheme, path := JoinPath(Dir(base.path), u.path))
    else u
  }

  /** The walk callback and `ast.Walk` around it: an image whose destination
      does not parse makes the callback fail, which ends the whole walk; the
      flag says whether that happened. Children of an image (its alt text)
      are walked as well. */
  function RewriteNode(n: Node, base: URL, parse: Bytes -> Option<URL>, write: URL -> Bytes): (r: (Node, bool))
    ensures |r.0.children| == |n.children|
  {
    if n.kind.Image? && parse(n.kind.dest).None? then (n, true)
    else
      var k := if n.kind.Image? then Image(write(Rebase(base, parse(n.kind.dest).value))) else n.kind;
      var rest := RewriteList(n.children, base, parse, write);
      (Node(k, rest.0), rest.1)
  }

  function RewriteList(cs: seq<Node>, base: URL, parse: Bytes -> Option<URL>, write: URL -> Bytes): (r: (seq<Node>, bool))
    ensures |r.0| == |cs|
  {
    if cs == [] then ([], false)
    else
      var r0 := RewriteNode(cs[0], base, parse, write);
      if r0.1 then ([r0.0] + cs[1..], true)
      else
        var rest := RewriteList(cs[1..], base, parse, write);
        ([r0.0] + rest.0, rest.1)
  }

  /** The transform: without a base URL (absent, or a nil pointer) the tree
      is left alone; otherwise the walk runs and its error is dropped. */
  function Transform(doc: Node, ctx: Context, parse: Bytes -> Option<URL>, write: URL -> Bytes): (r: Node)
    ensures ctx.baseURL.None? ==> r == doc
    ensures ctx.baseURL.Some? ==> r == RewriteNode(doc, ctx.baseURL.value, parse, write).0
    ensures Erase(r) == Erase(doc)
    ensures ctx.baseURL.Some? ==> Dests(r) == RewriteDests(Dests(doc), ctx.baseURL.value, parse, write)
  {
    if ctx.baseURL.None? then doc
    else
      RewriteKeepsShape(doc, ctx.baseURL.value, parse, write);
      RewriteNodeDests(doc, ctx.baseURL.value, parse, write);
      RewriteNode(doc, ctx.baseURL.value, parse, write).0
  }

  // ---- reference definitions ----

  /** The image destinations of a tree, in pre-order. */
  function Dests(n: Node): seq<Bytes>
  {
    (if n.kind.Image? then [n.kind.dest] else []) + DestsList(n.children)
  }

  function DestsList(cs: seq<Node>): seq<Bytes>
  {
    if cs == [] then [] else Dests(cs[0]) + DestsList(cs[1..])
  }

  /** The tree with every image destination blanked: what the rewrite must
      not touch. */
  function Erase(n: Node): Node
  {
    Node(if n.kind.Image? then Image([]) else n.kind, EraseList(n.children))
  }

  function EraseList(cs: seq<Node>): seq<Node>
  {
    if cs == [] then [] else [Erase(cs[0])] + EraseList(cs[1..])
  }

  predicate AllParse(ds: seq<Bytes>, parse: Bytes -> Option<URL>)
  {
    forall i :: 0 <= i < |ds| ==> parse(ds[i]).Some?
  }

  /** The destinations in document order, each rewritten, until the first
      one that does not parse; it and everything after it stay as they
      were. */
  function RewriteDests(ds: seq<Bytes>, base: URL, parse: Bytes -> Option<URL>, write: URL -> Bytes): seq<Bytes>
  {
    if ds == [] then []
    else if parse(ds[0]).None? then ds
    else [write(Rebase(base, parse(ds[0]).value))] + RewriteDests(ds[1..], base, parse, write)
  }

  // ---- properties ----

  lemma {:induction false} RewriteDestsAppend(a: seq<Bytes>, b: seq<Bytes>, base: URL, parse: Bytes -> Option<URL>, write: URL -> Bytes)
    ensures RewriteDests(a + b, base, parse, write) ==
      RewriteDests(a, base, parse, write) + (if AllParse(a, parse) then RewriteDests(b, base, parse, write) else b)
    decreases |a|
  {
    if a == [] {
      assert a + b == b;
    } else {
      assert (a + b)[0] == a[0];
      assert (a + b)[1..] == a[1..] + b;
      if parse(a[0]).Some? {
        RewriteDestsAppend(a[1..], b, base, parse, write);
        assert AllParse(a, parse) <==> AllParse(a[1..], parse) by {
          assert forall i :: 1 <= i < |a| ==> a[i] == a[1..][i - 1];
        }
      } else {
        assert !AllParse(a, parse);
      }
    }
  }

  /** The rewritten tree's image destinations are the reference sequence,
      and the walk is cut short exactly when some destination does not
      parse. */
  lemma {:induction false} RewriteNodeDests(n: Node, base: URL, parse: Bytes -> Option<URL>, write: URL -> Bytes)
    ensures var r := RewriteNode(n, base, parse, write);
      Dests(r.0) == RewriteDests(Dests(n), base, parse, write) && (r.1 <==> !AllParse(Dests(n), parse))
    decreases n, 1
  {
    var own := if n.kind.Image? then [n.kind.dest] else [];
    if n.kind.Image? && parse(n.kind.dest).None? {
      assert Dests(n)[0] == n.kind.dest;
    } else {
      RewriteListDests(n.children, base, parse, write);
      RewriteDestsAppend(own, DestsList(n.children), base, parse, write);
      var r := RewriteNode(n, base, parse, write);
      if n.kind.Image? {
        assert Dests(r.0) == [write(Rebase(base, parse(n.kind.dest).value))] + DestsList(r.0.children);
        assert AllParse(own, parse);
      }
      AllParseAppend(own, DestsList(n.children), parse);
    }
  }

  lemma {:induction false} RewriteListDests(cs: seq<Node>, base: URL, parse: Bytes -> Option<URL>, write: URL -> Bytes)
    ensures var r := RewriteList(cs, base, parse, write);
      DestsList(r.0) == RewriteDests(DestsList(cs), base, parse, write) && (r.1 <==> !AllParse(DestsList(cs), parse))
    decreases cs, 0
  {
    if cs != [] {
      var r0 := RewriteNode(cs[0], base, parse, write);
      RewriteNodeDests(cs[0], base, parse, write);
      RewriteDestsAppend(Dests(cs[0]), DestsList(cs[1..]), base, parse, write);
      AllParseAppend(Dests(cs[0]), DestsList(cs[1..]), parse);
      var r := RewriteList(cs, base, parse, write);
      if r0.1 {
        assert r.0[1..] == cs[1..];
        assert DestsList(r.0) == Dests(r0.0) + DestsList(cs[1..]);
      } else {
        RewriteListDests(cs[1..], base, parse, write);
        assert r.0[1..] == RewriteList(cs[1..], base, parse, write).0;
      }
    }
  }

  lemma AllParseAppend(a: seq<Bytes>, b: seq<Bytes>, parse: Bytes -> Option<URL>)
    ensures AllParse(a + b, parse) <==> AllParse(a, parse) && AllParse(b, parse)
  {
    if AllParse(a, parse) && AllParse(b, parse) {
      forall i | 0 <= i < |a + b| ensures parse((a + b)[i]).Some? {
        if i >= |a| {
          assert (a + b)[i] == b[i - |a|];
        }
      }
    }
    if AllParse(a + b, parse) {
      assert forall i :: 0 <= i < |a| ==> a[i] == (a + b)[i];
      assert forall i :: 0 <= i < |b| ==> b[i] == (a + b)[i + |a|];
    }
  }

  /** Only image destinations change: blanking them, the rewritten tree and
      the original are the same tree. */
  lemma {:induction false} RewriteKeepsShape(n: Node, base: URL, parse: Bytes -> Option<URL>, write: URL -> Bytes)
    ensures Erase(RewriteNode(n, base, parse, write).0) == Erase(n)
    decreases n, 1
  {
    if !(n.kind.Image? && parse(n.kind.dest).None?) {
      RewriteListKeepsShape(n.children, base, parse, write);
    }
  }

  lemma {:induction false} RewriteListKeepsShape(cs: seq<Node>, base: URL, parse: Bytes -> Option<URL>, write: URL -> Bytes)
    ensures EraseList(RewriteList(cs, base, parse, write).0) == EraseList(cs)
    decreases cs, 0
  {
    if cs != [] {
      var r := RewriteList(cs, base, parse, write);
      RewriteKeepsShape(cs[0], base, parse, write);
      if !RewriteNode(cs[0], base, parse, write).1 {
        RewriteListKeepsShape(cs[1..], base, parse, write);
        assert r.0[1..] == RewriteList(cs[1..], base, parse, write).0;
      } else {
        assert r.0[1..] == cs[1..];
      }
    }
  }

  /** With a base that has a host, rebasing twice is rebasing once: a
      rewritten destination is never rewritten again. */
  lemma RebaseIdempotent(base: URL, u: URL)
    requires base.host != []
    ensures Rebase(base, Rebase(base, u)) == Rebase(base, u)
  {
  }

  /** A destination with a host is only re-serialised. */
  lemma AbsoluteDestKept(base: URL, u: URL, parse: Bytes -> Option<URL>, write: URL -> Bytes, dest: Bytes)
    requires parse(dest) == Some(u) && u.host != []
    ensures RewriteNode(Node(Image(dest), []), base, parse, write).0 == Node(Image(write(u)), [])
  {
  }

  /** Resolution is lexical: a destination path with a leading slash is
      still placed under the base document's directory, exactly where the
      same path without the slash would go. */
  lemma LeadingSlashStaysUnderBase(base: URL, u: URL, p: Bytes)
    requires u.host == [] && u.path == "/" + p
    ensures Rebase(base, u).path == Rebase(base, u.(path := p)).path
  {
    JoinLeadingSlash(Dir(base.path), p);
  }

  /** A relative image next to a document: with base path "/x/f" (say
      "http://aaa.com/foo/bar.md") the destination "y/z" (say
      "static/foo.png") becomes "/x/y/z" on the base's scheme and host
      ("http://aaa.com/foo/static/foo.png"). */
  lemma SiblingImage(base: URL, u: URL, x: Bytes, f: Bytes, y: Bytes, z: Bytes)
    requires IsElement(x) && x != ".." && forall i :: 0 <= i < |f| ==> f[i] != '/'
    requires IsElement(y) && IsElement(z) && y != ".." && z != ".."
    requires base.path == ['/'] + x + ['/'] + f
    requires u.host == [] && u.path == y + ['/'] + z
    ensures var r := Rebase(base, u);
      r.scheme == base.scheme && r.host == base.host && r.path == ['/'] + x + ['/'] + y + ['/'] + z
  {
    DirOfFile(x, f);
    JoinRootedThree(x, y, z);
  }

  /** A rooted one-element directory joined with a two-element relative
      path is their plain concatenation. */
  lemma JoinRootedThree(x: Bytes, y: Bytes, z: Bytes)
    requires IsElement(x) && IsElement(y) && IsElement(z)
    requires x != ".." && y != ".." && z != ".."
    ensures JoinPath(['/'] + x, y + ['/'] + z) == ['/'] + x + ['/'] + y + ['/'] + z
  {
    var stack := [x, y, z];
    JoinThree(x, y, z);
    NormalThree(x, y, z);
    assert (['/'] + x) + "/" + (y + ['/'] + z) == "/" + Join(stack, '/');
    JoinPathRooted(['/'] + x, y + ['/'] + z, stack);
  }

  /** Joining two pieces whose concatenation is already a clean rooted
      path gives that path back. */
  lemma JoinPathRooted(a: Bytes, b: Bytes, stack: seq<Bytes>)
    requires a != [] && Normal(stack, true)
    requires a + "/" + b == "/" + Join(stack, '/')
    ensures JoinPath(a, b) == "/" + Join(stack, '/')
  {
    CleanRootedNormal(stack);
  }

  lemma JoinThree(x: Bytes, y: Bytes, z: Bytes)
    ensures Join([x, y, z], '/') == x + ['/'] + y + ['/'] + z
  {
    var stack := [x, y, z];
    var two := stack[..2];
    assert two == [x, y];
    assert two[..1] == [x];
    assert Join(two[..1], '/') == x;
    assert Join(two, '/') == x + ['/'] + y;
    assert Join(stack, '/') == Join(two, '/') + ['/'] + z;
  }

  lemma NormalThree(x: Bytes, y: Bytes, z: Bytes)
    requires IsElement(x) && IsElement(y) && IsElement(z)
    requires x != ".." && y != ".." && z != ".."
    ensures Normal([x, y, z], true)
  {
  }

  lemma DirExample(p: Bytes)
    requires p == "/foo/bar.md"
    ensures Dir(p) == "/foo"
  {
    var x, f := p[1..4], p[5..];
    assert x == "foo" && f == "bar.md";
    assert p == ['/'] + x + ['/'] + f;
    DirOfFile(x, f);
  }

  /** The directory of a file directly under a one-element rooted
      directory is that directory. */
  lemma DirOfFile(x: Bytes, f: Bytes)
    requires IsElement(x) && x != ".."
    requires forall i :: 0 <= i < |f| ==> f[i] != '/'
    ensures Dir(['/'] + x + ['/'] + f) == ['/'] + x
  {
    var p := ['/'] + x + ['/'] + f;
    var k := |x| + 1;
    assert LastIndexOf(p, '/') == k by {
      assert p[k] == '/';
      assert forall j :: k < j < |p| ==> p[j] == f[j - k - 1];
    }
    var q := p[..k + 1];
    assert q == ['/'] + x + ['/'];
    var ps: seq<Bytes> := [[], x, []];
    assert Join(ps, '/') == q by {
      assert ps[..2] == [[], x] && ps[..2][..1] == [[]];
      assert Join(ps[..2], '/') == ['/'] + x;
    }
    SplitUnique(ps, q, '/');
    assert DropTrivial(ps) == [x] by {
      assert ps[1..] == [x, []] && ps[1..][1..] == [[]] && ps[1..][1..][1..] == [];
      assert DropTrivial(ps[1..][1..]) == [];
    }
    assert Reduce([], [x], true) == [x] by {
      assert ([] + [x]) == [x] && [x][1..] == [];
    }
    assert Join([x], '/') == x;
  }

  /** A rooted path made of clean elements is already clean. */
  lemma CleanRootedNormal(stack: seq<Bytes>)
    requires Normal(stack, true)
    ensures Clean("/" + Join(stack, '/')) == "/" + Join(stack, '/')
  {
    var p := "/" + Join(stack, '/');
    assert Rooted(p);
    CleanedElements(stack, true);
    assert stack == [] + stack;
    ReduceFixed([], stack, true);
  }
}

=== FILE: pipeline.dfy ===
/** The glue around the goldmark converter: option-to-context setup and the
    mapping of results (`mdrender/mdrender.go`, `render/md/mdrender.go`,
    `render/markdown/mdrender.go`), the syntax dispatch of `render/render.go`
    and the plain-text converter of `render/code.go`.

    goldmark's `Convert` enters as the parameter `convert`: given the input
    and the parser context it starts from, it returns the HTML and the
    context as the parser and transformers left it, or `None` on an error.
    Reading an `io.Reader` enters as its result, `None` for a read error. */
module Pipeline {
  import opened Common
  import opened NetUrl
  import opened RenderContext

  /** `Options` (the same in `mdrender` and `render/md`). */
  datatype Options = Options(baseURL: Option<URL>, disableShortcodes: bool)

  /** `Options.fillParserCtx`: the base URL only when there is one, and the
      shortcode switch always. */
  function FillParserCtx(opt: Options, ctx: Context): (r: Context)
    ensures r.enableShortcodes == Some(!opt.disableShortcodes)
    ensures r.baseURL == (if opt.baseURL.Some? then opt.baseURL else ctx.baseURL)
    ensures r.usedShortcodes == ctx.usedShortcodes && r.tocNodes == ctx.tocNodes && r.preview == ctx.preview
  {
    var c := if opt.baseURL.Some? then ctx.(baseURL := opt.baseURL) else ctx;
    c.(enableShortcodes := Some(!opt.disableShortcodes))
  }

  /** The context a render starts from: a fresh one, filled from the options
      when there are any. */
  function StartContext(opt: Option<Options>): Context
  {
    if opt.None? then NewContext else FillParserCtx(opt.value, NewContext)
  }

  /** `Render` in `mdrender`: the HTML and the context the conversion left,
      or nothing at all on an error. */
  function RenderWithContext(data: Bytes, opt: Option<Options>, convert: (Bytes, Context) -> Option<(Bytes, Context)>): Option<(Bytes, Context)>
  {
    convert(data, StartContext(opt))
  }

  /** `Render` in `render/md`: the same conversion, but only the HTML is
      returned. */
  function RenderHTML(data: Bytes, opt: Option<Options>, convert: (Bytes, Context) -> Option<(Bytes, Context)>): (r: Option<Bytes>)
    ensures r.None? <==> convert(data, StartContext(opt)).None?
  {
    var out := convert(data, StartContext(opt));
    if out.None? then None else Some(out.value.0)
  }

  /** `Document` of `render/markdown` and of `render`. */
  datatype Document = Document(title: Bytes, preview: Bytes, body: Bytes)

  /** `Converter.Convert` in `render/markdown`: a fresh context with no key
      set, the whole HTML as the body, and title and preview from the
      extracted record when there is one. */
  function ConvertMarkdown(data: Bytes, convert: (Bytes, Context) -> Option<(Bytes, Context)>): (r: Option<Document>)
    ensures r.None? <==> convert(data, NewContext).None?
    ensures r.Some? ==> r.value.body == convert(data, NewContext).value.0
  {
    match convert(data, NewContext)
    case None => None
    case Some((html, ctx)) =>
      match ctx.preview
      case None => Some(Document([], [], html))
      case Some(p) => Some(Document(p.title, p.body, html))
  }

  // ---- render/render.go ----

  /** `DocConverter.SupportSyntax`: `None` means supported. */
  function SupportSyntax(syntax: Bytes): (r: Option<Bytes>)
    ensures r.None? <==> syntax in {"markdown", ""}
  {
    if syntax == "markdown" || syntax == "" then None
    else Some("syntax \"" + syntax + "\" is not supported")
  }

  /** `DocConverter.Convert`: only "markdown" goes to the markdown converter;
      everything else, the empty syntax included, is plain text. */
  function ConvertDoc(read: Option<Bytes>, syntax: Bytes, convert: (Bytes, Context) -> Option<(Bytes, Context)>): (r: Option<Document>)
    ensures syntax != "markdown" ==> r == ConvertPlain(read)
    ensures syntax == "markdown" && read.None? ==> r.None?
    ensures syntax == "markdown" && read.Some? ==> r == ConvertMarkdown(read.value, convert)
  {
    if syntax == "markdown" then
      if read.None? then None
      else
        match ConvertMarkdown(read.value, convert)
        case None => None
        case Some(d) => Some(Document(d.title, d.preview, d.body))
    else ConvertPlain(read)
  }

  // ---- render/code.go ----

  /** `html.EscapeString` on one byte. */
  function EscapeByte(c: Byte): (r: Bytes)
  {
    if c == '<' then "&lt;"
    else if c == '>' then "&gt;"
    else if c == '&' then "&amp;"
    else if c == '\'' then "&#39;"
    else if c == '"' then "&#34;"
    else [c]
  }

  function EscapeString(s: Bytes): (r: Bytes)
  {
    if s == [] then [] else EscapeByte(s[0]) + EscapeString(s[1..])
  }

  /** `plainText.Convert`: the text, escaped, in a preformatted block; no
      title and no preview. */
  function ConvertPlain(read: Option<Bytes>): (r: Option<Document>)
    ensures read.None? <==> r.None?
    ensures r.Some? ==> r.value.title == [] && r.value.preview == []
  {
    if read.None? then None
    else Some(Document([], [], PreOpen + EscapeString(read.value) + PreClose))
  }

  const PreOpen: Bytes := "<pre><code>"
  const PreClose: Bytes := "</code></pre>"

  // ---- reference definitions ----

  /** The bytes that can open or close a tag or end an attribute value. */
  predicate Markup(c: Byte)
  {
    c in "<>'\""
  }

  predicate Special(c: Byte)
  {
    c in "<>&'\""
  }

  /** The inverse of `EscapeString`: the five entities it produces become
      their characters again, every other byte is kept. */
  function UnescapeString(s: Bytes): Bytes
    decreases |s|
  {
    if s == [] then []
    else if HasPrefix(s, "&lt;") then "<" + UnescapeString(s[4..])
    else if HasPrefix(s, "&gt;") then ">" + UnescapeString(s[4..])
    else if HasPrefix(s, "&amp;") then "&" + UnescapeString(s[5..])
    else if HasPrefix(s, "&#39;") then "'" + UnescapeString(s[5..])
    else if HasPrefix(s, "&#34;") then "\"" + UnescapeString(s[5..])
    else [s[0]] + UnescapeString(s[1..])
  }

  // ---- properties ----

  /** Shortcodes are on after the setup exactly when the options do not
      disable them, and with no options at all. */
  lemma ShortcodeSwitch(opt: Option<Options>)
    ensures ShortcodesEnabled(StartContext(opt)) <==> (opt.None? || !opt.value.disableShortcodes)
    ensures StartContext(opt).baseURL.Some? <==> (opt.Some? && opt.value.baseURL.Some?)
  {
  }

  /** The two `Render` functions differ only in what they return. */
  lemma RenderHTMLIsRenderWithContext(data: Bytes, opt: Option<Options>, convert: (Bytes, Context) -> Option<(Bytes, Context)>)
    ensures var full := RenderWithContext(data, opt, convert);
      RenderHTML(data, opt, convert) == (if full.None? then None else Some(full.value.0))
  {
  }

  /** The markdown converter never sets the shortcode switch, so every
      transformer that consults it sees shortcodes on. */
  lemma MarkdownShortcodesOn()
    ensures ShortcodesEnabled(NewContext)
  {
  }

  /** Title and preview come from the extracted record when it exists and
      are empty otherwise. */
  lemma ConvertMarkdownTitle(data: Bytes, convert: (Bytes, Context) -> Option<(Bytes, Context)>)
    requires convert(data, NewContext).Some?
    ensures var ctx := convert(data, NewContext).value.1;
      var d := ConvertMarkdown(data, convert).value;
      && (ctx.preview.Some? ==> d.title == ctx.preview.value.title && d.preview == ctx.preview.value.body)
      && (ctx.preview.None? ==> d.title == [] && d.preview == [])
  {
  }

  /** The empty syntax is accepted, yet it is rendered as plain text. */
  lemma EmptySyntaxIsPlain(read: Option<Bytes>, convert: (Bytes, Context) -> Option<(Bytes, Context)>)
    ensures SupportSyntax("").None?
    ensures ConvertDoc(read, "", convert) == ConvertPlain(read)
  {
  }

  lemma {:induction false} EscapeAppend(a: Bytes, b: Bytes)
    ensures EscapeString(a + b) == EscapeString(a) + EscapeString(b)
    decreases |a|
  {
    if a == [] {
      assert a + b == b;
    } else {
      assert (a + b)[1..] == a[1..] + b;
      EscapeAppend(a[1..], b);
    }
  }

  /** Unescaping one escaped byte in front of anything yields that byte. */
  lemma UnescapeByte(c: Byte, rest: Bytes)
    ensures UnescapeString(EscapeByte(c) + rest) == [c] + UnescapeString(rest)
  {
    if c == '<' {
      UnescapeLt(rest);
    } else if c == '>' {
      UnescapeGt(rest);
    } else if c == '&' {
      UnescapeAmp(rest);
    } else if c == '\'' {
      UnescapeApos(rest);
    } else if c == '"' {
      UnescapeQuot(rest);
    } else {
      UnescapeOther(c, rest);
    }
  }

  lemma NotPrefixAt(s: Bytes, p: Bytes, i: nat)
    requires i < |p| && i < |s| && s[i] != p[i]
    ensures !HasPrefix(s, p)
  {
  }

  lemma UnescapeLt(rest: Bytes)
    ensures UnescapeString("&lt;" + rest) == "<" + UnescapeString(rest)
  {
    var e: Bytes := "&lt;" + rest;
    assert e[..4] == "&lt;" && e[4..] == rest;
  }

  lemma UnescapeGt(rest: Bytes)
    ensures UnescapeString("&gt;" + rest) == ">" + UnescapeString(rest)
  {
    var e: Bytes := "&gt;" + rest;
    assert e[1] == 'g';
    NotPrefixAt(e, "&lt;", 1);
    assert e[..4] == "&gt;" && e[4..] == rest;
  }

  lemma UnescapeAmp(rest: Bytes)
    ensures UnescapeString("&amp;" + rest) == "&" + UnescapeString(rest)
  {
    var e: Bytes := "&amp;" + rest;
    assert e[1] == 'a';
    NotPrefixAt(e, "&lt;", 1);
    NotPrefixAt(e, "&gt;", 1);
    assert e[..5] == "&amp;" && e[5..] == rest;
  }

  lemma UnescapeApos(rest: Bytes)
    ensures UnescapeString("&#39;" + rest) == "'" + UnescapeString(rest)
  {
    var e: Bytes := "&#39;" + rest;
    assert e[1] == '#';
    NotPrefixAt(e, "&lt;", 1);
    NotPrefixAt(e, "&gt;", 1);
    NotPrefixAt(e, "&amp;", 1);
    assert e[..5] == "&#39;" && e[5..] == rest;
  }

  lemma UnescapeQuot(rest: Bytes)
    ensures UnescapeString("&#34;" + rest) == "\"" + UnescapeString(rest)
  {
    var e: Bytes := "&#34;" + rest;
    assert e[1] == '#' && e[3] == '4';
    NotPrefixAt(e, "&lt;", 1);
    NotPrefixAt(e, "&gt;", 1);
    NotPrefixAt(e, "&amp;", 1);
    NotPrefixAt(e, "&#39;", 3);
    assert e[..5] == "&#34;" && e[5..] == rest;
  }

  lemma UnescapeOther(c: Byte, rest: Bytes)
    requires !Special(c)
    ensures UnescapeString([c] + rest) == [c] + UnescapeString(rest)
  {
    var e: Bytes := [c] + rest;
    assert e[0] == c && e[1..] == rest;
    NotPrefixAt(e, "&lt;", 0);
    NotPrefixAt(e, "&gt;", 0);
    NotPrefixAt(e, "&amp;", 0);
    NotPrefixAt(e, "&#39;", 0);
    NotPrefixAt(e, "&#34;", 0);
  }

  /** Escaping loses nothing: unescaping gives the text back. */
  lemma {:induction false} EscapeRoundTrip(s: Bytes)
    ensures UnescapeString(EscapeString(s)) == s
    decreases |s|
  {
    if s != [] {
      UnescapeByte(s[0], EscapeString(s[1..]));
      EscapeRoundTrip(s[1..]);
    }
  }

  /** No byte that could open a tag or end an attribute survives: the only
      special byte left is the `&` of an entity. */
  lemma {:induction false} EscapedIsSafe(s: Bytes)
    ensures forall i :: 0 <= i < |EscapeString(s)| ==> !Markup(EscapeString(s)[i])
    decreases |s|
  {
    if s != [] {
      EscapedIsSafe(s[1..]);
      var h := EscapeByte(s[0]);
      var t := EscapeString(s[1..]);
      EscapeByteSafe(s[0]);
      assert EscapeString(s) == h + t;
      forall i | 0 <= i < |h + t|
        ensures !Markup((h + t)[i])
      {
        if i < |h| {
          assert (h + t)[i] == h[i];
          assert !Markup(h[i]);
        } else {
          assert (h + t)[i] == t[i - |h|];
          assert !Markup(t[i - |h|]);
        }
      }
    }
  }

  lemma EscapeByteSafe(c: Byte)
    ensures forall i :: 0 <= i < |EscapeByte(c)| ==> !Markup(EscapeByte(c)[i])
    ensures !Special(c) ==> EscapeByte(c) == [c]
  {
    var e := EscapeByte(c);
    if Special(c) {
      assert e[0] == '&';
      assert forall i :: 1 <= i < |e| ==> e[i] in "#0123456789abcdefghijklmnopqrstuvwxyz;";
    } else {
      assert !Markup(c);
    }
  }

  /** Bytes other than the five are copied through in order. */
  lemma {:induction false} PlainBytesPassThrough(s: Bytes)
    requires forall i :: 0 <= i < |s| ==> !Special(s[i])
    ensures EscapeString(s) == s
    decreases |s|
  {
    if s != [] {
      EscapeByteSafe(s[0]);
      assert forall i :: 0 <= i < |s[1..]| ==> s[1..][i] == s[i + 1];
      PlainBytesPassThrough(s[1..]);
      assert s == [s[0]] + s[1..];
    }
  }

  /** The plain-text body is the whole text, escaped, inside a
      preformatted block: the escaped part reads back as the text and holds
      no byte that could open or close a tag or end an attribute. */
  lemma PlainBodyIsSafe(read: Option<Bytes>)
    ensures var r := ConvertPlain(read);
      r.Some? ==>
        var b := r.value.body;
        var e := b[|PreOpen|..|b| - |PreClose|];
        && |b| >= |PreOpen| + |PreClose|
        && b[..|PreOpen|] == PreOpen && b[|b| - |PreClose|..] == PreClose
        && UnescapeString(e) == read.value
        && forall i :: 0 <= i < |e| ==> !Markup(e[i])
  {
    if read.Some? {
      var e := EscapeString(read.value);
      EscapeRoundTrip(read.value);
      EscapedIsSafe(read.value);
      var b := PreOpen + e + PreClose;
      assert b[..|PreOpen|] == PreOpen;
      assert b[|PreOpen|..|b| - |PreClose|] == e;
      assert b[|b| - |PreClose|..] == PreClose;
    }
  }

  /** "a<b" becomes "<pre><code>a&lt;b</code></pre>". */
  lemma PlainTextExample(s: Bytes)
    requires s == "a<b"
    ensures ConvertPlain(Some(s)) == Some(Document([], [], "<pre><code>a&lt;b</code></pre>"))
  {
    var t: Bytes := s[2..];
    assert t == "b" && t[1..] == [];
    assert EscapeString(t) == "b";
    assert s[1..][1..] == t;
    assert EscapeString(s[1..]) == "&lt;b";
    assert EscapeString(s) == "a&lt;b";
    assert "<pre><code>" + "a&lt;b" + "</code></pre>" == "<pre><code>a&lt;b</code></pre>";
  }
}

=== FILE: schema.dfy ===
/** The projection flags of the document store (`store/docstore/schema.go`).

    `DocProjection` is an `int32` whose constants are meant as bit flags,
    combined with `|` and tested with `&`. The declaration generates them
    with `2 >> iota`, which yields 2, 1 and then 0: the third flag carries
    no bit. `Projection` below is that declaration as it stands; `Flag` is
    the evidently intended `1 << iota`, and the named flags of this model
    are built from it. */
module Schema {

  /** The value `2 >> iota` gives the `iota`-th constant. */
  function Projection(iota: nat): (r: bv32)
    requires iota < 32
    ensures iota >= 2 ==> r == 0
  {
    (2 as bv32) >> iota
  }

  /** The flags exactly as declared. */
  const DeclaredMeta: bv32 := Projection(0)
  const DeclaredText: bv32 := Projection(1)
  const DeclaredRender: bv32 := Projection(2)
  const DeclaredAll: bv32 := DeclaredMeta | DeclaredText | DeclaredRender

  /** As declared, asking for metadata and rendered HTML together is the
      same request as asking for metadata alone, and "all" has two bits. */
  lemma DeclaredRenderIsLost()
    ensures DeclaredMeta == 2 && DeclaredText == 1 && DeclaredRender == 0
    ensures DeclaredMeta | DeclaredRender == DeclaredMeta
    ensures DeclaredAll == 3
    ensures !Requests(DeclaredMeta | DeclaredRender, DeclaredRender)
  {
  }

  /** The `iota`-th flag as intended: one bit per constant. */
  function Flag(iota: bv32): (r: bv32)
    requires iota < 32
    ensures r != 0 && r & (r - 1) == 0
  {
    (1 as bv32) << iota
  }

  const ProjMeta: bv32 := Flag(0)
  const ProjText: bv32 := Flag(1)
  const ProjRender: bv32 := Flag(2)
  const ProjAll: bv32 := ProjMeta | ProjText | ProjRender

  /** The mask `LoadDocumentRender` of the document engine passes. */
  const RenderRequest: bv32 := ProjMeta | ProjRender

  /** Whether a projection mask asks for a part. */
  predicate Requests(mask: bv32, part: bv32)
  {
    part != 0 && mask & part == part
  }

  /** Each intended flag is a bit of its own: every combination of them
      can be taken apart again. */
  lemma FlagsDistinct(i: bv32, j: bv32)
    requires i < 32 && j < 32 && i != j
    ensures Flag(i) & Flag(j) == 0
    ensures Requests(Flag(i) | Flag(j), Flag(i)) && Requests(Flag(i) | Flag(j), Flag(j))
    ensures Flag(i) | Flag(j) != Flag(i)
  {
    var a, b := Flag(i), Flag(j);
    assert a & b == 0;
    assert (a | b) & a == a && (a | b) & b == b;
  }

  /** The request the engine makes when loading a rendered document asks
      for both parts, and "all" asks for each of the three. */
  lemma RenderRequestKeepsBoth()
    ensures Requests(RenderRequest, ProjMeta) && Requests(RenderRequest, ProjRender)
    ensures RenderRequest != ProjMeta
    ensures !Requests(RenderRequest, ProjText)
    ensures Requests(ProjAll, ProjMeta) && Requests(ProjAll, ProjText) && Requests(ProjAll, ProjRender)
  {
    FlagsDistinct(0, 2);
    assert ProjMeta == 1 && ProjText == 2 && ProjRender == 4;
  }
}

=== FILE: shortcode.dfy ===
/** The inline parser for `{{ keyword arg* }}` (`shortCodeParser` in
    `mdrender/shortcode.go`). It looks only at the rest of the current line,
    from the `{` that triggered it. */
module Shortcode {
  import opened Common
  import opened Ast
  import opened RenderContext

  /** One registered parser: its keyword, the least number of arguments
      (0 or less: no minimum), and whether accepted nodes are recorded under
      the TOC context key (only the TOC parser has a context key). */
  datatype ShortcodeParser = ShortcodeParser(keyword: Bytes, minArgc: int, recordsToc: bool)

  /** The trigger byte. */
  const Trigger: Bytes := "{"

  /** `ShortCodeNodeKinds`: the node kind registered for a keyword. */
  function KindOf(keyword: Bytes): (r: Option<NodeKind>)
    ensures r.Some? <==> keyword in {"tweet", "gist", "instagram", "toc"}
  {
    if keyword == "tweet" then Some(EmbedTweet)
    else if keyword == "gist" then Some(EmbedGist)
    else if keyword == "instagram" then Some(EmbedInstagram)
    else if keyword == "toc" then Some(TOCShortcode)
    else None
  }

  /** What `Parse` leaves behind: the node it returns (`nil` is `None`), how
      many bytes it consumed, and the parser context afterwards. */
  datatype ParseResult = ParseResult(node: Option<ShortCodeNode>, advance: nat, ctx: Context)

  /** The token loop: empty words are skipped; the first word must be the
      keyword; every later word is a parameter. `None` is a mismatch. */
  function ScanWords(ws: seq<Bytes>, keyword: Bytes, kwMatch: bool, params: seq<Bytes>): Option<seq<Bytes>>
    decreases |ws|
  {
    if ws == [] then Some(params)
    else if ws[0] == [] then ScanWords(ws[1..], keyword, kwMatch, params)
    else if kwMatch then ScanWords(ws[1..], keyword, true, params + [ws[0]])
    else if keyword == ws[0] then ScanWords(ws[1..], keyword, true, params)
    else None
  }

  /** The used-shortcode set with one more keyword; created on first use. */
  function MarkUsed(ctx: Context, keyword: Bytes): (r: Context)
    ensures r == ctx.(usedShortcodes := r.usedShortcodes)
    ensures r.usedShortcodes.Some? && keyword in r.usedShortcodes.value
    ensures ctx.usedShortcodes.Some? ==> r.usedShortcodes.value == ctx.usedShortcodes.value + {keyword}
    ensures ctx.usedShortcodes.None? ==> r.usedShortcodes.value == {keyword}
  {
    var used := if ctx.usedShortcodes.Some? then ctx.usedShortcodes.value else {};
    ctx.(usedShortcodes := Some(used + {keyword}))
  }

  /** Appends a node to the list under the TOC key; an unset key is an empty
      list. */
  function RecordNode(ctx: Context, node: ShortCodeNode): (r: Context)
    ensures r == ctx.(tocNodes := r.tocNodes)
    ensures r.tocNodes.Some? && |r.tocNodes.value| >= 1 && r.tocNodes.value[|r.tocNodes.value| - 1] == node
    ensures ctx.tocNodes.Some? ==> r.tocNodes.value[..|r.tocNodes.value| - 1] == ctx.tocNodes.value
    ensures ctx.tocNodes.None? ==> r.tocNodes.value == [node]
  {
    var elems := if ctx.tocNodes.Some? then ctx.tocNodes.value else [];
    var r := ctx.(tocNodes := Some(elems + [node]));
    assert r.tocNodes.value[..|r.tocNodes.value| - 1] == elems;
    r
  }

  function Reject(ctx: Context): ParseResult
  {
    ParseResult(None, 0, ctx)
  }

  /** The keyword matched with parameters `params`: mark it used, then
      check the argument count and build (and perhaps record) the node. */
  function Accept(p: ShortcodeParser, ctx: Context, params: seq<Bytes>, endPos: nat): (r: ParseResult)
    requires KindOf(p.keyword).Some?
    ensures r.node.None? <==> p.minArgc > 0 && |params| < p.minArgc
    ensures r.node.None? ==> r.advance == 0
    ensures r.node.Some? ==> r.advance == endPos + 2 && r.node.value == ShortCodeNode(KindOf(p.keyword).value, params, None)
    ensures r.ctx.usedShortcodes == MarkUsed(ctx, p.keyword).usedShortcodes
    ensures r.ctx.enableShortcodes == ctx.enableShortcodes && r.ctx.baseURL == ctx.baseURL
    ensures r.ctx.preview == ctx.preview
    ensures r.node.Some? && p.recordsToc ==>
      r.ctx.tocNodes == Some((if ctx.tocNodes.Some? then ctx.tocNodes.value else []) + [r.node.value])
    ensures !(r.node.Some? && p.recordsToc) ==> r.ctx.tocNodes == ctx.tocNodes
  {
    var ctx1 := MarkUsed(ctx, p.keyword);
    if p.minArgc > 0 && |params| < p.minArgc then Reject(ctx1)
    else
      var node := ShortCodeNode(KindOf(p.keyword).value, params, None);
      var ctx2 := if p.recordsToc then RecordNode(ctx1, node) else ctx1;
      ParseResult(Some(node), endPos + 2, ctx2)
  }

  /** What an accepted shortcode looks like: the line opens with "{{", the
      parser consumed everything up to and including the first "}}", and the
      node has the parser's kind and enough parameters. */
  predicate Recognized(p: ShortcodeParser, ln: Bytes, r: ParseResult)
    requires KindOf(p.keyword).Some? && r.node.Some?
  {
    && HasPrefix(ln, "{{")
    && r.advance >= 4 && r.advance == Index(ln, "}}") + 2 && OccursAt(ln, "}}", r.advance - 2)
    && r.node.value.kind == KindOf(p.keyword).value
    && r.node.value.context == None
    && (p.minArgc <= 0 || |r.node.value.params| >= p.minArgc)
  }

  /** `Parse` on the rest of the line `ln`. */
  function Parse(p: ShortcodeParser, ln: Bytes, ctx: Context): (r: ParseResult)
    requires KindOf(p.keyword).Some?
    ensures !ShortcodesEnabled(ctx) ==> r == Reject(ctx)
    ensures r.node.None? ==> r.advance == 0
    ensures r.node.Some? ==> Recognized(p, ln, r)
    ensures r.ctx == ctx || r.ctx.usedShortcodes == MarkUsed(ctx, p.keyword).usedShortcodes
    ensures r.ctx.enableShortcodes == ctx.enableShortcodes && r.ctx.baseURL == ctx.baseURL
    ensures r.ctx.preview == ctx.preview
  {
    if !ShortcodesEnabled(ctx) then Reject(ctx)
    else if !HasPrefix(ln, "{{") then Reject(ctx)
    else
      var endPos := Index(ln, "}}");
      if endPos < 0 then Reject(ctx)
      else
        ClosingAfterOpening(ln);
        var body := TrimSpace(ln[2..endPos]);
        ParseBody(p, ln, ctx, endPos, ScanWords(Split(body, ' '), p.keyword, false, []))
  }

  /** The part of `Parse` after the braces are found: the outcome of the
      token loop over the body `ln[2..endPos]` decides between rejecting and
      accepting. */
  function ParseBody(p: ShortcodeParser, ln: Bytes, ctx: Context, endPos: nat, scanned: Option<seq<Bytes>>): (r: ParseResult)
    requires KindOf(p.keyword).Some? && HasPrefix(ln, "{{")
    requires endPos == Index(ln, "}}") && 2 <= endPos <= |ln|
    ensures r.node.None? ==> r.advance == 0
    ensures r.node.Some? ==> Recognized(p, ln, r)
    ensures r.ctx == ctx || r.ctx.usedShortcodes == MarkUsed(ctx, p.keyword).usedShortcodes
    ensures r.ctx.enableShortcodes == ctx.enableShortcodes && r.ctx.baseURL == ctx.baseURL
    ensures r.ctx.preview == ctx.preview
  {
    match scanned
    case None => Reject(ctx)
    case Some(params) => Accept(p, ctx, params, endPos)
  }

  // ---- reference definitions ----

  /** The words of a shortcode body: the trimmed text between the braces
      split on single spaces, with the empty pieces dropped. */
  function Words(ln: Bytes, endPos: int): seq<Bytes>
    requires 2 <= endPos <= |ln|
  {
    NonEmpty(Split(TrimSpace(ln[2..endPos]), ' '))
  }

  // ---- properties ----

  /** A line that starts with "{{" cannot have its first "}}" before
      position 2, so the body slice is always in bounds. */
  lemma ClosingAfterOpening(ln: Bytes)
    requires HasPrefix(ln, "{{")
    ensures Index(ln, "}}") < 0 || Index(ln, "}}") >= 2
  {
    assert ln[..2][0] == ln[0] == '{' && ln[..2][1] == ln[1] == '{';
    assert |ln| >= 2 ==> ln[0..2][0] == ln[0];
    assert |ln| >= 3 ==> ln[1..3][0] == ln[1];
    assert !OccursAt(ln, "}}", 0) && !OccursAt(ln, "}}", 1);
  }

  /** The token loop, stated without the loop: after the keyword every
      non-empty word is a parameter in order. */
  lemma {:induction false} ScanWordsAfterKeyword(ws: seq<Bytes>, keyword: Bytes, params: seq<Bytes>)
    ensures ScanWords(ws, keyword, true, params) == Some(params + NonEmpty(ws))
    decreases |ws|
  {
    if ws == [] {
      assert params + [] == params;
    } else {
      if ws[0] == [] {
        ScanWordsAfterKeyword(ws[1..], keyword, params);
      } else {
        ScanWordsAfterKeyword(ws[1..], keyword, params + [ws[0]]);
        assert params + [ws[0]] + NonEmpty(ws[1..]) == params + ([ws[0]] + NonEmpty(ws[1..]));
      }
    }
  }

  /** Before the keyword: no words at all is accepted with no parameters;
      otherwise the first non-empty word decides. */
  lemma {:induction false} ScanWordsFromStart(ws: seq<Bytes>, keyword: Bytes)
    ensures var ts := NonEmpty(ws);
      ScanWords(ws, keyword, false, []) ==
        if ts == [] then Some([])
        else if ts[0] == keyword then Some(ts[1..])
        else None
    decreases |ws|
  {
    if ws != [] {
      if ws[0] == [] {
        ScanWordsFromStart(ws[1..], keyword);
      } else if ws[0] == keyword {
        ScanWordsAfterKeyword(ws[1..], keyword, []);
        assert [] + NonEmpty(ws[1..]) == NonEmpty(ws[1..]);
      }
    }
  }

  /** Acceptance, stated in terms of the line: shortcodes on, the line
      opens with "{{" and has a "}}", the first word is this parser's keyword
      (or there are no words), and there are enough arguments. The node's
      parameters are the remaining words in order. */
  lemma ParseAccepts(p: ShortcodeParser, ln: Bytes, ctx: Context)
    requires KindOf(p.keyword).Some?
    ensures var r := Parse(p, ln, ctx);
      var e := Index(ln, "}}");
      r.node.Some? <==>
        && ShortcodesEnabled(ctx) && HasPrefix(ln, "{{") && e >= 2
        && (Words(ln, e) == [] || Words(ln, e)[0] == p.keyword)
        && (p.minArgc <= 0 || |Words(ln, e)| - 1 >= p.minArgc)
    ensures var r := Parse(p, ln, ctx);
      var e := Index(ln, "}}");
      r.node.Some? ==> e >= 2 && r.node.value.params == (if Words(ln, e) == [] then [] else Words(ln, e)[1..])
  {
    if !ShortcodesEnabled(ctx) || !HasPrefix(ln, "{{") {
      assert Parse(p, ln, ctx) == Reject(ctx);
    } else {
      ClosingAfterOpening(ln);
      var e := Index(ln, "}}");
      if e < 0 {
        assert Parse(p, ln, ctx) == Reject(ctx);
      } else {
        ParseByWords(p, ln, ctx);
        var w := Words(ln, e);
        if w != [] && w[0] != p.keyword {
          assert Parse(p, ln, ctx) == Reject(ctx);
        } else {
          var params := if w == [] then [] else w[1..];
          assert |params| == if w == [] then 0 else |w| - 1;
          assert Parse(p, ln, ctx) == Accept(p, ctx, params, e);
        }
      }
    }
  }

  /** On an enabled, well-delimited line `Parse` depends only on the words. */
  lemma ParseByWords(p: ShortcodeParser, ln: Bytes, ctx: Context)
    requires KindOf(p.keyword).Some?
    requires ShortcodesEnabled(ctx) && HasPrefix(ln, "{{") && Index(ln, "}}") >= 2
    ensures var e := Index(ln, "}}");
      var w := Words(ln, e);
      Parse(p, ln, ctx) == if w != [] && w[0] != p.keyword then Reject(ctx) else Accept(p, ctx, if w == [] then [] else w[1..], e)
  {
    var e := Index(ln, "}}");
    var ws := Split(TrimSpace(ln[2..e]), ' ');
    ScanWordsFromStart(ws, p.keyword);
  }

  /** A first word other than the keyword rejects before the context is
      touched. */
  lemma MismatchLeavesContext(p: ShortcodeParser, ln: Bytes, ctx: Context)
    requires KindOf(p.keyword).Some?
    requires HasPrefix(ln, "{{") && Index(ln, "}}") >= 2
    requires Words(ln, Index(ln, "}}")) != [] && Words(ln, Index(ln, "}}"))[0] != p.keyword
    ensures Parse(p, ln, ctx) == Reject(ctx)
  {
    ScanWordsFromStart(Split(TrimSpace(ln[2..Index(ln, "}}")]), ' '), p.keyword);
  }

  /** Once the keyword matched, it is recorded as used even when the
      argument count then rejects the shortcode. */
  lemma KeywordRecordedBeforeArgCheck(p: ShortcodeParser, ln: Bytes, ctx: Context)
    requires KindOf(p.keyword).Some?
    requires ShortcodesEnabled(ctx) && HasPrefix(ln, "{{") && Index(ln, "}}") >= 2
    requires var e := Index(ln, "}}"); Words(ln, e) != [] && Words(ln, e)[0] == p.keyword
    ensures var r := Parse(p, ln, ctx);
      r.ctx.usedShortcodes.Some? && p.keyword in r.ctx.usedShortcodes.value
  {
    var e := Index(ln, "}}");
    var ws := Split(TrimSpace(ln[2..e]), ' ');
    ScanWordsFromStart(ws, p.keyword);
    assert ScanWords(ws, p.keyword, false, []).Some?;
  }

  /** An accepted TOC shortcode is appended to the recorded list, after the
      nodes recorded before it. */
  lemma AcceptedTocIsRecorded(p: ShortcodeParser, ln: Bytes, ctx: Context)
    requires KindOf(p.keyword).Some? && p.recordsToc
    requires Parse(p, ln, ctx).node.Some?
    ensures var r := Parse(p, ln, ctx);
      r.ctx.tocNodes == Some((if ctx.tocNodes.Some? then ctx.tocNodes.value else []) + [r.node.value])
  {
    ParseAccepts(p, ln, ctx);
    ParseByWords(p, ln, ctx);
  }

  /** "{{ tweet  42 }} ok?": runs of spaces are harmless, there is one
      parameter, and the parser consumes up to and including the braces. */
  lemma TweetExample()
    ensures var r := Parse(ShortcodeParser("tweet", 0, false), "{{ tweet  42 }} ok?", NewContext);
      r.node == Some(ShortCodeNode(EmbedTweet, ["42"], None)) && r.advance == 15
  {
    var ln: Bytes := "{{ tweet  42 }} ok?";
    var p := ShortcodeParser("tweet", 0, false);
    assert HasPrefix(ln, "{{");
    TweetWords(ln);
    ParseAccepts(p, ln, NewContext);
    var r := Parse(p, ln, NewContext);
    assert r.node.Some?;
    assert r.node.value.params == ["42"];
    assert r.node.value == ShortCodeNode(r.node.value.kind, r.node.value.params, r.node.value.context);
  }

  lemma TweetWords(ln: Bytes)
    requires ln == "{{ tweet  42 }} ok?"
    ensures Index(ln, "}}") == 13
    ensures Words(ln, 13) == ["tweet", "42"]
  {
    TweetIndex(ln);
    var body := ln[2..13];
    var t := TrimSpace(body);
    assert t == "tweet  42" by {
      TweetTrim(body);
    }
    var ps := Split(t, ' ');
    assert ps == ["tweet", [], "42"] by {
      TweetSplit(t);
    }
    TweetNonEmpty(ps);
  }

  lemma TweetNonEmpty(ps: seq<Bytes>)
    requires ps == ["tweet", [], "42"]
    ensures NonEmpty(ps) == ["tweet", "42"]
  {
    var q := ps[1..];
    assert q == [[], "42"] && q[0] == [];
    var w := q[1..];
    assert w == ["42"] && w[0] != [] && w[1..] == [];
    assert NonEmpty(w) == ["42"];
    assert NonEmpty(q) == ["42"];
    assert ps[0] == "tweet" && ps[0] != [];
  }

  lemma TweetIndex(ln: Bytes)
    requires ln == "{{ tweet  42 }} ok?"
    ensures Index(ln, "}}") == 13 && ln[2..13] == " tweet  42 "
  {
    assert OccursAt(ln, "}}", 13);
    IndexIsFirst(ln, "}}", 13);
  }

  lemma TweetTrim(body: Bytes)
    requires body == " tweet  42 "
    ensures TrimSpace(body) == "tweet  42"
  {
    TrimSpaceCore(body, 1, 10);
  }

  lemma TweetSplit(t: Bytes)
    requires t == "tweet  42"
    ensures Split(t, ' ') == ["tweet", [], "42"]
  {
    var ps: seq<Bytes> := ["tweet", [], "42"];
    assert ps[..2] == ["tweet", []];
    assert ps[..2][..1] == ["tweet"];
    assert Join(ps, ' ') == t;
    SplitExample(t, ps);
  }

  /** "{ tweet 1224047348109795311 }}" is not a shortcode. */
  lemma SingleBraceExample(p: ShortcodeParser, ctx: Context)
    requires KindOf(p.keyword).Some?
    ensures Parse(p, "{ tweet 1224047348109795311 }}", ctx) == Reject(ctx)
  {
    var ln: Bytes := "{ tweet 1224047348109795311 }}";
    assert ln[1] != '{';
    assert !HasPrefix(ln, "{{");
  }

  /** "{{ }}" has no words, so it is accepted with no parameters. */
  lemma EmptyBodyExample(p: ShortcodeParser, ln: Bytes)
    requires KindOf(p.keyword).Some? && p.minArgc <= 0
    requires ln == "{{ }}"
    ensures Parse(p, ln, NewContext).node == Some(ShortCodeNode(KindOf(p.keyword).value, [], None))
  {
    assert Index(ln, "}}") == 3 by {
      assert OccursAt(ln, "}}", 3);
      IndexIsFirst(ln, "}}", 3);
    }
    assert Words(ln, 3) == [] by {
      assert ln[2..3][0] == ln[2] == ' ';
      BlankBodyHasNoWords(ln, 3);
    }
    OpensWithBraces(ln);
    ParseByWords(p, ln, NewContext);
  }

  // ---- helpers for the examples ----

  lemma OpensWithBraces(ln: Bytes)
    requires |ln| >= 2 && ln[0] == '{' && ln[1] == '{'
    ensures HasPrefix(ln, "{{")
  {
    assert ln[..2] == "{{";
  }

  /** A body of whitespace only has no words. */
  lemma BlankBodyHasNoWords(ln: Bytes, e: int)
    requires 2 <= e <= |ln| && AllSpace(ln[2..e])
    ensures Words(ln, e) == []
  {
    TrimSpaceAllSpace(ln[2..e]);
    SplitEmpty(' ');
    var ps: seq<Bytes> := [[]];
    assert ps[0] == [] && ps[1..] == [];
  }

  lemma SplitExample(s: Bytes, ps: seq<Bytes>)
    requires |ps| >= 1
    requires forall i, j :: 0 <= i < |ps| && 0 <= j < |ps[i]| ==> ps[i][j] != ' '
    requires Join(ps, ' ') == s
    ensures Split(s, ' ') == ps
  {
    SplitUnique(ps, s, ' ');
  }

}

=== FILE: textextract.dfy ===
/** `extractTextFromNode` (one copy in `mdrender`, one in `render/markdown`;
    they differ only in how the sentinel error is declared): a pre-order walk
    that writes every text leaf of a subtree, followed by "\n" for a hard line
    break and " " for a soft one, and stops at an empty leaf or a failed
    write. */
module TextExtract {
  import opened Common
  import opened Ast

  /** The destination writer. Every caller passes a `bytes.Buffer`, which
      never fails (`budget == None`); `Some(k)` is a writer whose first `k`
      writes succeed and whose later writes fail without writing. */
  datatype Sink = Sink(out: Bytes, budget: Option<nat>)

  /** Why a walk ended early: the package's `stopWalkError` sentinel, or the
      writer's own error, passed through unchanged. */
  datatype WalkError = StopWalk | WriteFailed

  datatype Status = Continue | Stopped(err: WalkError)

  /** One `w.Write(b)`: the writer after the call and whether it succeeded. */
  function Write(w: Sink, b: Bytes): (r: (Sink, bool))
    ensures r.1 <==> w.budget != Some(0)
    ensures r.1 ==> r.0.out == w.out + b
    ensures !r.1 ==> r.0 == w
    ensures w.budget == None ==> r.0.budget == None
  {
    match w.budget
    case None => (Sink(w.out + b, None), true)
    case Some(k) => if k == 0 then (w, false) else (Sink(w.out + b, Some(k - 1)), true)
  }

  function Breaks(soft: bool, hard: bool): Bytes
  {
    (if hard then "\n" else []) + (if soft then " " else [])
  }

  /** The walk, entering `n`. */
  function ExtractNode(n: Node, w: Sink): (r: (Sink, Status))
    ensures HasPrefix(r.0.out, w.out)
    ensures w.budget == None ==> r.0.budget == None && r.1 != Stopped(WriteFailed)
  {
    match n.kind
    case Text(b, soft, hard) =>
      var (w1, ok) := Write(w, b);
      var w2 := if hard then Write(w1, "\n").0 else w1;
      var w3 := if soft then Write(w2, " ").0 else w2;
      if !ok then (w3, Stopped(WriteFailed))
      else if b == [] then (w3, Stopped(StopWalk))
      else ExtractList(n.children, w3)
    case _ => ExtractList(n.children, w)
  }

  function ExtractList(cs: seq<Node>, w: Sink): (r: (Sink, Status))
    ensures HasPrefix(r.0.out, w.out)
    ensures w.budget == None ==> r.0.budget == None && r.1 != Stopped(WriteFailed)
  {
    if cs == [] then (w, Continue)
    else
      var r0 := ExtractNode(cs[0], w);
      if r0.1 != Continue then r0 else ExtractList(cs[1..], r0.0)
  }

  /** The text of a subtree as a fresh buffer holds it after the walk,
      whatever the walk returned (callers ignore the error). */
  function NodeText(n: Node): Bytes
  {
    ExtractNode(n, Sink([], None)).0.out
  }

  // ---- reference definitions ----

  /** Every text leaf's bytes with its line-break suffix, in pre-order. */
  function Flatten(n: Node): Bytes
  {
    (match n.kind
     case Text(b, soft, hard) => b + Breaks(soft, hard)
     case _ => []) + FlattenList(n.children)
  }

  function FlattenList(cs: seq<Node>): Bytes
  {
    if cs == [] then [] else Flatten(cs[0]) + FlattenList(cs[1..])
  }

  /** No text leaf in the subtree is empty. */
  predicate LeavesNonEmpty(n: Node)
  {
    (n.kind.Text? ==> n.kind.content != []) && LeavesNonEmptyList(n.children)
  }

  predicate LeavesNonEmptyList(cs: seq<Node>)
  {
    cs == [] || (LeavesNonEmpty(cs[0]) && LeavesNonEmptyList(cs[1..]))
  }

  // ---- properties ----

  /** With a writer that never fails, the walk appends a prefix of the
      flattened text, never reports a write error, and finishes without
      error exactly when no text leaf is empty; then it has appended all of
      the flattened text. */
  lemma {:induction false} ExtractToBuffer(n: Node, o: Bytes)
    ensures var r := ExtractNode(n, Sink(o, None));
      && r.0.budget == None
      && r.1 != Stopped(WriteFailed)
      && (r.1 == Continue <==> LeavesNonEmpty(n))
      && HasPrefix(r.0.out, o) && HasPrefix(o + Flatten(n), r.0.out)
      && (r.1 == Continue ==> r.0.out == o + Flatten(n))
  {
    match n.kind
    case Text(b, soft, hard) =>
      var o3 := o + b + Breaks(soft, hard);
      LeafWrites(o, b, soft, hard);
      assert o + Flatten(n) == o3 + FlattenList(n.children) by {
        assert Flatten(n) == b + Breaks(soft, hard) + FlattenList(n.children);
      }
      if b != [] {
        ExtractListToBuffer(n.children, o3);
      }
    case _ =>
      assert Flatten(n) == FlattenList(n.children);
      ExtractListToBuffer(n.children, o);
  }

  /** The writes for one text leaf into a buffer: its bytes, then its line
      breaks. */
  lemma LeafWrites(o: Bytes, b: Bytes, soft: bool, hard: bool)
    ensures var w1 := Write(Sink(o, None), b).0;
      var w2 := if hard then Write(w1, "\n").0 else w1;
      var w3 := if soft then Write(w2, " ").0 else w2;
      Write(Sink(o, None), b).1 && w3 == Sink(o + b + Breaks(soft, hard), None)
  {
    var w1 := Write(Sink(o, None), b).0;
    var w2 := if hard then Write(w1, "\n").0 else w1;
    assert w2 == Sink(o + b + (if hard then "\n" else []), None);
  }

  lemma {:induction false} ExtractListToBuffer(cs: seq<Node>, o: Bytes)
    ensures var r := ExtractList(cs, Sink(o, None));
      && r.0.budget == None
      && r.1 != Stopped(WriteFailed)
      && (r.1 == Continue <==> LeavesNonEmptyList(cs))
      && HasPrefix(r.0.out, o) && HasPrefix(o + FlattenList(cs), r.0.out)
      && (r.1 == Continue ==> r.0.out == o + FlattenList(cs))
    decreases cs
  {
    if cs != [] {
      ExtractToBuffer(cs[0], o);
      var r0 := ExtractNode(cs[0], Sink(o, None));
      var f0 := Flatten(cs[0]);
      assert FlattenList(cs) == f0 + FlattenList(cs[1..]);
      assert o + FlattenList(cs) == o + f0 + FlattenList(cs[1..]);
      if r0.1 == Continue {
        ExtractListToBuffer(cs[1..], o + f0);
      } else {
        assert HasPrefix(o + f0, r0.0.out);
      }
    }
  }

  /** A failed write ends the walk with the writer's error, not the
      sentinel: a writer that refuses every write stops the walk at the first
      text leaf, having written nothing. */
  lemma {:induction false} ExtractWriteError(n: Node, o: Bytes)
    requires n.kind.Text?
    ensures ExtractNode(n, Sink(o, Some(0))) == (Sink(o, Some(0)), Stopped(WriteFailed))
  {
  }

  /** A walk that reports the sentinel has met an empty text leaf; one that
      reports a write failure has used up its writer. */
  lemma {:induction false} ExtractStopReasons(n: Node, w: Sink)
    ensures var r := ExtractNode(n, w);
      && (r.1 == Stopped(StopWalk) ==> !LeavesNonEmpty(n))
      && (r.1 == Stopped(WriteFailed) ==> r.0.budget == Some(0))
  {
    match n.kind
    case Text(b, soft, hard) =>
      var (w1, ok) := Write(w, b);
      var w2 := if hard then Write(w1, "\n").0 else w1;
      var w3 := if soft then Write(w2, " ").0 else w2;
      if ok && b != [] {
        ExtractListStopReasons(n.children, w3);
      }
    case _ =>
      ExtractListStopReasons(n.children, w);
  }

  lemma {:induction false} ExtractListStopReasons(cs: seq<Node>, w: Sink)
    ensures var r := ExtractList(cs, w);
      && (r.1 == Stopped(StopWalk) ==> !LeavesNonEmptyList(cs))
      && (r.1 == Stopped(WriteFailed) ==> r.0.budget == Some(0))
    decreases cs
  {
    if cs != [] {
      ExtractStopReasons(cs[0], w);
      var r0 := ExtractNode(cs[0], w);
      if r0.1 == Continue {
        ExtractListStopReasons(cs[1..], r0.0);
      }
    }
  }

  /** A node that is not a text leaf writes nothing of its own: it adds to
      the text exactly what its children add. */
  lemma NonTextContributesNothing(n: Node, w: Sink)
    requires !n.kind.Text?
    ensures ExtractNode(n, w) == ExtractList(n.children, w)
    ensures Flatten(n) == FlattenList(n.children)
  {
  }

  /** A paragraph "text 123" soft-break "456" reads as "text 123 456". */
  lemma SoftBreakExample()
    ensures NodeText(Node(Paragraph, [Node(Text("text 123", true, false), []), Node(Text("456", false, false), [])]))
      == "text 123 456"
  {
    var t1 := Node(Text("text 123", true, false), []);
    var t2 := Node(Text("456", false, false), []);
    var p := Node(Paragraph, [t1, t2]);
    assert [t1, t2][1..] == [t2];
    ExtractToBuffer(p, []);
    assert Flatten(t1) == "text 123 ";
    assert Flatten(t2) == "456";
    assert FlattenList([t2]) == "456";
    assert Flatten(p) == "text 123 456";
  }
}

=== FILE: titleextract.dfy ===
/** `titleExtractorTransformer.Transform` (copies in `mdrender` and
    `render/markdown`): one pre-order walk that records the text of the first
    heading and of the first paragraph whose text is non-empty, and stops as
    soon as both are known. */
module TitleExtract {
  import opened Common
  import opened Ast
  import opened RenderContext
  import opened TextExtract

  const Empty := PagePreviewText([], [])

  /** The work the walk callback does on entering one node. A field, once
      non-empty, is never written again. */
  function Step(st: PagePreviewText, n: Node): (r: PagePreviewText)
    ensures st.title != [] ==> r.title == st.title
    ensures st.body != [] ==> r.body == st.body
  {
    var title := if n.kind.Heading? && st.title == [] then NodeText(n) else st.title;
    var body := if n.kind.Paragraph? && st.body == [] then NodeText(n) else st.body;
    PagePreviewText(title, body)
  }

  predicate Done(st: PagePreviewText)
  {
    st.title != [] && st.body != []
  }

  /** The walk: the record after entering `n` and its subtree, and whether
      the walk was stopped. */
  function WalkNode(n: Node, st: PagePreviewText): (r: (PagePreviewText, bool))
    ensures st.title != [] ==> r.0.title == st.title
    ensures st.body != [] ==> r.0.body == st.body
    ensures r.1 ==> Done(r.0)
  {
    var st1 := Step(st, n);
    if Done(st1) then (st1, true) else WalkList(n.children, st1)
  }

  function WalkList(cs: seq<Node>, st: PagePreviewText): (r: (PagePreviewText, bool))
    ensures st.title != [] ==> r.0.title == st.title
    ensures st.body != [] ==> r.0.body == st.body
    ensures r.1 ==> Done(r.0)
  {
    if cs == [] then (st, false)
    else
      var r0 := WalkNode(cs[0], st);
      if r0.1 then r0 else WalkList(cs[1..], r0.0)
  }

  /** The transform: a record already in the context is left alone;
      otherwise a fresh one is stored, holding the text of the first heading
      and of the first paragraph with text, and no other key changes. */
  function Transform(doc: Node, ctx: Context): (r: Context)
    ensures ctx.preview.Some? ==> r == ctx
    ensures ctx.preview.None? ==> r == ctx.(preview := Some(WalkNode(doc, Empty).0))
    ensures ctx.preview.None? ==>
      r.preview == Some(PagePreviewText(FirstText(PreOrder(doc), true), FirstText(PreOrder(doc), false)))
    ensures r == ctx.(preview := r.preview)
  {
    if ctx.preview.Some? then ctx
    else
      EarlyStopIsFullWalk(doc, Empty);
      FoldFindsFirst(Empty, PreOrder(doc));
      ctx.(preview := Some(WalkNode(doc, Empty).0))
  }

  // ---- reference definition ----

  /** Steps over every node, with no early stop. */
  function Fold(st: PagePreviewText, ns: seq<Node>): PagePreviewText
    decreases |ns|
  {
    if ns == [] then st else Fold(Step(st, ns[0]), ns[1..])
  }

  /** The text of the first heading (or paragraph) in `ns` whose text is
      non-empty; empty if there is none. */
  function FirstText(ns: seq<Node>, headings: bool): Bytes
  {
    if ns == [] then []
    else if (if headings then ns[0].kind.Heading? else ns[0].kind.Paragraph?) && NodeText(ns[0]) != [] then NodeText(ns[0])
    else FirstText(ns[1..], headings)
  }

  // ---- properties ----

  lemma {:induction false} FoldAppend(st: PagePreviewText, a: seq<Node>, b: seq<Node>)
    ensures Fold(st, a + b) == Fold(Fold(st, a), b)
    decreases |a|
  {
    if a != [] {
      assert (a + b)[1..] == a[1..] + b;
      FoldAppend(Step(st, a[0]), a[1..], b);
    } else {
      assert a + b == b;
    }
  }

  lemma {:induction false} FoldDone(st: PagePreviewText, ns: seq<Node>)
    requires Done(st)
    ensures Fold(st, ns) == st
    decreases |ns|
  {
    if ns != [] {
      FoldDone(Step(st, ns[0]), ns[1..]);
    }
  }

  /** Stopping early changes nothing: the walk's record is the one a walk
      over every node would produce. */
  lemma {:induction false} EarlyStopIsFullWalk(n: Node, st: PagePreviewText)
    ensures WalkNode(n, st).0 == Fold(st, PreOrder(n))
    ensures WalkNode(n, st).1 ==> Done(WalkNode(n, st).0)
  {
    var st1 := Step(st, n);
    assert PreOrder(n) == [n] + PreOrderList(n.children);
    if Done(st1) {
      FoldDone(st1, PreOrderList(n.children));
    } else {
      EarlyStopIsFullWalkList(n.children, st1);
    }
  }

  lemma {:induction false} EarlyStopIsFullWalkList(cs: seq<Node>, st: PagePreviewText)
    ensures WalkList(cs, st).0 == Fold(st, PreOrderList(cs))
    ensures WalkList(cs, st).1 ==> Done(WalkList(cs, st).0)
    decreases cs
  {
    if cs != [] {
      EarlyStopIsFullWalk(cs[0], st);
      var r0 := WalkNode(cs[0], st);
      FoldAppend(st, PreOrder(cs[0]), PreOrderList(cs[1..]));
      if r0.1 {
        FoldDone(r0.0, PreOrderList(cs[1..]));
      } else {
        EarlyStopIsFullWalkList(cs[1..], r0.0);
      }
    }
  }

  /** Folding from an empty record finds the first non-empty heading text and
      the first non-empty paragraph text, independently of each other. */
  lemma {:induction false} FoldFindsFirst(st: PagePreviewText, ns: seq<Node>)
    ensures Fold(st, ns).title == (if st.title != [] then st.title else FirstText(ns, true))
    ensures Fold(st, ns).body == (if st.body != [] then st.body else FirstText(ns, false))
    decreases |ns|
  {
    if ns != [] {
      FoldFindsFirst(Step(st, ns[0]), ns[1..]);
    }
  }

  /** The stored record: Title is the text of the first heading (of any
      level, wherever it is) with non-empty text, Body the text of the first
      paragraph with non-empty text; each is empty when there is none. */
  lemma PreviewIsFirstHeadingAndParagraph(doc: Node, ctx: Context)
    requires ctx.preview.None?
    ensures Transform(doc, ctx).preview
      == Some(PagePreviewText(FirstText(PreOrder(doc), true), FirstText(PreOrder(doc), false)))
  {
    EarlyStopIsFullWalk(doc, Empty);
    FoldFindsFirst(Empty, PreOrder(doc));
  }

  /** `FirstText` picks the earliest qualifying node: the result is empty
      exactly when no heading (paragraph) has text, and otherwise is the text
      of a qualifying node with none before it. */
  lemma {:induction false} FirstTextIsEarliest(ns: seq<Node>, headings: bool)
    ensures var r := FirstText(ns, headings);
      && (r == [] <==> (forall i :: 0 <= i < |ns| && Qualifies(ns[i], headings) ==> NodeText(ns[i]) == []))
      && (r != [] ==> (exists i :: 0 <= i < |ns| && Qualifies(ns[i], headings) && NodeText(ns[i]) == r &&
                         (forall j :: 0 <= j < i && Qualifies(ns[j], headings) ==> NodeText(ns[j]) == [])))
    decreases |ns|
  {
    if ns != [] {
      FirstTextIsEarliest(ns[1..], headings);
      var r := FirstText(ns, headings);
      if Qualifies(ns[0], headings) && NodeText(ns[0]) != [] {
        assert Qualifies(ns[0], headings) && NodeText(ns[0]) == r;
      } else if r != [] {
        var i :| 0 <= i < |ns[1..]| && Qualifies(ns[1..][i], headings) && NodeText(ns[1..][i]) == r
            && forall j :: 0 <= j < i && Qualifies(ns[1..][j], headings) ==> NodeText(ns[1..][j]) == [];
        assert Qualifies(ns[i + 1], headings) && NodeText(ns[i + 1]) == r;
        assert forall j :: 0 <= j < i + 1 && Qualifies(ns[j], headings) ==> NodeText(ns[j]) == [] by {
          forall j | 0 <= j < i + 1 && Qualifies(ns[j], headings) ensures NodeText(ns[j]) == [] {
            if j > 0 {
              assert ns[j] == ns[1..][j - 1];
            }
          }
        }
      } else {
        assert forall i :: 1 <= i < |ns| ==> ns[i] == ns[1..][i - 1];
      }
    }
  }

  predicate Qualifies(n: Node, headings: bool)
  {
    if headings then n.kind.Heading? else n.kind.Paragraph?
  }

  /** A second run of the transform on the same context changes nothing. */
  lemma TransformIdempotent(doc: Node, ctx: Context)
    ensures Transform(doc, Transform(doc, ctx)) == Transform(doc, ctx)
  {
  }

  /** "# text 11", "## text 22", "# text 33": the first heading wins and,
      with no paragraph, Body stays empty. */
  lemma HeadingsOnlyExample()
    ensures var h1 := Node(Heading(1, None), [Node(Text("text 11", false, false), [])]);
      var h2 := Node(Heading(2, None), [Node(Text("text 22", false, false), [])]);
      var h3 := Node(Heading(1, None), [Node(Text("text 33", false, false), [])]);
      Transform(Node(Other, [h1, h2, h3]), NewContext).preview == Some(PagePreviewText("text 11", []))
  {
    var t1 := Node(Text("text 11", false, false), []);
    var h1 := Node(Heading(1, None), [t1]);
    var h2 := Node(Heading(2, None), [Node(Text("text 22", false, false), [])]);
    var h3 := Node(Heading(1, None), [Node(Text("text 33", false, false), [])]);
    var doc := Node(Other, [h1, h2, h3]);
    PreviewIsFirstHeadingAndParagraph(doc, NewContext);
    assert LeavesNonEmpty(t1);
    assert [t1][1..] == [];
    assert LeavesNonEmptyList([t1]);
    ExtractToBuffer(h1, []);
    assert Flatten(t1) == "text 11";
    assert FlattenList([t1]) == "text 11";
    assert NodeText(h1) == "text 11";
    assert PreOrder(doc)[1] == h1;
    assert FirstText(PreOrder(doc), true) == "text 11";
    FirstTextIsEarliest(PreOrder(doc), false);
    assert forall i :: 0 <= i < |PreOrder(doc)| ==> !PreOrder(doc)[i].kind.Paragraph? by {
      assert PreOrder(doc) == [doc] + PreOrderList([h1, h2, h3]);
      PreOrderHeadingsOnly([h1, h2, h3]);
    }
  }

  lemma PreOrderHeadingsOnly(cs: seq<Node>)
    requires forall i :: 0 <= i < |cs| ==>
      (cs[i].kind.Heading? && |cs[i].children| == 1 && cs[i].children[0].kind.Text? && cs[i].children[0].children == [])
    ensures forall i :: 0 <= i < |PreOrderList(cs)| ==> !PreOrderList(cs)[i].kind.Paragraph?
  {
    if cs != [] {
      var c := cs[0];
      assert PreOrder(c) == [c] + PreOrderList(c.children);
      assert PreOrderList(c.children) == PreOrder(c.children[0]) + PreOrderList(c.children[1..]);
      assert c.children[1..] == [];
      assert PreOrder(c.children[0]) == [c.children[0]];
      PreOrderHeadingsOnly(cs[1..]);
    }
  }
}

=== FILE: toc.dfy ===
/** The heading tree behind `{{ toc }}` (`tocTree` in
    `render/markdown/table_of_contents.go`).

    The source keeps a parent pointer in every node and an insertion point
    `currentRoot`. Insertion only ever happens along the rightmost path from
    the root (the newest node and its ancestors), so the model keeps the tree
    immutable and names the insertion point by its depth on that path. In a
    tree built from the root the level of every node equals its depth
    (`SpineLevel`), so `t.level + 1` in the source is `d + 1` here. */
module Toc {
  import opened Common
  import opened Ast

  /** `newTocTree(level)`: no id, empty title, no children. */
  function NewTocTree(level: int): (r: TocTree)
    ensures r.level == level && r.title == [] && r.headingID == None && r.children == []
  {
    TocTree(None, [], level, [])
  }

  /** Length of the rightmost path below `t`. */
  function SpineDepth(t: TocTree): nat
  {
    if t.children == [] then 0 else 1 + SpineDepth(t.children[|t.children| - 1])
  }

  /** The node at depth `d` on the rightmost path. */
  function SpineNode(t: TocTree, d: nat): TocTree
    requires d <= SpineDepth(t)
  {
    if d == 0 then t else SpineNode(t.children[|t.children| - 1], d - 1)
  }

  /** Appends `x` as the last child of the node at depth `d` on the rightmost
      path; `x` becomes the new end of that path. */
  function AppendAt(t: TocTree, d: nat, x: TocTree): (r: TocTree)
    requires d <= SpineDepth(t)
    ensures SpineDepth(r) == d + 1 + SpineDepth(x)
    ensures SpineNode(r, d + 1) == x
    ensures r.level == t.level && r.title == t.title && r.headingID == t.headingID
  {
    if d == 0 then t.(children := t.children + [x])
    else
      var cs := t.children;
      var last := AppendAt(cs[|cs| - 1], d - 1, x);
      var r := t.(children := cs[..|cs| - 1] + [last]);
      assert r.children[|r.children| - 1] == last;
      r
  }

  function Abs(x: int): nat
  {
    if x < 0 then -x else x
  }

  /** `addChild` called on the node at depth `d` of the rightmost path: a
      shallower node retries at the parent and is dropped at the root, a node
      one level down is appended, and a deeper one gets an empty placeholder
      one level down first. Returns the tree and the next insertion point. */
  function AddChild(t: TocTree, d: nat, child: TocTree): (r: (TocTree, nat))
    requires d <= SpineDepth(t)
    ensures r.1 <= SpineDepth(r.0)
    ensures child.level < 1 ==> r == (t, 0)
    ensures child.level >= 1 ==> r.1 == child.level && SpineNode(r.0, r.1) == child
    ensures r.0.level == t.level
    decreases Abs(child.level - (d + 1))
  {
    if child.level < d + 1 then
      if d == 0 then (t, 0) else AddChild(t, d - 1, child)
    else if child.level == d + 1 then (AppendAt(t, d, child), d + 1)
    else AddChild(AppendAt(t, d, NewTocTree(d + 1)), d + 1, child)
  }

  /** The headings inserted one after another, each starting from the node
      the previous insertion returned. */
  function BuildToc(hs: seq<TocTree>, t: TocTree, d: nat): (r: (TocTree, nat))
    requires d <= SpineDepth(t)
    ensures r.1 <= SpineDepth(r.0)
    decreases |hs|
  {
    if hs == [] then (t, d)
    else
      var (t1, d1) := AddChild(t, d, hs[0]);
      BuildToc(hs[1..], t1, d1)
  }

  // ---- the tree as a list of entries ----

  datatype TocEntry = TocEntry(headingID: Option<Bytes>, title: Bytes, level: int)

  function EntryOf(t: TocTree): TocEntry
  {
    TocEntry(t.headingID, t.title, t.level)
  }

  /** The nodes of a tree in pre-order (the order `toHTML` visits them). */
  function Entries(t: TocTree): (r: seq<TocEntry>)
    ensures |r| >= 1 && r[0] == EntryOf(t)
  {
    [EntryOf(t)] + EntriesList(t.children)
  }

  function EntriesList(cs: seq<TocTree>): seq<TocEntry>
  {
    if cs == [] then [] else Entries(cs[0]) + EntriesList(cs[1..])
  }

  /** Placeholders for the levels `lo` up to, not including, `hi`. */
  function Blanks(lo: int, hi: int): (r: seq<TocEntry>)
    ensures |r| == if lo < hi then hi - lo else 0
    decreases hi - lo
  {
    if lo >= hi then [] else [TocEntry(None, [], lo)] + Blanks(lo + 1, hi)
  }

  /** Reference definition: what a sequence of headings adds to the
      pre-order of the tree, starting at depth `d`. A heading of level below
      1 adds nothing and sends the insertion point back to the root; any
      other heading adds placeholders for the levels it skips below the
      insertion point, then itself. */
  function Expected(hs: seq<TocTree>, d: nat): seq<TocEntry>
    decreases |hs|
  {
    if hs == [] then []
    else if hs[0].level < 1 then Expected(hs[1..], 0)
    else Blanks(d + 1, hs[0].level) + Entries(hs[0]) + Expected(hs[1..], hs[0].level)
  }

  /** Every child is exactly one level below its parent. */
  predicate WellLeveled(t: TocTree)
  {
    forall i :: 0 <= i < |t.children| ==> t.children[i].level == t.level + 1 && WellLeveled(t.children[i])
  }

  // ---- properties ----

  lemma {:induction false} EntriesListAppend(cs: seq<TocTree>, x: TocTree)
    ensures EntriesList(cs + [x]) == EntriesList(cs) + Entries(x)
    decreases |cs|
  {
    if cs == [] {
      assert [x][1..] == [];
    } else {
      assert (cs + [x])[1..] == cs[1..] + [x];
      EntriesListAppend(cs[1..], x);
    }
  }

  /** Appending on the rightmost path appends to the pre-order. */
  lemma {:induction false} AppendAtEntries(t: TocTree, d: nat, x: TocTree)
    requires d <= SpineDepth(t)
    ensures Entries(AppendAt(t, d, x)) == Entries(t) + Entries(x)
    decreases d
  {
    var cs := t.children;
    if d == 0 {
      EntriesListAppend(cs, x);
    } else {
      var last := cs[|cs| - 1];
      AppendAtEntries(last, d - 1, x);
      ReplaceLastEntries(t, AppendAt(last, d - 1, x), Entries(x));
    }
  }

  /** Replacing the last child by one whose pre-order extends the old one
      extends the pre-order of the whole tree by the same entries. */
  lemma ReplaceLastEntries(t: TocTree, last': TocTree, ys: seq<TocEntry>)
    requires t.children != []
    requires Entries(last') == Entries(t.children[|t.children| - 1]) + ys
    ensures Entries(t.(children := t.children[..|t.children| - 1] + [last'])) == Entries(t) + ys
  {
    var cs := t.children;
    var front, last := cs[..|cs| - 1], cs[|cs| - 1];
    assert EntriesList(cs) == EntriesList(front) + Entries(last) by {
      assert cs == front + [last];
      EntriesListAppend(front, last);
    }
    EntriesListAppend(front, last');
    var r := t.(children := front + [last']);
    assert Entries(r) == [EntryOf(t)] + (EntriesList(front) + Entries(last'));
  }

  /** One insertion adds the placeholders for the skipped levels and then
      the new node at the end of the pre-order; a heading of level below 1
      changes nothing. */
  lemma {:induction false} AddChildEntries(t: TocTree, d: nat, child: TocTree)
    requires d <= SpineDepth(t)
    ensures Entries(AddChild(t, d, child).0)
      == Entries(t) + (if child.level < 1 then [] else Blanks(d + 1, child.level) + Entries(child))
    decreases Abs(child.level - (d + 1)), 1
  {
    if child.level < d + 1 {
      if d > 0 {
        assert AddChild(t, d, child) == AddChild(t, d - 1, child);
        AddChildEntries(t, d - 1, child);
        if child.level >= 1 {
          assert Blanks(d, child.level) == [] == Blanks(d + 1, child.level);
        }
      } else {
        assert AddChild(t, d, child).0 == t;
      }
    } else if child.level == d + 1 {
      assert AddChild(t, d, child).0 == AppendAt(t, d, child);
      AppendAtEntries(t, d, child);
      assert Blanks(d + 1, child.level) == [];
    } else {
      PlaceholderEntries(t, d, child);
    }
  }

  /** The placeholder case of `AddChildEntries`. */
  lemma {:induction false} PlaceholderEntries(t: TocTree, d: nat, child: TocTree)
    requires d <= SpineDepth(t) && child.level > d + 1
    ensures Entries(AddChild(t, d, child).0) == Entries(t) + Blanks(d + 1, child.level) + Entries(child)
    decreases Abs(child.level - (d + 1)), 0
  {
    var t1 := AppendAt(t, d, NewTocTree(d + 1));
    var after := AddChild(t1, d + 1, child).0;
    assert AddChild(t, d, child).0 == after;
    var e, b, bs, c := Entries(t), [TocEntry(None, [], d + 1)], Blanks(d + 2, child.level), Entries(child);
    assert Entries(after) == (e + b) + (bs + c) by {
      PlaceholderFirst(t, d);
      AddChildEntries(t1, d + 1, child);
    }
    assert Blanks(d + 1, child.level) == b + bs by {
      BlanksFirst(d + 1, child.level);
    }
    assert (e + b) + (bs + c) == e + (b + bs) + c;
  }

  lemma PlaceholderFirst(t: TocTree, d: nat)
    requires d <= SpineDepth(t)
    ensures Entries(AppendAt(t, d, NewTocTree(d + 1))) == Entries(t) + [TocEntry(None, [], d + 1)]
  {
    AppendAtEntries(t, d, NewTocTree(d + 1));
  }

  lemma BlanksFirst(lo: int, hi: int)
    requires lo < hi
    ensures Blanks(lo, hi) == [TocEntry(None, [], lo)] + Blanks(lo + 1, hi)
  {
  }

  /** The pre-order of a built tree is the reference sequence: the headings
      in document order, each preceded by the placeholders it needed. */
  lemma {:induction false} BuildTocEntries(hs: seq<TocTree>, t: TocTree, d: nat)
    requires d <= SpineDepth(t)
    ensures Entries(BuildToc(hs, t, d).0) == Entries(t) + Expected(hs, d)
    decreases |hs|
  {
    if hs != [] {
      var (t1, d1) := AddChild(t, d, hs[0]);
      AddChildEntries(t, d, hs[0]);
      BuildTocEntries(hs[1..], t1, d1);
    }
  }

  /** Levels along the rightmost path grow by one per step. */
  lemma {:induction false} SpineLevel(t: TocTree, d: nat)
    requires WellLeveled(t) && d <= SpineDepth(t)
    ensures SpineNode(t, d).level == t.level + d
    decreases d
  {
    if d > 0 {
      SpineLevel(t.children[|t.children| - 1], d - 1);
    }
  }

  lemma {:induction false} AppendAtLeveled(t: TocTree, d: nat, x: TocTree)
    requires WellLeveled(t) && d <= SpineDepth(t)
    requires WellLeveled(x) && x.level == t.level + d + 1
    ensures WellLeveled(AppendAt(t, d, x))
    decreases d
  {
    var cs := t.children;
    if d > 0 {
      AppendAtLeveled(cs[|cs| - 1], d - 1, x);
    }
  }

  /** Insertion keeps every child one level below its parent, so the
      source's `t.level + 1` and the model's `d + 1` agree at every step. */
  lemma {:induction false} AddChildLeveled(t: TocTree, d: nat, child: TocTree)
    requires WellLeveled(t) && t.level == 0 && d <= SpineDepth(t)
    requires child.children == []
    ensures WellLeveled(AddChild(t, d, child).0)
    ensures SpineNode(t, d).level + 1 == d + 1
    decreases Abs(child.level - (d + 1))
  {
    SpineLevel(t, d);
    if child.level < d + 1 {
      if d > 0 {
        AddChildLeveled(t, d - 1, child);
      }
    } else if child.level == d + 1 {
      AppendAtLeveled(t, d, child);
    } else {
      var p := NewTocTree(d + 1);
      AppendAtLeveled(t, d, p);
      AddChildLeveled(AppendAt(t, d, p), d + 1, child);
    }
  }

  lemma {:induction false} BuildTocLeveled(hs: seq<TocTree>, t: TocTree, d: nat)
    requires WellLeveled(t) && t.level == 0 && d <= SpineDepth(t)
    requires forall i :: 0 <= i < |hs| ==> hs[i].children == []
    ensures WellLeveled(BuildToc(hs, t, d).0)
    decreases |hs|
  {
    if hs != [] {
      var (t1, d1) := AddChild(t, d, hs[0]);
      AddChildLeveled(t, d, hs[0]);
      BuildTocLeveled(hs[1..], t1, d1);
    }
  }

  /** A document that starts with an H2 gets root -> placeholder(1) -> H2. */
  lemma LeadingH2Example(h: TocTree)
    requires h.level == 2 && h.children == []
    ensures BuildToc([h], NewTocTree(0), 0).0
      == TocTree(None, [], 0, [TocTree(None, [], 1, [h])])
  {
    var root := NewTocTree(0);
    var p := NewTocTree(1);
    var t1 := AppendAt(root, 0, p);
    assert t1 == TocTree(None, [], 0, [p]);
    assert SpineDepth(t1) == 1;
    assert AddChild(t1, 1, h) == (AppendAt(t1, 1, h), 2);
    assert AppendAt(p, 0, h) == TocTree(None, [], 1, [h]);
  }
}

=== FILE: tochtml.dfy ===
/** Rendering of the heading tree (`toHTML` and its helpers) and the
    `{{ toc lo hi }}` range parsing in `renderTableOfContets`. */
module TocHtml {
  import opened Common
  import opened Ast
  import opened Toc

  predicate InRange(level: int, lo: int, hi: int)
  {
    lo <= level && level <= hi
  }

  /** The attributes of the block and its opening tag,
      `<nav class="toc-block">`. */
  const NavAttrs: Bytes := " class=\"toc-block\""
  const NavOpen: Bytes := "<nav" + NavAttrs + ">"

  // ---- the HTML writer, as the source writes it ----

  /** `writeAHref`: an anchor for an in-range node with a title; `href`
      only when the heading has an id. Title and id go out unescaped. */
  function AHref(t: TocTree, lo: int, hi: int): Bytes
  {
    if t.title == [] || !InRange(t.level, lo, hi) then []
    else
      (match t.headingID
       case Some(id) => "<a href=\"#" + id + "\">"
       case None => "<a>") + t.title + "</a>"
  }

  /** `writeBlockBeg` / `writeBlockEnd`: the root is the nav block; any
      other node is a list item when in range. */
  function BlockBeg(t: TocTree, lo: int, hi: int): Bytes
  {
    if t.level == 0 then NavOpen else if InRange(t.level, lo, hi) then "<li>" else []
  }

  function BlockEnd(t: TocTree, lo: int, hi: int): Bytes
  {
    if t.level == 0 then "</nav>" else if InRange(t.level, lo, hi) then "</li>" else []
  }

  /** `toHTML`: the bytes written for a subtree. Out-of-range nodes write
      nothing of their own but their children are still rendered. */
  function ToHTML(t: TocTree, lo: int, hi: int): Bytes
    decreases t, 1
  {
    BlockBeg(t, lo, hi) + AHref(t, lo, hi) + ChildrenHTML(t, lo, hi) + BlockEnd(t, lo, hi)
  }

  /** The children, inside a list when the node itself is in range. */
  function ChildrenHTML(t: TocTree, lo: int, hi: int): Bytes
    decreases t, 0
  {
    if |t.children| > 0 then
      (if InRange(t.level, lo, hi) then "<ul>" else [])
      + ToHTMLList(t.children, lo, hi)
      + (if InRange(t.level, lo, hi) then "</ul>" else [])
    else []
  }

  function ToHTMLList(cs: seq<TocTree>, lo: int, hi: int): Bytes
  {
    if cs == [] then [] else ToHTML(cs[0], lo, hi) + ToHTMLList(cs[1..], lo, hi)
  }

  // ---- the same output as a token stream ----

  datatype Tok = Open(name: Bytes, attrs: Bytes) | Close(name: Bytes) | Raw(text: Bytes)

  function Render(k: Tok): Bytes
  {
    match k
    case Open(name, attrs) => "<" + name + attrs + ">"
    case Close(name) => "</" + name + ">"
    case Raw(text) => text
  }

  function Serialize(ks: seq<Tok>): Bytes
  {
    if ks == [] then [] else Render(ks[0]) + Serialize(ks[1..])
  }

  function AnchorOpen(id: Option<Bytes>): Tok
  {
    match id
    case Some(i) => Open("a", " href=\"#" + i + "\"")
    case None => Open("a", [])
  }

  /** The three tokens of one anchor. */
  function AnchorToks(e: TocEntry): seq<Tok>
  {
    [AnchorOpen(e.headingID), Raw(e.title), Close("a")]
  }

  predicate Visible(e: TocEntry, lo: int, hi: int)
  {
    e.title != [] && InRange(e.level, lo, hi)
  }

  function Wrap(cond: bool, name: Bytes, attrs: Bytes, body: seq<Tok>): seq<Tok>
  {
    if cond then [Open(name, attrs)] + body + [Close(name)] else body
  }

  /** The tokens written for a subtree: its own block around its anchor and
      its children. */
  function Tokens(t: TocTree, lo: int, hi: int): seq<Tok>
    decreases t, 2
  {
    Outer(t.level, lo, hi, ItemBody(t, lo, hi))
  }

  /** The nav block for the root, a list item for an in-range node. */
  function Outer(level: int, lo: int, hi: int, body: seq<Tok>): seq<Tok>
  {
    if level == 0 then Wrap(true, "nav", NavAttrs, body)
    else Wrap(InRange(level, lo, hi), "li", [], body)
  }

  function ItemBody(t: TocTree, lo: int, hi: int): seq<Tok>
    decreases t, 1
  {
    OwnAnchor(t, lo, hi) + ChildTokens(t, lo, hi)
  }

  function OwnAnchor(t: TocTree, lo: int, hi: int): seq<Tok>
  {
    if Visible(EntryOf(t), lo, hi) then AnchorToks(EntryOf(t)) else []
  }

  function ChildTokens(t: TocTree, lo: int, hi: int): seq<Tok>
    decreases t, 0
  {
    if |t.children| > 0 then Wrap(InRange(t.level, lo, hi), "ul", [], TokensList(t.children, lo, hi)) else []
  }

  function TokensList(cs: seq<TocTree>, lo: int, hi: int): seq<Tok>
  {
    if cs == [] then [] else Tokens(cs[0], lo, hi) + TokensList(cs[1..], lo, hi)
  }

  /** Tag matching with a stack of open element names; `None` on a close
      tag that does not match the innermost open one. */
  function Scan(ks: seq<Tok>, stack: seq<Bytes>): Option<seq<Bytes>>
  {
    if ks == [] then Some(stack)
    else match ks[0]
      case Open(n, _) => Scan(ks[1..], stack + [n])
      case Close(n) =>
        if stack != [] && stack[|stack| - 1] == n then Scan(ks[1..], stack[..|stack| - 1]) else None
      case Raw(_) => Scan(ks[1..], stack)
  }

  predicate Balanced(ks: seq<Tok>)
  {
    Scan(ks, []) == Some([])
  }

  /** The anchor tokens and texts of a stream, everything else dropped. */
  function AnchorPart(ks: seq<Tok>): seq<Tok>
  {
    if ks == [] then []
    else if InAnchor(ks[0]) then [ks[0]] + AnchorPart(ks[1..])
    else AnchorPart(ks[1..])
  }

  predicate InAnchor(k: Tok)
  {
    k.Raw? || (k.Open? && k.name == "a") || (k.Close? && k.name == "a")
  }

  /** Reference: one anchor per visible entry, in order. */
  function AnchorsOf(es: seq<TocEntry>, lo: int, hi: int): seq<Tok>
  {
    if es == [] then [] else (if Visible(es[0], lo, hi) then AnchorToks(es[0]) else []) + AnchorsOf(es[1..], lo, hi)
  }

  // ---- properties ----

  lemma {:induction false} SerializeAppend(a: seq<Tok>, b: seq<Tok>)
    ensures Serialize(a + b) == Serialize(a) + Serialize(b)
    decreases |a|
  {
    if a == [] {
      assert a + b == b;
    } else {
      assert (a + b)[1..] == a[1..] + b;
      SerializeAppend(a[1..], b);
    }
  }

  lemma SerializeWrap(cond: bool, name: Bytes, attrs: Bytes, body: seq<Tok>)
    ensures Serialize(Wrap(cond, name, attrs, body))
      == (if cond then Render(Open(name, attrs)) else []) + Serialize(body) + (if cond then Render(Close(name)) else [])
  {
    if cond {
      SerializeAppend([Open(name, attrs)], body);
      SerializeAppend([Open(name, attrs)] + body, [Close(name)]);
      assert Serialize([Close(name)]) == Render(Close(name));
      assert Serialize([Open(name, attrs)]) == Render(Open(name, attrs));
    } else {
      assert [] + Serialize(body) + [] == Serialize(body);
    }
  }

  lemma Serialize3(a: Tok, b: Tok, c: Tok)
    ensures Serialize([a, b, c]) == Render(a) + Render(b) + Render(c)
  {
    assert [a, b, c][1..] == [b, c];
    assert [b, c][1..] == [c];
    assert [c][1..] == [];
    assert Serialize([c]) == Render(c);
    assert Serialize([b, c]) == Render(b) + Render(c);
  }

  lemma AnchorSerialize(t: TocTree, lo: int, hi: int)
    ensures Serialize(OwnAnchor(t, lo, hi)) == AHref(t, lo, hi)
  {
    if Visible(EntryOf(t), lo, hi) {
      Serialize3(AnchorOpen(t.headingID), Raw(t.title), Close("a"));
    }
  }

  /** The written bytes are exactly the token stream serialised. */
  lemma {:induction false} ToHTMLIsTokens(t: TocTree, lo: int, hi: int)
    ensures ToHTML(t, lo, hi) == Serialize(Tokens(t, lo, hi))
    decreases t, 2
  {
    ItemBodyIsTokens(t, lo, hi);
    OuterIsTokens(t, lo, hi);
  }

  /** The block around a node's body, as bytes and as tokens. */
  lemma OuterIsTokens(t: TocTree, lo: int, hi: int)
    ensures Serialize(Tokens(t, lo, hi))
      == BlockBeg(t, lo, hi) + Serialize(ItemBody(t, lo, hi)) + BlockEnd(t, lo, hi)
  {
    OuterBytes(t.level, lo, hi, ItemBody(t, lo, hi));
  }

  lemma OuterBytes(level: int, lo: int, hi: int, body: seq<Tok>)
    ensures Serialize(Outer(level, lo, hi, body))
      == (if level == 0 then NavOpen else if InRange(level, lo, hi) then "<li>" else [])
      + Serialize(body)
      + (if level == 0 then "</nav>" else if InRange(level, lo, hi) then "</li>" else [])
  {
    if level == 0 {
      NavTags();
      SerializeWrap(true, "nav", NavAttrs, body);
    } else if InRange(level, lo, hi) {
      ItemTags();
      SerializeWrap(true, "li", [], body);
    } else {
      assert [] + Serialize(body) + [] == Serialize(body);
    }
  }

  /** The fixed tags are the rendered tokens. */
  lemma NavTags()
    ensures NavOpen == Render(Open("nav", NavAttrs)) && "</nav>" == Render(Close("nav"))
  {
    assert "<" + "nav" == "<nav";
  }

  lemma ItemTags()
    ensures "<li>" == Render(Open("li", [])) && "</li>" == Render(Close("li"))
  {
  }

  lemma ListTags()
    ensures "<ul>" == Render(Open("ul", [])) && "</ul>" == Render(Close("ul"))
  {
  }

  lemma {:induction false} ItemBodyIsTokens(t: TocTree, lo: int, hi: int)
    ensures Serialize(ItemBody(t, lo, hi)) == AHref(t, lo, hi) + ChildrenHTML(t, lo, hi)
    decreases t, 1
  {
    AnchorSerialize(t, lo, hi);
    ChildrenIsTokens(t, lo, hi);
    SerializeAppend(OwnAnchor(t, lo, hi), ChildTokens(t, lo, hi));
  }

  lemma {:induction false} ChildrenIsTokens(t: TocTree, lo: int, hi: int)
    ensures ChildrenHTML(t, lo, hi) == Serialize(ChildTokens(t, lo, hi))
    decreases t, 0
  {
    if |t.children| > 0 {
      ToHTMLListIsTokens(t.children, lo, hi);
      SerializeWrap(InRange(t.level, lo, hi), "ul", [], TokensList(t.children, lo, hi));
      ListTags();
    }
  }

  lemma {:induction false} ToHTMLListIsTokens(cs: seq<TocTree>, lo: int, hi: int)
    ensures ToHTMLList(cs, lo, hi) == Serialize(TokensList(cs, lo, hi))
    decreases cs
  {
    if cs != [] {
      ToHTMLIsTokens(cs[0], lo, hi);
      ToHTMLListIsTokens(cs[1..], lo, hi);
      SerializeAppend(Tokens(cs[0], lo, hi), TokensList(cs[1..], lo, hi));
    }
  }

  lemma {:induction false} ScanAppend(a: seq<Tok>, b: seq<Tok>, s: seq<Bytes>)
    ensures Scan(a + b, s) == (match Scan(a, s) case None => None case Some(s1) => Scan(b, s1))
    decreases |a|
  {
    if a == [] {
      assert a + b == b;
    } else {
      assert (a + b)[1..] == a[1..] + b;
      match a[0]
      case Open(n, _) => ScanAppend(a[1..], b, s + [n]);
      case Close(n) =>
        if s != [] && s[|s| - 1] == n {
          ScanAppend(a[1..], b, s[..|s| - 1]);
        }
      case Raw(_) => ScanAppend(a[1..], b, s);
    }
  }

  lemma ScanWrap(cond: bool, name: Bytes, attrs: Bytes, body: seq<Tok>, s: seq<Bytes>)
    requires Scan(body, s + [name]) == Some(s + [name]) && Scan(body, s) == Some(s)
    ensures Scan(Wrap(cond, name, attrs, body), s) == Some(s)
  {
    if cond {
      ScanAppend([Open(name, attrs)], body, s);
      ScanAppend([Open(name, attrs)] + body, [Close(name)], s);
      assert (s + [name])[..|s + [name]| - 1] == s;
    }
  }

  lemma AnchorScan(e: TocEntry, s: seq<Bytes>)
    ensures Scan(AnchorToks(e), s) == Some(s)
  {
    var ks := AnchorToks(e);
    assert ks[1..] == [Raw(e.title), Close("a")];
    assert ks[1..][1..] == [Close("a")];
    assert ks[1..][1..][1..] == [];
    assert (s + ["a"])[..|s + ["a"]| - 1] == s;
    assert Scan([Close("a")], s + ["a"]) == Some(s);
  }

  /** Every subtree's tokens close what they open, on any stack. */
  lemma {:induction false} TokensScan(t: TocTree, lo: int, hi: int, s: seq<Bytes>)
    ensures Scan(Tokens(t, lo, hi), s) == Some(s)
    decreases t, 2
  {
    ItemBodyScan(t, lo, hi, s);
    if t.level == 0 {
      ItemBodyScan(t, lo, hi, s + ["nav"]);
      ScanWrap(true, "nav", NavAttrs, ItemBody(t, lo, hi), s);
    } else {
      ItemBodyScan(t, lo, hi, s + ["li"]);
      ScanWrap(InRange(t.level, lo, hi), "li", [], ItemBody(t, lo, hi), s);
    }
  }

  lemma {:induction false} ItemBodyScan(t: TocTree, lo: int, hi: int, s: seq<Bytes>)
    ensures Scan(ItemBody(t, lo, hi), s) == Some(s)
    decreases t, 1
  {
    if Visible(EntryOf(t), lo, hi) {
      AnchorScan(EntryOf(t), s);
    }
    if |t.children| > 0 {
      TokensListScan(t.children, lo, hi, s);
      TokensListScan(t.children, lo, hi, s + ["ul"]);
      ScanWrap(InRange(t.level, lo, hi), "ul", [], TokensList(t.children, lo, hi), s);
    }
    ScanAppend(OwnAnchor(t, lo, hi), ChildTokens(t, lo, hi), s);
  }

  lemma {:induction false} TokensListScan(cs: seq<TocTree>, lo: int, hi: int, s: seq<Bytes>)
    ensures Scan(TokensList(cs, lo, hi), s) == Some(s)
    decreases cs
  {
    if cs != [] {
      TokensScan(cs[0], lo, hi, s);
      TokensListScan(cs[1..], lo, hi, s);
      ScanAppend(Tokens(cs[0], lo, hi), TokensList(cs[1..], lo, hi), s);
    }
  }

  /** The output is balanced and, for the root, wrapped in the nav block. */
  lemma TocBalanced(t: TocTree, lo: int, hi: int)
    ensures Balanced(Tokens(t, lo, hi))
    ensures t.level == 0 ==> exists body ::
      Tokens(t, lo, hi) == [Open("nav", NavAttrs)] + body + [Close("nav")] && Balanced(body)
  {
    TokensScan(t, lo, hi, []);
    if t.level == 0 {
      var body := ItemBody(t, lo, hi);
      ItemBodyScan(t, lo, hi, []);
      assert Tokens(t, lo, hi) == [Open("nav", NavAttrs)] + body + [Close("nav")];
    }
  }

  lemma {:induction false} AnchorPartAppend(a: seq<Tok>, b: seq<Tok>)
    ensures AnchorPart(a + b) == AnchorPart(a) + AnchorPart(b)
    decreases |a|
  {
    if a == [] {
      assert a + b == b;
    } else {
      assert (a + b)[1..] == a[1..] + b;
      AnchorPartAppend(a[1..], b);
    }
  }

  lemma {:induction false} AnchorsOfAppend(a: seq<TocEntry>, b: seq<TocEntry>, lo: int, hi: int)
    ensures AnchorsOf(a + b, lo, hi) == AnchorsOf(a, lo, hi) + AnchorsOf(b, lo, hi)
    decreases |a|
  {
    if a == [] {
      assert a + b == b;
    } else {
      assert (a + b)[1..] == a[1..] + b;
      AnchorsOfAppend(a[1..], b, lo, hi);
    }
  }

  lemma AnchorPartWrap(cond: bool, name: Bytes, attrs: Bytes, body: seq<Tok>)
    requires name != "a"
    ensures AnchorPart(Wrap(cond, name, attrs, body)) == AnchorPart(body)
  {
    if cond {
      AnchorPartAppend([Open(name, attrs)], body);
      AnchorPartAppend([Open(name, attrs)] + body, [Close(name)]);
    }
  }

  lemma AnchorPartAnchor(e: TocEntry)
    ensures AnchorPart(AnchorToks(e)) == AnchorToks(e)
  {
    var ks := AnchorToks(e);
    assert ks[1..] == [Raw(e.title), Close("a")];
    assert ks[1..][1..] == [Close("a")];
    assert ks[1..][1..][1..] == [];
    assert AnchorPart([Close("a")]) == [Close("a")];
  }

  /** Anchors appear exactly for the in-range nodes with a title, in
      pre-order, with `href` exactly when the heading has an id; nothing
      else in the output carries text. */
  lemma {:induction false} AnchorsAreVisibleEntries(t: TocTree, lo: int, hi: int)
    ensures AnchorPart(Tokens(t, lo, hi)) == AnchorsOf(Entries(t), lo, hi)
    decreases t, 2
  {
    ItemBodyAnchors(t, lo, hi);
    if t.level == 0 {
      AnchorPartWrap(true, "nav", NavAttrs, ItemBody(t, lo, hi));
    } else {
      AnchorPartWrap(InRange(t.level, lo, hi), "li", [], ItemBody(t, lo, hi));
    }
  }

  lemma {:induction false} ItemBodyAnchors(t: TocTree, lo: int, hi: int)
    ensures AnchorPart(ItemBody(t, lo, hi)) == AnchorsOf(Entries(t), lo, hi)
    decreases t, 1
  {
    var e := EntryOf(t);
    AnchorsAreVisibleEntriesList(t.children, lo, hi);
    if |t.children| > 0 {
      AnchorPartWrap(InRange(t.level, lo, hi), "ul", [], TokensList(t.children, lo, hi));
    } else {
      assert EntriesList(t.children) == [];
    }
    assert AnchorPart(ChildTokens(t, lo, hi)) == AnchorsOf(EntriesList(t.children), lo, hi);
    if Visible(e, lo, hi) {
      AnchorPartAnchor(e);
    }
    assert AnchorPart(OwnAnchor(t, lo, hi)) == AnchorsOf([e], lo, hi);
    AnchorPartAppend(OwnAnchor(t, lo, hi), ChildTokens(t, lo, hi));
    AnchorsOfAppend([e], EntriesList(t.children), lo, hi);
  }

  lemma {:induction false} AnchorsAreVisibleEntriesList(cs: seq<TocTree>, lo: int, hi: int)
    ensures AnchorPart(TokensList(cs, lo, hi)) == AnchorsOf(EntriesList(cs), lo, hi)
    decreases cs
  {
    if cs != [] {
      AnchorsAreVisibleEntries(cs[0], lo, hi);
      AnchorsAreVisibleEntriesList(cs[1..], lo, hi);
      AnchorPartAppend(Tokens(cs[0], lo, hi), TokensList(cs[1..], lo, hi));
      AnchorsOfAppend(Entries(cs[0]), EntriesList(cs[1..]), lo, hi);
    }
  }

  // ---- the level range ----

  predicate IsDigit(c: Byte)
  {
    '0' <= c <= '9'
  }

  function DigitValue(c: Byte): nat
    requires IsDigit(c)
  {
    c as int - '0' as int
  }

  /** The value of a run of decimal digits. */
  function DigitsValue(ds: Bytes): nat
    requires forall i :: 0 <= i < |ds| ==> IsDigit(ds[i])
    decreases |ds|
  {
    if ds == [] then 0 else DigitsValue(ds[..|ds| - 1]) * 10 + DigitValue(ds[|ds| - 1])
  }

  const MinInt32 := -0x8000_0000
  const MaxInt32 := 0x7FFF_FFFF

  /** `strconv.ParseInt(s, 10, 32)`: an optional sign, at least one decimal
      digit and nothing else, with a value that fits in 32 bits; `None` for
      a syntax or range error. */
  function ParseInt32(s: Bytes): (r: Option<int>)
    ensures r.Some? ==> MinInt32 <= r.value <= MaxInt32
    ensures r.Some? ==> s != [] && IsDigit(s[|s| - 1])
  {
    if s == [] then None
    else
      var neg := s[0] == '-';
      var digits := if s[0] == '-' || s[0] == '+' then s[1..] else s;
      if digits == [] || exists i :: 0 <= i < |digits| && !IsDigit(digits[i]) then None
      else
        var v: int := if neg then 0 - (DigitsValue(digits) as int) else DigitsValue(digits);
        if MinInt32 <= v <= MaxInt32 then Some(v) else None
  }

  function DigitChar(k: nat): Byte
    requires k < 10
  {
    ('0' as int + k) as char
  }

  /** Decimal digits of a natural number, no leading zeros. */
  function FormatNat(n: nat): (r: Bytes)
    ensures r != [] && forall i :: 0 <= i < |r| ==> IsDigit(r[i])
    ensures DigitsValue(r) == n
  {
    if n < 10 then [DigitChar(n)]
    else
      var r := FormatNat(n / 10) + [DigitChar(n % 10)];
      assert r[..|r| - 1] == FormatNat(n / 10);
      r
  }

  /** `strconv.Itoa`. */
  function FormatInt(n: int): Bytes
  {
    if n < 0 then "-" + FormatNat(-n) else FormatNat(n)
  }

  /** Parsing reads back every 32-bit value written in decimal, and refuses
      every value outside that range. */
  lemma ParseFormatInt(n: int)
    ensures ParseInt32(FormatInt(n)) == (if MinInt32 <= n <= MaxInt32 then Some(n) else None)
  {
    var s := FormatInt(n);
    if n < 0 {
      assert s[1..] == FormatNat(-n);
    } else {
      assert s[0] != '-' && s[0] != '+';
    }
  }

  /** The level range of a `{{ toc }}` node: 1..6 unless there are at least
      two params that both parse, in which case the first is the low bound
      and the second the high bound. */
  function TocRange(params: seq<Bytes>): (r: (int, int))
    ensures r != (1, 6) ==> |params| >= 2 && ParseInt32(params[0]) == Some(r.0) && ParseInt32(params[1]) == Some(r.1)
    ensures |params| >= 2 && ParseInt32(params[0]).Some? && ParseInt32(params[1]).Some?
      ==> r == (ParseInt32(params[0]).value, ParseInt32(params[1]).value)
  {
    if |params| >= 2 then
      match (ParseInt32(params[0]), ParseInt32(params[1]))
      case (Some(a), Some(b)) => (a, b)
      case _ => (1, 6)
    else (1, 6)
  }

  /** `{{ toc 2 3 }}` selects levels 2 to 3; `{{ toc 2 x }}` keeps 1..6. */
  lemma TocRangeExamples()
    ensures TocRange(["2", "3", "9"]) == (2, 3)
    ensures TocRange(["2", "x"]) == (1, 6)
    ensures TocRange(["2"]) == (1, 6)
  {
    ParseFormatInt(2);
    ParseFormatInt(3);
    assert FormatInt(2) == "2" && FormatInt(3) == "3";
    assert ParseInt32("x") == None by {
      assert !IsDigit("x"[0]);
    }
  }

  /** `renderTableOfContets`: on entering a TOC node, the tree attached to it
      rendered over the node's level range; nothing on exit. The source's
      unchecked type assertion panics on a node with nothing attached. */
  function RenderTableOfContents(sc: ShortCodeNode, entering: bool): (r: Bytes)
    requires entering ==> sc.context.Some?
    ensures !entering ==> r == []
    ensures entering ==> var (lo, hi) := TocRange(sc.params);
      r == Serialize(Tokens(sc.context.value, lo, hi)) && Balanced(Tokens(sc.context.value, lo, hi))
  {
    if !entering then []
    else
      var (lo, hi) := TocRange(sc.params);
      ToHTMLIsTokens(sc.context.value, lo, hi);
      TocBalanced(sc.context.value, lo, hi);
      ToHTML(sc.context.value, lo, hi)
  }
}

=== FILE: toctransform.dfy ===
/** `tocTransformer.Transform`: one walk over the document that inserts every
    heading into a fresh heading tree, then hands that tree to every `{{ toc }}`
    node the parser recorded. */
module TocTransform {
  import opened Common
  import opened Ast
  import opened RenderContext
  import opened TextExtract
  import opened Toc

  /** The walk, entering `n` with insertion point `d`: a heading is inserted
      (its children are skipped); a heading whose text extraction fails stops
      the whole walk, keeping what was built so far. Returns the tree, the
      insertion point and whether the walk was stopped. */
  function WalkNode(n: Node, t: TocTree, d: nat): (r: (TocTree, nat, bool))
    requires d <= SpineDepth(t)
    ensures r.1 <= SpineDepth(r.0)
  {
    if n.kind.Heading? then
      var ex := ExtractNode(n, Sink([], None));
      if ex.1 != Continue then (t, d, true)
      else
        var (t1, d1) := AddChild(t, d, TocTree(n.kind.id, ex.0.out, n.kind.level, []));
        (t1, d1, false)
    else WalkList(n.children, t, d)
  }

  function WalkList(cs: seq<Node>, t: TocTree, d: nat): (r: (TocTree, nat, bool))
    requires d <= SpineDepth(t)
    ensures r.1 <= SpineDepth(r.0)
  {
    if cs == [] then (t, d, false)
    else
      var r0 := WalkNode(cs[0], t, d);
      if r0.2 then r0 else WalkList(cs[1..], r0.0, r0.1)
  }

  /** The tree the walk builds from a fresh root. */
  function TocTreeOf(doc: Node): TocTree
  {
    WalkNode(doc, NewTocTree(0), 0).0
  }

  /** Hands the tree to a TOC node. */
  function AttachKind(k: Kind, tree: TocTree): (r: Kind)
    ensures r.Shortcode? <==> k.Shortcode?
    ensures r.Shortcode? && k.sc.kind == TOCShortcode
      ==> r.sc == ShortCodeNode(TOCShortcode, k.sc.params, Some(tree))
    ensures !(k.Shortcode? && k.sc.kind == TOCShortcode) ==> r == k
  {
    if k.Shortcode? && k.sc.kind == TOCShortcode then Shortcode(k.sc.(context := Some(tree))) else k
  }

  /** The document with every TOC node holding the tree; the nodes in the
      recorded list are the document's TOC nodes, so setting the field
      through the list is setting it in the tree. */
  function Attach(n: Node, tree: TocTree): Node
  {
    Node(AttachKind(n.kind, tree), AttachList(n.children, tree))
  }

  function AttachList(cs: seq<Node>, tree: TocTree): (r: seq<Node>)
    ensures |r| == |cs|
  {
    if cs == [] then [] else [Attach(cs[0], tree)] + AttachList(cs[1..], tree)
  }

  function AttachAll(ns: seq<ShortCodeNode>, tree: TocTree): (r: seq<ShortCodeNode>)
    ensures |r| == |ns|
    ensures forall i :: 0 <= i < |ns| ==> r[i] == ns[i].(context := Some(tree))
  {
    seq(|ns|, i requires 0 <= i < |ns| => ns[i].(context := Some(tree)))
  }

  /** The transform: nothing when shortcodes are switched off; otherwise the
      tree is built and, when the parser recorded TOC nodes, every one of
      them gets that same tree. */
  function Transform(doc: Node, ctx: Context): (r: (Node, Context))
    ensures !ShortcodesEnabled(ctx) ==> r == (doc, ctx)
    ensures ctx.tocNodes.None? ==> r == (doc, ctx)
    ensures ShortcodesEnabled(ctx) && ctx.tocNodes.Some? ==>
      && r.1 == ctx.(tocNodes := r.1.tocNodes)
      && r.1.tocNodes.Some? && |r.1.tocNodes.value| == |ctx.tocNodes.value|
      && (forall i :: 0 <= i < |ctx.tocNodes.value| ==>
            r.1.tocNodes.value[i] == ctx.tocNodes.value[i].(context := Some(TocTreeOf(doc))))
  {
    if !ShortcodesEnabled(ctx) then (doc, ctx)
    else
      var tree := TocTreeOf(doc);
      match ctx.tocNodes
      case None => (doc, ctx)
      case Some(ns) => (Attach(doc, tree), ctx.(tocNodes := Some(AttachAll(ns, tree))))
  }

  // ---- reference definitions ----

  /** The headings of a document in order, not looking inside headings. */
  function HeadingsOf(n: Node): (r: seq<Node>)
    ensures forall i :: 0 <= i < |r| ==> r[i].kind.Heading?
  {
    if n.kind.Heading? then [n] else HeadingsOfList(n.children)
  }

  function HeadingsOfList(cs: seq<Node>): (r: seq<Node>)
    ensures forall i :: 0 <= i < |r| ==> r[i].kind.Heading?
  {
    if cs == [] then [] else HeadingsOf(cs[0]) + HeadingsOfList(cs[1..])
  }

  /** The headings before the first one whose text extraction fails. */
  function GoodPrefix(hs: seq<Node>): (r: seq<Node>)
    ensures |r| <= |hs| && r == hs[..|r|]
    ensures r == hs <==> forall i :: 0 <= i < |hs| ==> LeavesNonEmpty(hs[i])
    ensures r != hs ==> !LeavesNonEmpty(hs[|r|])
  {
    if hs == [] then []
    else if !LeavesNonEmpty(hs[0]) then []
    else
      var rest := GoodPrefix(hs[1..]);
      assert forall i :: 1 <= i < |hs| ==> hs[i] == hs[1..][i - 1];
      [hs[0]] + rest
  }

  /** The tree node a heading becomes. */
  function Leaf(h: Node): (r: TocTree)
    requires h.kind.Heading?
    ensures r.children == [] && r.level == h.kind.level && r.headingID == h.kind.id
  {
    TocTree(h.kind.id, NodeText(h), h.kind.level, [])
  }

  function Leaves(hs: seq<Node>): (r: seq<TocTree>)
    requires forall i :: 0 <= i < |hs| ==> hs[i].kind.Heading?
    ensures |r| == |hs| && forall i :: 0 <= i < |hs| ==> r[i] == Leaf(hs[i])
  {
    if hs == [] then [] else [Leaf(hs[0])] + Leaves(hs[1..])
  }

  // ---- properties ----

  lemma {:induction false} GoodPrefixAppend(a: seq<Node>, b: seq<Node>)
    ensures GoodPrefix(a + b) == if GoodPrefix(a) == a then a + GoodPrefix(b) else GoodPrefix(a)
    decreases |a|
  {
    if a == [] {
      assert a + b == b;
    } else {
      assert (a + b)[1..] == a[1..] + b;
      assert (a + b)[0] == a[0];
      GoodPrefixAppend(a[1..], b);
      if LeavesNonEmpty(a[0]) && GoodPrefix(a[1..]) == a[1..] {
        assert [a[0]] + a[1..] == a;
      }
    }
  }

  lemma {:induction false} LeavesAppend(a: seq<Node>, b: seq<Node>)
    requires forall i :: 0 <= i < |a| ==> a[i].kind.Heading?
    requires forall i :: 0 <= i < |b| ==> b[i].kind.Heading?
    ensures Leaves(a + b) == Leaves(a) + Leaves(b)
  {
  }

  lemma {:induction false} BuildTocAppend(a: seq<TocTree>, b: seq<TocTree>, t: TocTree, d: nat)
    requires d <= SpineDepth(t)
    ensures BuildToc(a + b, t, d) == var r := BuildToc(a, t, d); BuildToc(b, r.0, r.1)
    decreases |a|
  {
    if a == [] {
      assert a + b == b;
    } else {
      assert (a + b)[1..] == a[1..] + b;
      var (t1, d1) := AddChild(t, d, a[0]);
      BuildTocAppend(a[1..], b, t1, d1);
    }
  }

  /** The walk inserts exactly the headings before the first failing one,
      in document order, and reports a stop exactly when there is a failing
      one. */
  lemma {:induction false} WalkIsBuild(n: Node, t: TocTree, d: nat)
    requires d <= SpineDepth(t)
    ensures var hs := HeadingsOf(n);
      var b := BuildToc(Leaves(GoodPrefix(hs)), t, d);
      WalkNode(n, t, d) == (b.0, b.1, GoodPrefix(hs) != hs)
    decreases n, 1
  {
    if n.kind.Heading? {
      ExtractToBuffer(n, []);
      assert [n][1..] == [];
      assert Leaves([n]) == [Leaf(n)];
    } else {
      WalkListIsBuild(n.children, t, d);
    }
  }

  lemma {:induction false} WalkListIsBuild(cs: seq<Node>, t: TocTree, d: nat)
    requires d <= SpineDepth(t)
    ensures var hs := HeadingsOfList(cs);
      var b := BuildToc(Leaves(GoodPrefix(hs)), t, d);
      WalkList(cs, t, d) == (b.0, b.1, GoodPrefix(hs) != hs)
    decreases cs, 0
  {
    if cs != [] {
      var h0 := HeadingsOf(cs[0]);
      var hr := HeadingsOfList(cs[1..]);
      WalkIsBuild(cs[0], t, d);
      GoodPrefixAppend(h0, hr);
      var r0 := WalkNode(cs[0], t, d);
      if !r0.2 {
        WalkListIsBuild(cs[1..], r0.0, r0.1);
        GoodHeadStep(h0, hr, t, d);
      }
    }
  }

  /** When the first headings all succeed, building from the combined list
      is building from the rest onto what the first ones built. */
  lemma GoodHeadStep(h0: seq<Node>, hr: seq<Node>, t: TocTree, d: nat)
    requires d <= SpineDepth(t)
    requires forall i :: 0 <= i < |h0| ==> h0[i].kind.Heading?
    requires forall i :: 0 <= i < |hr| ==> hr[i].kind.Heading?
    requires GoodPrefix(h0) == h0
    ensures var b0 := BuildToc(Leaves(h0), t, d);
      && BuildToc(Leaves(GoodPrefix(h0 + hr)), t, d) == BuildToc(Leaves(GoodPrefix(hr)), b0.0, b0.1)
      && (GoodPrefix(h0 + hr) != h0 + hr <==> GoodPrefix(hr) != hr)
  {
    GoodPrefixAppend(h0, hr);
    var g := GoodPrefix(hr);
    assert GoodPrefix(h0 + hr) == h0 + g;
    LeavesAppend(h0, g);
    BuildTocAppend(Leaves(h0), Leaves(g), t, d);
    assert h0 + g == h0 + hr ==> g == hr by {
      if h0 + g == h0 + hr {
        assert g == (h0 + g)[|h0|..] && hr == (h0 + hr)[|h0|..];
      }
    }
  }

  /** The tree of a document: below the root, the pre-order lists the
      headings (up to the first failing one) in document order, each preceded
      by placeholders for the levels it skipped; every child is one level
      below its parent. */
  lemma TocTreeOfHeadings(doc: Node)
    ensures var hs := GoodPrefix(HeadingsOf(doc));
      Entries(TocTreeOf(doc)) == [TocEntry(None, [], 0)] + Expected(Leaves(hs), 0)
    ensures WellLeveled(TocTreeOf(doc))
  {
    var hs := GoodPrefix(HeadingsOf(doc));
    WalkIsBuild(doc, NewTocTree(0), 0);
    BuildTocEntries(Leaves(hs), NewTocTree(0), 0);
    BuildTocLeveled(Leaves(hs), NewTocTree(0), 0);
  }

  function KindsOf(ns: seq<Node>): (r: seq<Kind>)
    ensures |r| == |ns| && forall i :: 0 <= i < |ns| ==> r[i] == ns[i].kind
  {
    if ns == [] then [] else [ns[0].kind] + KindsOf(ns[1..])
  }

  function AttachKinds(ks: seq<Kind>, tree: TocTree): (r: seq<Kind>)
    ensures |r| == |ks| && forall i :: 0 <= i < |ks| ==> r[i] == AttachKind(ks[i], tree)
  {
    if ks == [] then [] else [AttachKind(ks[0], tree)] + AttachKinds(ks[1..], tree)
  }

  lemma {:induction false} AttachPreOrder(n: Node, tree: TocTree)
    ensures KindsOf(PreOrder(Attach(n, tree))) == AttachKinds(KindsOf(PreOrder(n)), tree)
    decreases n, 1
  {
    AttachListPreOrder(n.children, tree);
    assert Attach(n, tree).children == AttachList(n.children, tree);
  }

  lemma {:induction false} AttachListPreOrder(cs: seq<Node>, tree: TocTree)
    ensures KindsOf(PreOrderList(AttachList(cs, tree))) == AttachKinds(KindsOf(PreOrderList(cs)), tree)
    decreases cs, 0
  {
    if cs != [] {
      AttachPreOrder(cs[0], tree);
      AttachListPreOrder(cs[1..], tree);
      assert AttachList(cs, tree)[0] == Attach(cs[0], tree);
      assert AttachList(cs, tree)[1..] == AttachList(cs[1..], tree);
    }
  }

  /** After the transform, every TOC node of the document holds the tree
      built from the document's headings, and every other node is as it was;
      so rendering any TOC node is defined. */
  lemma EveryTocNodeGetsTheTree(doc: Node, ctx: Context)
    requires ShortcodesEnabled(ctx) && ctx.tocNodes.Some?
    ensures var d2 := Transform(doc, ctx).0;
      && |PreOrder(d2)| == |PreOrder(doc)|
      && forall i :: 0 <= i < |PreOrder(doc)| ==>
           PreOrder(d2)[i].kind == AttachKind(PreOrder(doc)[i].kind, TocTreeOf(doc))
  {
    var d2 := Transform(doc, ctx).0;
    AttachPreOrder(doc, TocTreeOf(doc));
    assert KindsOf(PreOrder(d2)) == AttachKinds(KindsOf(PreOrder(doc)), TocTreeOf(doc));
  }
}
